=== FILE: README.md ===
# Inviso editor core, modelled in Dafny

Inviso is a browser editor for spatial audio scenes built on three.js and
Web Audio. A listener (the "head") walks over a floor plane. The user places
three kinds of element on that floor:

- **sound objects** carry directional sound cones and can follow a
  trajectory;
- **sound trajectories** are editable Catmull-Rom paths, closed into a loop
  when their ends come within 40 units of each other;
- **sound zones** are closed regions whose sound starts when the listener
  walks in and stops when the listener walks out.

The repository holds two copies of the editor. One is the ES-module
application under `src/js/app`. The other is the older global-script version
in the root directory (`SoundObject.js`, `SoundTrajectory.js`, `SoundZone.js`,
`gui.js`, `controls.js`). Where the copies behave differently, the model
takes a `Revision` argument: `Modules` or `Globals`.

## What the model covers

- **Point lists** (`Paths`, `JsArrays`):
  - the closure rule;
  - the nearest-segment insertion scan of `addPoint`/`addNewPoint`, as a
    function and as the source's loop;
  - whole-path translation;
  - the exact `indexOf`/`splice` behaviour, including `splice(-1, 1)`
    dropping the last element.
- **Trajectory playback** (`Playback`): the clock in [0, 1] that bounces at
  the ends of an open spline and wraps around a closed one, and the
  per-tick increment derived from the arc length.
- **Audio poses** (`Matrices`): `setListenerPosition` and `setAudioPosition`
  as operations on 4x4 matrices.
- **The three element kinds** (`SoundObjects`, `Trajectories`, `Zones`):
  construction, cone creation, dragging in both views, point insertion and
  removal, activation, and zone enter/leave audio.
- **Object registry and freehand drawing** (`Scene`, `Drawing`): the
  registry of elements, and the freehand stroke that becomes a trajectory, a
  zone or a sound object.
- **Editor state** (`Editor`): the frame loop's gating of playback, the zone
  pass, mute fan-out, removal from the lists, `setActiveObject`, the adding
  modes and the edit-object view.
- **Input handlers** (`Input`): the keyboard handlers with the delete-key
  table, the cone-selection toggle, and mouse-up.
- **Parameter panel** (`Gui`): the zone centroid and the panel's
  build-or-refresh cache.

## How JavaScript behaviour is represented

- Numbers are `real`.
- A raised `TypeError` is a `Result.TypeError` for pure computations, or an
  `Outcome.Threw` that carries the state at the moment of the throw.
- Random draws, `Math.atan`, three.js curve sampling (`getPoint`,
  `getPointAt`, `getLength`), vector normalisation, raycast hits and
  `simplify` are parameters.

## Model

| member | source | states |
|---|---|---|
| `Vectors.MapRange` | SoundTrajectory.js:432-435 | the result sits in the target range in the same proportion as the value in the source range |
| `Vectors.MapRangeEnds` | SoundTrajectory.js:432-435 | mapRange sends the low end of the source range to the low end of the target range, and the high end to the high end |
| `Vectors.MapRangeAffine` | SoundTrajectory.js:432-435 | mapRange is affine: it maps a weighted average of two values to the same weighted average of their images |
| `Vectors.MapRangeMonotone` | SoundTrajectory.js:432-435 | on increasing ranges, mapRange preserves order |
| `JsArrays.IndexOf` | src/js/app/main.js:620 | indexOf gives the first position holding the element; it gives -1 exactly when the element is absent |
| `JsArrays.SpliceRemove` | src/js/app/main.js:623 | a one-element splice inside the array shifts the tail down by one; -1 drops the last element; a start past the end changes nothing; the result only holds elements of the input |
| `JsArrays.SpliceInsert` | src/js/app/components/soundtrajectory.js:260 | an insertion puts the element at the start position, keeps the prefix, and shifts the rest up by one |
| `JsArrays.RemoveUndoesInsert` | src/js/app/components/soundtrajectory.js:260 | removing at the position just inserted at restores the array |
| `JsArrays.InsertUndoesRemove` | src/js/app/components/soundtrajectory.js:267 | reinserting a removed element at its position restores the array |
| `Paths.EndsMeet` | src/js/app/components/soundtrajectory.js:59-62 | the closure rule does not depend on which end is measured from, and a one-point path is closed |
| `Paths.TranslateAll` | src/js/app/components/soundzone.js:206-222 | a whole-path translation keeps the number of points and moves each point by the same offset; a trajectory moves its spline points the same way (src/js/app/components/soundtrajectory.js:157-170) |
| `Paths.SquaredClosureTest` | src/js/app/components/soundtrajectory.js:59-62 | the source's test `distanceTo < 40` agrees with the squared-distance closure rule for every non-negative distance |
| `Paths.TranslationKeepsClosure` | src/js/app/components/soundtrajectory.js:144-174 | dragging a whole path never opens or closes it |
| `Paths.TranslationUndone` | src/js/app/components/soundzone.js:206-222 | dragging back by the opposite offset restores every point |
| `Paths.NextIndex` | src/js/app/components/soundtrajectory.js:245-248 | the scan pointer stays a valid index, and it wraps to 0 exactly from the last point |
| `Paths.Advance` | src/js/app/components/soundtrajectory.js:243-251 | one sample either keeps the pointer or moves it one point forward |
| `Paths.Track` | src/js/app/components/soundtrajectory.js:240-258 | the pointer trace has one valid index per sample |
| `Paths.FirstArgmin` | src/js/app/components/soundtrajectory.js:253-257 | the chosen sample is no farther from the click than any other, and strictly nearer than every earlier one |
| `Paths.InsertionIndex` | src/js/app/components/soundtrajectory.js:234-263 | the insertion index is an existing position when there are samples; it can equal the length only with no samples |
| `Paths.ScanInsertionIndex` | src/js/app/components/soundtrajectory.js:234-258 | the source's loop (starting pointer 0, previous distance -1, minimum Number.MAX_VALUE, minPoint 1) returns the insertion index; it returns 1 with no samples and an existing index otherwise |
| `Paths.TrackSteps` | src/js/app/components/soundtrajectory.js:243-251 | between consecutive samples the pointer stays or advances by one, with wrap-around |
| `Paths.TrackNoWrap` | src/js/app/components/soundtrajectory.js:243-251 | before it can pass the last point, the pointer stays between its start and the number of samples seen |
| `Paths.PointerLeavesZero` | src/js/app/components/soundtrajectory.js:238-251 | since every distance exceeds the initial -1, the first sample moves the pointer to 1, and it stays at least 1 until it can wrap |
| `Paths.InsertAtZeroOnlyAfterWrap` | src/js/app/components/soundtrajectory.js:234-260 | a point is inserted before the first control point only if the nearest sample comes after the pointer has wrapped around |
| `Paths.InsertionIndexIsFirstNearest` | src/js/app/components/soundtrajectory.js:253-260 | the insertion index is the pointer at the first sample nearest the click; ties keep the earlier sample |
| `Playback.Follow` | src/js/app/components/soundobject.js:226-245 | after one tick the clock lies in [0, 1]. Inside the range it moves by direction times increment. Past 1 it wraps to 0 on a closed spline, or bounces to 1 and turns around on an open one. Below 0 it wraps to 1, or bounces to 0 and turns around. Speed and increment are untouched |
| `Playback.FollowKeepsRange` | src/js/app/components/soundobject.js:226-245 | one tick keeps the clock in [0, 1] and the direction at ±1, and it never turns around on a closed spline |
| `Playback.FollowNKeepsRange` | src/js/app/components/soundobject.js:226-245 | any number of ticks keeps the clock in [0, 1] and the direction at ±1, never turns around on a closed spline, and never changes speed or increment |
| `Playback.DefaultHeadsTowardZero` | src/js/data/config.js:51-59 | from the configured defaults (clock 1, direction 1), a tick moves the clock down by the increment |
| `Playback.BounceAndWrapNearOne` | src/js/app/components/soundobject.js:230-237 | clock 0.98 heading up with increment 0.05 bounces to 1 on an open spline and wraps to 0 on a closed one |
| `Playback.CalculateIncrement` | src/js/app/components/soundobject.js:261-265 | the increment times the arc length equals the speed: one tick covers `speed` units of path |
| `Matrices.RestoreAfterZeroing` | src/js/app/main.js:324-349 | writing the saved translation back into the zeroed matrix restores the original matrix |
| `Matrices.LinearIgnoresTranslation` | src/js/app/main.js:334-340 | matrices that differ only in translation have the same zeroed matrix |
| `Matrices.SetListenerPosition` | src/js/app/main.js:324-349 | the listener gets the head's world translation as position and the orientation of the translation-free local matrix; the local matrix ends unchanged |
| `Matrices.ListenerOrientationIgnoresTranslation` | src/js/app/main.js:324-349 | moving the head never changes the forward and up vectors the listener receives |
| `Matrices.SetAudioPosition` | src/js/app/components/soundobject.js:97-123 | the panner gets the updated world translation and orientation in both copies. The legacy copy ends with the updated matrix. The ES-module copy ends with it exactly when the translation did not change, because it restores the stale translation |
| `SoundObjects.New` | src/js/app/components/soundobject.js:7-63 | a new object sits at the mouse with no cones, no trajectory, and playback clock 1, speed 5, direction 1, no increment |
| `SoundObjects.CreateCone` | src/js/app/components/soundobject.js:65-95 | createCone appends exactly one cone. Its width is in [50, 100) and its height in [100, 150); the outer angle is 1.5 times the inner; outer gain is 0.05 and reference distance 50; gain is in [0.2, 1) and grows with the height draw. Nothing else changes |
| `SoundObjects.TallerConesLouder` | src/js/app/components/soundobject.js:65-95 | a larger height draw never gives a quieter cone |
| `SoundObjects.AltitudeGuardAlwaysHolds` | src/js/app/components/soundobject.js:176 | the altitude guard `y > -200 \|\| y < 200` is true for every height |
| `SoundObjects.DragHeight` | src/js/app/components/soundobject.js:166-172 | the perspective height change is 400 times the vertical drag in normalised screen units |
| `SoundObjects.Move` | src/js/app/components/soundobject.js:163-196 | a perspective drag changes only the height, by 400 times the vertical drag since the last recorded offset, and records the new offset. An aerial drag moves the object to the mouse's x and z and keeps its height. The cones, the link to the trajectory and the playback state are kept; the linked trajectory itself is dragged by `Editor.DragObject` |
| `SoundObjects.Select` | src/js/app/components/soundobject.js:159-161 | select records the unscaled mouse height as the drag offset and changes nothing else |
| `SoundObjects.SelectThenDrag` | src/js/app/components/soundobject.js:159-177 | a perspective drag right after select lifts the object by 400 times the drag measured from the click |
| `SoundObjects.PerspectiveDragsCompose` | src/js/app/components/soundobject.js:163-182 | two perspective drags raise the object by the total drag since the first recorded offset |
| `SoundObjects.AltitudeIsNotClamped` | src/js/app/components/soundobject.js:176 | a quarter-screen drag from altitude 150 reaches 250, beyond the ±200 the guard seems to protect |
| `SoundObjects.AerialMovesKeepHeight` | src/js/app/components/soundobject.js:183-190 | any sequence of aerial drags keeps the height |
| `SoundObjects.FollowTrajectory` | src/js/app/components/soundobject.js:226-259 | without a trajectory nothing changes. With one, the playback makes one tick and the object sits on the spline at the new clock, which lies in [0, 1]; cones, trajectory and offset are kept |
| `SoundObjects.FollowTrajectoryKeepsRange` | src/js/app/components/soundobject.js:226-259 | following a trajectory keeps the playback state in range, and on a closed spline never turns around |
| `SoundObjects.CalculateMovementSpeed` | src/js/app/components/soundobject.js:261-265 | with a trajectory, the increment times the arc length equals the speed and nothing else changes; without one, nothing changes |
| `Trajectories.RenderPath` | src/js/app/components/soundtrajectory.js:27-75 | rebuilding throws exactly when there are no points; otherwise only the closed flag changes, and it becomes true exactly when the ends meet |
| `Trajectories.RenderPathRecomputes` | src/js/app/components/soundtrajectory.js:59-62 | the previous closed flag makes no difference, and rebuilding twice is rebuilding once |
| `Trajectories.New` | src/js/app/components/soundtrajectory.js:7-25 | construction throws exactly on an empty list; otherwise the trajectory is well formed, active, holds the points, and has no selection and no parent |
| `Trajectories.SetMouseOffset` | src/js/app/components/soundtrajectory.js:117-121 | records the drag start (x, z and the unscaled height) and leaves the path alone |
| `Trajectories.SetActive` | src/js/app/components/soundtrajectory.js:186-194 | activates without touching the path or the selection |
| `Trajectories.SetInactive` | src/js/app/components/soundtrajectory.js:196-204 | deactivates and deselects, keeping the path |
| `Trajectories.ReactivateLosesOnlySelection` | src/js/app/components/soundtrajectory.js:186-204 | deactivating then reactivating an active trajectory loses only the selection and keeps it well formed |
| `Trajectories.AddPoint` | src/js/app/components/soundtrajectory.js:234-263 | adding a point grows the path by one, puts the click at the scan's index (removing it there gives back the old path), selects it, and keeps the trajectory well formed |
| `Trajectories.AddPointKeepsOrder` | src/js/app/components/soundtrajectory.js:260 | old points before the insertion index stay put and the rest shift up by one |
| `Trajectories.RemovePoint` | src/js/app/components/soundtrajectory.js:265-270 | removal deselects. It throws exactly when no point is left. A selected point is removed, and reinserting it restores the path. With no selection the last point goes. At most one point is lost |
| `Trajectories.RemovePointKeepsOthers` | src/js/app/components/soundtrajectory.js:265-270 | with two or more points, removing the selected one succeeds and every other point keeps its relative order |
| `Trajectories.MoveSelectedPoint` | SoundTrajectory.js:164-185 | dragging a selected point changes only that point. In perspective view it takes the mapped mouse height and keeps x and z; in aerial view it takes the mouse's x and z and keeps its height. The path is rebuilt and the selection is kept |
| `Trajectories.MoveWholePath` | src/js/app/components/soundtrajectory.js:144-174 | dragging the whole path translates every point: vertically by the mapped drag in perspective view, horizontally by the mouse change in aerial view. The matching offset is updated and the closed flag is kept |
| `Trajectories.AerialDragReturns` | src/js/app/components/soundtrajectory.js:157-170 | an aerial drag to the mouse and back to the recorded offset restores the path |
| `Trajectories.Move` | src/js/app/components/soundtrajectory.js:123-175 | move throws exactly in the ES-module copy for a perspective single-point drag; it then leaves the moved height with a stale closed flag. Every other drag matches the corrected single-point move or the whole-path move |
| `Trajectories.PerspectivePointDragThrows` | src/js/app/components/soundtrajectory.js:124-143 | a concrete open three-point path whose last point is dragged onto the first: the ES-module copy throws and leaves an ill-formed path marked open; the legacy copy closes it |
| `Zones.New` | src/js/app/components/soundzone.js:4-29 | a new zone holds the points and is active, closed, silent, soundless and unselected |
| `Zones.RenderPath` | src/js/app/components/soundzone.js:106-108 | a zone's spline is closed whatever its ends, and the points and selection are kept |
| `Zones.ZoneClosedWithOpenEnds` | src/js/app/components/soundzone.js:106-108 | a zone whose ends are 200 apart is still closed, unlike a trajectory |
| `Zones.UnderUser` | src/js/app/components/soundzone.js:31-41 | a zone with a sound that is not playing starts a source, ramps to 0.3 and becomes playing; otherwise nothing happens |
| `Zones.UnderUserIdempotent` | src/js/app/components/soundzone.js:31-41 | a second underUser changes nothing and makes no audio calls |
| `Zones.NotUnderUserGuarded` | SoundZone.js:26-35 | a playing zone with a sound ramps to 0, stops its source if it has one, and becomes silent; otherwise nothing happens |
| `Zones.NotUnderUser` | src/js/app/components/soundzone.js:43-49 | the ES-module copy throws exactly for a playing zone whose sound has no source, after scheduling the ramp. Otherwise both copies behave as the guarded version |
| `Zones.EnterThenLeave` | src/js/app/components/soundzone.js:31-49 | entering and then leaving a zone with a sound succeeds in both copies and ends silent, with a ramp and a stop |
| `Zones.SilentWithoutSound` | src/js/app/components/soundzone.js:31-49 | without a sound, entering and leaving change nothing |
| `Zones.LoadSound` | src/js/app/components/soundzone.js:51-72 | a fresh sound with gain 0 and no source replaces the old one, and the playing flag is kept. The legacy copy records the name and stops an old source |
| `Zones.LeaveAfterReloadThrows` | src/js/app/components/soundzone.js:43-72 | reloading the sound of a playing zone and then leaving it throws in the ES-module copy and goes silent in the legacy copy |
| `Zones.SetMouseOffset` | src/js/app/components/soundzone.js:183-186 | records the drag start's x and z and keeps points, selection and playback |
| `Zones.SetActive` | src/js/app/components/soundzone.js:235-240 | activates and records the mouse as the drag start |
| `Zones.SetInactive` | src/js/app/components/soundzone.js:242-248 | deactivates and deselects, keeping points and sound |
| `Zones.AddPoint` | src/js/app/components/soundzone.js:276-305 | the same scan-and-insert as a trajectory's: the path grows by one with the click at the scan's index, the click is selected, the zone stays well formed and its sound is kept |
| `Zones.RemovePoint` | src/js/app/components/soundzone.js:268-274 | removal deselects and keeps the zone closed. A selected point is removed and the rest keep their order; with no selection the last point goes. At most one point is lost |
| `Zones.Move` | src/js/app/components/soundzone.js:195-224 | a perspective drag does nothing. An aerial drag of a selected point replaces it with the whole mouse vector. An aerial drag with no selection translates the zone by the mouse change since the offset and records the mouse |
| `Zones.DragsCompose` | src/js/app/components/soundzone.js:206-222 | two whole-zone drags end where one drag to the final mouse does |
| `Scene.Empty` | src/js/app/main.js:56-58 | the empty registry is well typed with empty lists |
| `Scene.Register` | src/js/app/components/pathdrawer.js:55-71 | a new element is appended to its own kind's list only, and registration keeps the registry well typed |
| `Drawing.NewDrawer` | src/js/app/components/pathdrawer.js:7-24 | a new drawer is idle, with no stroke, no guide lines and no parent |
| `Drawing.BeginAt` | src/js/app/components/pathdrawer.js:26-31 | a stroke starts at the point with the given parent; old guide lines stay until clear |
| `Drawing.AddPoint` | src/js/app/components/pathdrawer.js:33-48 | while drawing, the stroke and its guide lines grow in lockstep; otherwise nothing happens |
| `Drawing.AddPointKeepsPolyline` | src/js/app/components/pathdrawer.js:39-45 | each guide line joins consecutive stroke points, before and after an added point |
| `Drawing.AddPoints` | src/js/app/components/pathdrawer.js:33-48 | a stroke of n mouse positions adds n guide lines while drawing and changes nothing otherwise |
| `Drawing.StrokeIsPolyline` | src/js/app/components/pathdrawer.js:33-48 | a stroke records every mouse position in order and remains a polyline |
| `Drawing.Clear` | src/js/app/components/pathdrawer.js:85-92 | clear drops the stroke, the guide lines and the parent |
| `Drawing.CreateObject` | src/js/app/components/pathdrawer.js:50-83 | with a parent and at least three simplified points, a well-formed trajectory is registered and linked both ways with its parent. With a parent and fewer points, nothing is made. Without a parent, three points or more make a closed zone and fewer make a sound object at the mouse. The drawer is cleared, the registry stays well typed, and the population grows by the one element created |
| `Drawing.CreateObjectAsWritten` | src/js/app/components/pathdrawer.js:57 | as written, exactly the parented stroke with three or more points throws: drawing stops, nothing is made and the stroke is not cleared. Every other case agrees with the corrected version |
| `Drawing.ParentedStrokeThrows` | src/js/app/components/pathdrawer.js:55-61 | a three-point stroke from a sound object, as written, creates no trajectory and leaves its guide lines for the next stroke; the corrected version links a new trajectory to the object |
| `Drawing.GlobalBeginAt` | SoundTrajectory.js:362-365 | the legacy drawer restarts its stroke at the point |
| `Drawing.GlobalAddPoint` | SoundTrajectory.js:371-400 | without a scene the legacy drawer ignores points; with one, the stroke and guide lines grow in lockstep |
| `Drawing.GlobalClear` | SoundTrajectory.js:422-429 | clear empties the stroke and the guide lines |
| `Drawing.GlobalTrajectoryCreate` | SoundTrajectory.js:407-420 | the legacy trajectory drawer makes a well-formed trajectory exactly from three simplified points up, nothing otherwise, and clears |
| `Drawing.GlobalZoneCreate` | SoundZone.js:364-381 | the legacy zone drawer makes a closed zone exactly from three simplified points up, a sound object at the mouse otherwise, and clears |
| `Drawing.DrawersAgreeWithoutParent` | SoundZone.js:364-381 | for strokes without a parent, the ES-module drawer registers exactly the element the legacy zone drawer creates |
| `Editor.Initial` | src/js/app/main.js:42-71 | the editor starts with an empty registry, nothing active, all modes off, movement speed 10, rotation speed 0.05 and controls enabled |
| `Editor.StepObject` | src/js/app/main.js:298-300 | a frame step changes only the stepped sound object, by one followTrajectory on its own trajectory's spline |
| `Editor.FrameHeap` | src/js/app/main.js:296-302 | the frame loop touches only sound objects |
| `Editor.Frame` | src/js/app/main.js:296-302 | a frame changes only sound objects, never the lists or any other editor field |
| `Editor.FrameHeapEffect` | src/js/app/main.js:296-302 | over a list without repeats, each gated-through object advances exactly once from its pre-frame state; gated-out and unlisted elements stay |
| `Editor.FrameGating` | src/js/app/main.js:296-302 | each frame every sound object follows its trajectory, except the active object while the mouse is held down, which stays where it is |
| `Editor.ZonePass` | src/js/app/main.js:361-369 | the zone pass touches only listed zones, and throws only at a listed zone the listener has left while it plays a sound without a source |
| `Editor.CheckZones` | src/js/app/main.js:356-369 | checkZones changes only zone state, never the lists or other fields; a throw implies some zone was left |
| `Editor.ZonePassTracksListener` | src/js/app/main.js:356-369 | with no broken playing zone, the pass completes, and every zone with a sound plays exactly when the listener stands in it; soundless zones are untouched |
| `Editor.ToggleGlobalMute` | src/js/app/main.js:592-595 | the mute flag flips, nothing else changes, and every sound object and zone is visited in list order |
| `Editor.ToggleMuteTwice` | src/js/app/main.js:592-595 | toggling twice restores the editor |
| `Editor.Without` | src/js/app/main.js:600-603 | the filter keeps exactly the elements that are not excluded |
| `Editor.MuteTargets` | src/js/app/main.js:597-617 | muteAll/unmuteAll act on exactly the sound objects and zones that are not excluded; with no exclusion, on all of them in order |
| `Editor.SingleExclusionIsList` | src/js/app/main.js:600-602 | a single excluded element acts like a one-element list, and an empty list excludes nothing |
| `Editor.RemoveElement` | src/js/app/main.js:626-630 | a listed element is removed, and reinserting it at its old position restores the list. An unlisted one makes the last element go. Nothing new appears |
| `Editor.RemoveElementKeepsOthers` | src/js/app/main.js:626-630 | removing a listed element keeps the others in order |
| `Editor.RemoveAbsentDropsLast` | src/js/app/main.js:637-641 | removing 7 from [1, 2, 3] gives [1, 2] |
| `Editor.RemoveSoundObject` | src/js/app/main.js:626-630 | only the object list changes, by removing that element |
| `Editor.RemoveSoundTrajectory` | src/js/app/main.js:637-641 | only the trajectory list changes, by removing that element |
| `Editor.RemoveSoundZone` | src/js/app/main.js:619-624 | removal throws exactly for an unlisted zone or a playing zone whose sound lost its source, and then changes nothing. Otherwise the zone is silenced and removed from the zone list, and the other lists are kept |
| `Editor.Controlled` | src/js/app/components/soundobject.js:202-212 | the element whose active state an element's setActive and setInactive change is never a sound object: a trajectory or zone itself, or a sound object's trajectory |
| `Editor.Deactivate` | src/js/app/components/soundobject.js:209-212 | setInactive leaves the element it controls inactive with no point selected and its path kept, and changes no other element |
| `Editor.Activate` | src/js/app/components/soundobject.js:202-206 | setActive leaves the element it controls active with its path and selection kept. A zone records the mouse's x and z (soundzone.js:235-240). A sound object's trajectory also records the mouse's x and z and the unscaled mouse height. No other element changes |
| `Editor.DeactivateKeepsControl` | src/js/app/components/soundobject.js:209-212 | deactivating never changes which element any element controls |
| `Editor.SetActiveObject` | src/js/app/main.js:550-563 | the new element becomes the active one and the lists and identities are kept. The selected cone becomes the new object's first cone exactly when it is a sound object with cones; otherwise it is kept. No editor field other than these and the heap changes; the effect on the heap is `Editor.SetActiveObjectEffect` |
| `Editor.SetActiveObjectEffect` | src/js/app/main.js:550-562 | the element the previous active one controls ends inactive with no point selected, unless the new one controls it too. The element the new one controls ends active with its mouse offsets, and keeps its selection unless it was just deactivated. Every other element is unchanged |
| `Editor.DragObject` | src/js/app/components/soundobject.js:163-189 | dragging a sound object moves it and then drags its trajectory with the object's new position as pointer: the whole path when no point is selected, the selected point otherwise. Nothing else in the heap changes. The drag throws exactly in the ES-module copy for a perspective drag of an object whose trajectory has a selected point, and the object has then already moved |
| `Editor.AerialDragCarriesPath` | src/js/app/components/soundtrajectory.js:156-170 | an aerial drag of an object whose trajectory has no selected point translates the whole path by the mouse change since the trajectory's offset and records the mouse. When that offset was the object's position, the path moves by exactly the object's displacement |
| `Editor.SwitchingDeselects` | src/js/app/main.js:550-555 | switching away from any element, to anything that does not control the same trajectory or zone, leaves the trajectory or zone the old one controlled inactive with no point selected |
| `Editor.Reset` | src/js/app/main.js:507-512 | reset leaves the edit-object view and changes nothing else |
| `Editor.ToggleAddTrajectory` | src/js/app/main.js:526-529 | with no argument the adding flag is negated, with one it is assigned; the edit view is closed and nothing else changes |
| `Editor.ToggleAddTrajectoryLaws` | src/js/app/main.js:526-529 | two argument-free toggles restore the flag, and assigning the same value twice is assigning it once |
| `Editor.ToggleAddObject` | src/js/app/main.js:535-545 | the adding-object flag is negated and the edit view closed; nothing else changes |
| `Editor.EnterEditObjectView` | src/js/app/main.js:439-465 | the view opens, switching both adding modes off unless it was already open. With nothing active it throws. It succeeds exactly when it ends on a sound object. A trajectory is deselected and hands over to its parent. An active sound object changes nothing else |
| `Editor.OpenView` | src/js/app/main.js:451-456 | opening the view sets the editing flag. From a closed view it turns both adding modes off; an open view is left as it is. Nothing else changes |
| `Editor.HandOver` | src/js/app/main.js:458-462 | an active trajectory loses its selected point and hands the active role to its parent; any other element is left as it is, and the lists and identities are kept |
| `Editor.EditViewRedirectsToParent` | src/js/app/main.js:458-462 | opening the view from a trajectory with a parent sound object succeeds on the parent |
| `Input.DeleteOnTrajectory` | src/js/app/managers/interaction.js:57-61 | delete removes the selected point of an active trajectory exactly when it has more than three points (one point fewer, reinsertable); otherwise nothing changes |
| `Input.DeleteZonePoint` | src/js/app/managers/interaction.js:63-65 | deleting a zone's selected point changes only that zone, by at most one point, and deselects |
| `Input.DeleteWholeZone` | src/js/app/managers/interaction.js:66-69 | deleting a whole zone fails exactly as removeSoundZone does and then changes nothing; otherwise the zone leaves the list and nothing is active |
| `Input.DeleteOnObject` | src/js/app/managers/interaction.js:72-79 | deleting a sound object removes it from the object list and its trajectory from the trajectory list, and leaves nothing active |
| `Input.DeleteKey` | src/js/app/managers/interaction.js:54-80 | the delete key keeps the registry well typed and every element's kind. It can throw only on an active zone, and then changes nothing. With nothing active it changes nothing |
| `Input.DeleteKeepsThreePoints` | src/js/app/managers/interaction.js:54-80 | no trajectory or zone with three or more points is taken below three by the delete key |
| `Input.TrajectoryRowKeepsThree` | src/js/app/managers/interaction.js:57-61 | the trajectory row keeps every path at three points or more |
| `Input.ZonePointRowKeepsThree` | src/js/app/managers/interaction.js:63-65 | removing a point from a zone with more than three keeps three |
| `Input.WholeZoneRowKeepsPoints` | src/js/app/managers/interaction.js:66-69 | removing a whole zone changes no element's point count |
| `Input.KeyDown` | src/js/app/managers/interaction.js:28-90 | repeats and unbound keys do nothing. W and S start moving at the movement speed. A and D start turning at the rotation speed. C enables the controls. Backspace and Delete run the delete table |
| `Input.KeyUp` | src/js/app/managers/interaction.js:92-125 | repeats and unbound keys do nothing. A steering key stops its motion. C disables the controls. R leaves the edit-object view |
| `Input.PressThenRelease` | src/js/app/managers/interaction.js:28-125 | pressing a steering key drives it at the configured speed. Releasing it stops it, and from rest that restores the editor |
| `Input.ConeClick` | src/js/app/managers/interaction.js:301-340 | clicking the selected cone deselects it and ends placing. Clicking another cone selects it for re-aiming. A child named 'visibleSphere' would end re-aiming, but no object has one, so a sphere click is another child. Another child changes nothing. Empty space resets all three. No other field changes |
| `Input.ClickOnCone` | src/js/app/managers/interaction.js:302-314 | clicking the selected cone index deselects it and ends placing; any other cone index is selected for re-aiming; no other field changes |
| `Input.ConeClickToggles` | src/js/app/managers/interaction.js:301-340 | the switch alone: clicking one cone twice selects and then deselects it, even right after setActiveObject stored the first cone (when the colour lines then throw) |
| `Input.EditViewClick` | src/js/app/managers/interaction.js:294-348 | the edit-object part of mouse-down, from a given state, leaves the world as the switch does. A cone click or a click on nothing records the old selection as the previous cone. It throws exactly when the previous cone is undefined, or the previous or selected cone is neither null nor an existing cone index |
| `Input.FirstConeClickThrows` | src/js/app/main.js:556-561 | the first cone click after setActiveObject stored a sound object's first cone throws in the colour lines, with the clicked cone already selected |
| `Input.UndefinedPreviousThrows` | src/js/app/managers/interaction.js:342-344 | a click on another child before the previous cone was ever set throws, with nothing else changed |
| `Input.ToggleCompletes` | src/js/app/managers/interaction.js:294-348 | the edit-object part alone, from a given state with a null or existing selection: two clicks on an existing cone both complete and end with nothing selected. A real mouse-down never reaches this state after a cone click (`Input.EditViewConeClickThrows`) |
| `Input.EditViewMouseDown` | src/js/app/managers/interaction.js:243-348 | a mouse-down in the edit-object view marks the mouse down and makes the element under the mouse active before the cone code. It throws when nothing is under the mouse, in either adding mode, and when a trajectory or zone becomes active. On success a sound object is active and selected at the unscaled mouse height |
| `Input.EditViewConeClickThrows` | src/js/app/main.js:556-559 | every cone click in the edit-object view throws. Outside the adding modes the clicked index ends selected and the first cone object is the previous cone, so the toggle never deselects |
| `Input.RecomputeSpeeds` | src/js/app/managers/interaction.js:236-240 | recomputing speeds touches only sound objects |
| `Input.RecomputeSpeedsEffect` | src/js/app/managers/interaction.js:236-240 | each listed sound object ends with the increment its own speed and arc length give, however often it is listed; unlisted ones are kept |
| `Input.MouseUp` | src/js/app/managers/interaction.js:202-241 | mouse-up throws exactly while an adding mode is on, changing nothing. Otherwise it releases the mouse and changes only sound objects |
| `Input.MouseUpRecomputes` | src/js/app/managers/interaction.js:202-241 | after mouse-up each listed object with a trajectory moves at its speed per unit of arc length; the rest are unchanged |
| `Gui.Centroid` | src/js/app/managers/guiwindow.js:247-254 | the zone position throws exactly on an empty list; otherwise it is the mean x and mean z of the points |
| `Gui.CentroidWithinBounds` | src/js/app/managers/guiwindow.js:247-254 | each centroid coordinate lies between that coordinate's least and greatest value over the points |
| `Gui.CentroidFollowsTranslation` | src/js/app/managers/guiwindow.js:247-254 | moving a zone by (dx, dy, dz) moves its displayed position by (dx, dz) |
| `Gui.CentroidIgnoresHeight` | gui.js:216-223 | the displayed position does not depend on the points' heights |
| `Gui.InitialPanel` | src/js/app/managers/guiwindow.js:2-11 | the panel starts hidden with an empty cache |
| `Gui.ShowKeyed` | src/js/app/managers/guiwindow.js:38-78 | a new key builds the panel for the element, and the cached key only refreshes it; either way the panel is shown under that key |
| `Gui.Display` | src/js/app/managers/guiwindow.js:13-21 | no element hides the panel and empties the cache. A parentless trajectory throws. Other types only show the panel. A sound object or zone is cached under its key and rebuilds exactly when the key is new |
| `Gui.TrajectoryShowsParent` | src/js/app/managers/guiwindow.js:42-58 | displaying a trajectory is displaying its parent sound object |
| `Gui.RedisplayOnlyUpdates` | src/js/app/managers/guiwindow.js:38-78 | displaying the same element again only refreshes the panel, which stays as it is |
| `Gui.CopiesAgreeOnKeys` | gui.js:12-69 | the two panel copies differ only in the key a sound object is cached under: container uuid or sphere uuid |

## Left out

- **Rendering**: the scene graph, meshes, colours, cursors, visibility of
  helper objects, cameras and tweens. They have no effect on the modelled
  state.
- **three.js maths**: Catmull-Rom curve evaluation (`getPoint`, `getPointAt`,
  `getLength`), `applyMatrix4`, `normalize` and `Math.atan`. Their results
  are parameters.
- **`simplify(points, 10, true)`** and the libtess override: the simplified
  list is a parameter.
- **Web Audio, XMLHttpRequest and buffer decoding**: zone audio calls are
  abstract events, and decoding is not modelled.
- **Randomness**: `Math.random` draws are parameters, and the cone colour
  draw is dropped.
- **Floating point**: numbers are exact reals, so IEEE rounding is not
  modelled.
- **Frame-rate scaling**: main.js:258 scales the movement speed by the
  measured FPS each frame. Clocks are outside the model.
- **Import and export**: JSON import/export, the DOM building of panels and
  dat.GUI.
- **Methods called but defined in no class shown**:
  - `checkMuteState`, `mute` and `unmute` are called at main.js:594, 605
    and 616. The class files src/js/app/components/soundobject.js and
    soundzone.js define none of them, so read literally each call raises a
    TypeError. The model assumes they are defined on the classes and
    return normally. `Editor.ToggleGlobalMute` and `Editor.MuteTargets`
    state which elements they are called on, in order.
  - `pause` and `unpause` are called at main.js:423 (in
    `tweenToObjectView`, reached from `enterEditObjectView`) and main.js:486
    (in `exitEditObjectView`, reached from `reset`). The same class files
    lack them too. `Editor.EnterEditObjectView` and `Editor.Reset` assume
    they are defined and return normally, and their effect on playback is
    not modelled.
  - `Helpers.mapRange` (`src/js/utils/helpers.js`) is not part of the model.
    It is taken to be the legacy `mapRange` formula.
- **Not modelled among the handlers**:
  - the `select` dispatch of mouse-down and mouse-move;
  - hover cursors;
  - the colours the cone click writes (interaction.js:342-348); only whether
    those lines throw is modelled, in `Input.EditViewClick`.
  - the mouse-down branches outside the edit-object view (the select
    dispatch of trajectories and zones) and a mouse-down while a key is
    held, which does nothing;
  - `onMouseMove` calls the active trajectory's `move` twice per event:
    once as `move(main)`, with the editor object as the mouse
    (interaction.js:151), and once with the mouse (interaction.js:170). So
    one drag event is not one `Trajectories.Move`. The mouse-move handler
    is not modelled;
  - `main.previousInteractiveCone` is read and written only by this
    handler, so it is a parameter and result of `Input.EditViewClick`
    rather than a field of the editor state.
- **Aerial move aliasing**: two aerial moves alias `main.mouse` as
  `pointer` and then write its `y`:
  - a sound object's move writes the object's height into the shared
    mouse vector (soundobject.js:179-180, SoundObject.js:165-166);
  - a trajectory's single-point move writes the point's height into it
    (soundtrajectory.js:134-137, SoundTrajectory.js:177-178).

  This side effect on later handlers is not modelled.
  `SoundObjects.Move`, `Trajectories.MoveSelectedPoint` and
  `Trajectories.Move` read only the mouse's x and z, and they do not
  change the mouse.
- **Audio stops in `removeFromScene`**: the stops issued by a removed object
  are not modelled.

**Deliberately weaker contracts**

- `Playback.CalculateIncrement`: requires a positive arc length. JavaScript
  would divide by 0 and give Infinity or NaN, which reals cannot represent.
- `SoundObjects.CalculateMovementSpeed`: requires a positive arc length when
  the object has a trajectory, for the same reason.
- `Input.MouseUp`: requires positive arc lengths for every object with a
  trajectory, for the same reason.
- `Input.RecomputeSpeeds`: requires positive arc lengths for every object
  with a trajectory, for the same reason.
- `SoundObjects.Move`: requires a recorded vertical offset in perspective
  view. Before the first `select`, the source computes with `undefined` and
  gets NaN. It moves only the object. The drag of the linked trajectory
  (soundobject.js:189, SoundObject.js:173) is modelled by
  `Editor.DragObject`. The panner poses pushed again for every cone
  (soundobject.js:191-195) are audio-graph output and are not modelled.
- `Input.EditViewClick`: models only interaction.js:294-348 from a given
  state. The setActiveObject that the handler runs first
  (interaction.js:258-264) is composed in `Input.EditViewMouseDown`.
- `Input.EditViewMouseDown`: requires the edit-object view to be open; the
  other branches of the handler are listed above. When a trajectory or
  zone becomes active, its `select` runs before the throw and is not
  modelled.
- `Editor.DragObject`: requires a recorded vertical offset of the object
  in perspective view, as `SoundObjects.Move` does, and a well-formed
  linked trajectory, which every trajectory the editor builds is.
- `Editor.RemoveSoundZone`: requires a well-typed registry (every list names
  elements of its own kind). Every registry the editor builds has this
  property.
- `Input.DeleteKey`: requires a well-typed registry, for the same reason.
- `Input.KeyDown`: requires a well-typed registry, for the same reason.

## Findings

| source | as written | input that shows it | evidently intended | confidence | as-written member | corrected member |
|---|---|---|---|---|---|---|
| src/js/app/components/pathdrawer.js:57 | `new SoundTrajectory(main, points)`, but the constructor takes only `points`, so the editor object becomes the point list and `renderPath` throws | a stroke started on a sound object with at least three simplified points. The defect is latent: no caller in the files modelled reaches `createObject` while drawing, because interaction.js:157-278 drive `main.trajectory` and `main.zone`, which main.js never assigns, and main.js:754-773 call it only when not drawing | a trajectory built from the points and linked to its parent | high (not executed) | `Drawing.CreateObjectAsWritten` | `Drawing.CreateObject` |
| src/js/app/components/soundzone.js:43-49 | `notUnderUser` calls `sound.source.stop` without checking that a source exists | a zone that is entered, then given a new sound by `loadSound` while it plays, then left | stop the source only if there is one, as SoundZone.js:30-32 does | high (not executed) | `Zones.NotUnderUser` | `Zones.NotUnderUserGuarded` |
| src/js/app/components/soundtrajectory.js:124-143 | the perspective branch of a single-point drag declares an inner `const pointer`, then writes to the outer `pointer`, which is undefined | a perspective-view drag of a selected trajectory point | set the point's height and rebuild the path, as SoundTrajectory.js:164-185 does | high (not executed) | `Trajectories.Move` | `Trajectories.MoveSelectedPoint` |

=== FILE: base.dfy ===
/** Shared vocabulary of the model: optional values, raised errors,
    object identities and the two copies of the editor's source. */
module Base {

  /** A JavaScript value that may be `null` or `undefined`. */
  datatype Option<T> = None | Some(value: T)

  /** A computation that yields a value or raises a TypeError
      (a property read or a call on `undefined`). */
  datatype Result<T> = Ok(value: T) | TypeError

  /** A state change that completes, or raises a TypeError part-way through.
      In both cases `state` is the state left behind. */
  datatype Outcome<S> = Done(state: S) | Threw(state: S)

  /** Identity of a scene object (JavaScript reference identity). */
  type Id = nat

  /** The ES-module sources under src/js/app, and the older global scripts
      at the repository root. Where the two copies differ, the model takes
      the revision as a parameter. */
  datatype Revision = Modules | Globals
}

=== FILE: drawing.dfy ===
/** Freehand drawing of a new element: a stroke is begun, extended point by
    point with guide lines, and turned into a trajectory, a zone or a sound
    object depending on how many points survive simplification and whether
    the stroke started on a sound object. */
module Drawing {
  import opened Base
  import opened Vectors
  import opened SoundObjects
  import opened Trajectories
  import opened Zones
  import opened Scene

  /** A guide line between consecutive stroke points. */
  datatype Segment = Segment(start: Vec3, end: Vec3)

  /** The PathDrawer's state; `parentObject` is the sound object a
      trajectory stroke started on. */
  datatype PathDrawer = PathDrawer(
    parentObject: Option<Id>,
    points: seq<Vec3>,
    lines: seq<Segment>,
    lastPoint: Vec3,
    isDrawing: bool)

  /** The constructor's state. */
  function NewDrawer(): (d: PathDrawer)
    ensures !d.isDrawing && d.points == [] && d.lines == [] && d.parentObject.None?
  {
    PathDrawer(None, [], [], Vec3(0.0, 0.0, 0.0), false)
  }

  /** The stroke drawn so far is a polyline: one guide line per pair of
      consecutive points, ending at the last point. */
  predicate Polyline(d: PathDrawer)
  {
    && |d.points| == |d.lines| + 1
    && d.lastPoint == d.points[|d.points| - 1]
    && forall k :: 0 <= k < |d.lines| ==> d.lines[k] == Segment(d.points[k], d.points[k + 1])
  }

  /** beginAt: start drawing at `point`, for the given parent or none. The
      guide lines are not reset here; clear does that. */
  function BeginAt(d: PathDrawer, point: Vec3, parent: Option<Id>): (r: PathDrawer)
    ensures r.isDrawing && r.points == [point] && r.lastPoint == point
    ensures r.parentObject == parent && r.lines == d.lines
    ensures d.lines == [] ==> Polyline(r)
  {
    PathDrawer(parent, [point], d.lines, point, true)
  }

  /** addPoint: while drawing, extend the stroke and its guide lines in
      lockstep; otherwise do nothing. */
  function AddPoint(d: PathDrawer, point: Vec3): (r: PathDrawer)
    ensures !d.isDrawing ==> r == d
    ensures d.isDrawing ==>
      && r.points == d.points + [point]
      && r.lines == d.lines + [Segment(d.lastPoint, point)]
      && r.lastPoint == point
      && r.isDrawing && r.parentObject == d.parentObject
  {
    if d.isDrawing then
      d.(points := d.points + [point], lines := d.lines + [Segment(d.lastPoint, point)], lastPoint := point)
    else d
  }

  /** Extending a polyline keeps it a polyline. */
  lemma AddPointKeepsPolyline(d: PathDrawer, point: Vec3)
    requires Polyline(d)
    ensures Polyline(AddPoint(d, point))
  {
    var r := AddPoint(d, point);
    if d.isDrawing {
      forall k | 0 <= k < |r.lines|
        ensures r.lines[k] == Segment(r.points[k], r.points[k + 1])
      {
        if k < |d.lines| {
          assert r.lines[k] == d.lines[k];
        }
      }
    }
  }

  /** A stroke: addPoint for each mouse position in turn. */
  function AddPoints(d: PathDrawer, points: seq<Vec3>): (r: PathDrawer)
    ensures r.isDrawing == d.isDrawing && r.parentObject == d.parentObject
    ensures d.isDrawing ==> |r.lines| == |d.lines| + |points|
    ensures !d.isDrawing ==> r == d
    decreases |points|
  {
    if |points| == 0 then d else AddPoints(AddPoint(d, points[0]), points[1..])
  }

  /** A stroke begun on a clean drawer records every mouse position, in
      order, after the start point, with one guide line per step. */
  lemma {:induction false} StrokeIsPolyline(d: PathDrawer, points: seq<Vec3>)
    requires Polyline(d) && d.isDrawing
    ensures Polyline(AddPoints(d, points))
    ensures AddPoints(d, points).points == d.points + points
    decreases |points|
  {
    if |points| > 0 {
      AddPointKeepsPolyline(d, points[0]);
      StrokeIsPolyline(AddPoint(d, points[0]), points[1..]);
      assert d.points + [points[0]] + points[1..] == d.points + points;
    }
  }

  /** clear: drop the stroke, its guide lines and the parent. */
  function Clear(d: PathDrawer): (r: PathDrawer)
    ensures r.points == [] && r.lines == [] && r.parentObject.None?
    ensures r.isDrawing == d.isDrawing && r.lastPoint == d.lastPoint
  {
    d.(parentObject := None, points := [], lines := [])
  }

  /** The drawer and registry after createObject, and the element made. */
  datatype Drawn = Drawn(drawer: PathDrawer, reg: Registry, created: Option<Id>)

  /** The parent a stroke started on is a sound object of the registry. */
  predicate ParentLinked(d: PathDrawer, reg: Registry)
  {
    d.parentObject.Some? ==> d.parentObject.value in reg.heap && reg.heap[d.parentObject.value].ObjectEntity?
  }

  /** The total number of listed elements. */
  function Population(reg: Registry): nat
  {
    |reg.soundObjects| + |reg.soundTrajectories| + |reg.soundZones|
  }

  /** createObject as the stroke's outcome evidently should be: with a parent
      and at least three simplified points, a trajectory linked both ways
      with the parent; with a parent and fewer, nothing; without a parent, a
      zone from three points up and a sound object at the mouse below. Then
      the drawer is cleared. Not drawing, nothing happens. `simplified` is
      `simplify(points, 10, true)` and `newId` the new element's identity. */
  function CreateObject(d: PathDrawer, reg: Registry, simplified: seq<Vec3>, mouse: Vec3, newId: Id): (r: Drawn)
    requires newId !in reg.heap && ParentLinked(d, reg)
    ensures !d.isDrawing ==> r == Drawn(d, reg, None)
    ensures d.isDrawing ==>
      && !r.drawer.isDrawing && r.drawer.points == [] && r.drawer.lines == [] && r.drawer.parentObject.None?
    ensures d.isDrawing && d.parentObject.Some? && |simplified| >= 3 ==>
      var p := d.parentObject.value;
      && r.created == Some(newId)
      && r.reg.soundTrajectories == reg.soundTrajectories + [newId]
      && r.reg.soundObjects == reg.soundObjects && r.reg.soundZones == reg.soundZones
      && newId in r.reg.heap && p in r.reg.heap
      && r.reg.heap[newId].TrajectoryEntity?
      && r.reg.heap[newId].t.points == simplified && Trajectories.Valid(r.reg.heap[newId].t)
      && r.reg.heap[newId].t.parent == Some(p)
      && r.reg.heap[p] == ObjectEntity(reg.heap[p].o.(trajectory := Some(newId)))
    ensures d.isDrawing && d.parentObject.Some? && |simplified| < 3 ==> r.reg == reg && r.created.None?
    ensures d.isDrawing && d.parentObject.None? && |simplified| >= 3 ==>
      && r.created == Some(newId)
      && r.reg == Register(reg, newId, ZoneEntity(Zones.New(simplified)))
      && Zones.Valid(r.reg.heap[newId].z)
    ensures d.isDrawing && d.parentObject.None? && |simplified| < 3 ==>
      && r.created == Some(newId)
      && r.reg == Register(reg, newId, ObjectEntity(SoundObjects.New(mouse)))
    ensures Typed(reg) ==> Typed(r.reg)
    ensures r.created.Some? ==> Population(r.reg) == Population(reg) + 1
    ensures r.created.None? ==> r.reg == reg
  {
    if !d.isDrawing then Drawn(d, reg, None)
    else
      var cleared := Clear(d.(isDrawing := false));
      if d.parentObject.Some? then
        if |simplified| >= 3 then
          var p := d.parentObject.value;
          var t := Trajectories.New(simplified).value.(parent := Some(p));
          var added := Register(reg, newId, TrajectoryEntity(t));
          var linked := added.(heap := added.heap[p := ObjectEntity(reg.heap[p].o.(trajectory := Some(newId)))]);
          Drawn(cleared, linked, Some(newId))
        else Drawn(cleared, reg, None)
      else if |simplified| >= 3 then
        Drawn(cleared, Register(reg, newId, ZoneEntity(Zones.New(simplified))), Some(newId))
      else
        Drawn(cleared, Register(reg, newId, ObjectEntity(SoundObjects.New(mouse))), Some(newId))
  }

  /** createObject as the ES-module source writes it. A stroke with a parent
      and at least three points calls `new SoundTrajectory(main, points)`,
      but the constructor takes only `points`, so the editor itself becomes
      the point list and `points.forEach` raises a TypeError: drawing has
      stopped, nothing is created, and the stroke is not cleared. Every
      other case is the corrected behaviour. */
  function CreateObjectAsWritten(d: PathDrawer, reg: Registry, simplified: seq<Vec3>, mouse: Vec3, newId: Id): (r: Outcome<Drawn>)
    requires newId !in reg.heap && ParentLinked(d, reg)
    ensures r.Threw? <==> d.isDrawing && d.parentObject.Some? && |simplified| >= 3
    ensures r.Done? ==> r.state == CreateObject(d, reg, simplified, mouse, newId)
    ensures r.Threw? ==> r.state == Drawn(d.(isDrawing := false), reg, None)
  {
    if d.isDrawing && d.parentObject.Some? && |simplified| >= 3 then
      Threw(Drawn(d.(isDrawing := false), reg, None))
    else Done(CreateObject(d, reg, simplified, mouse, newId))
  }

  /** Drawing a trajectory from a sound object: as written no trajectory
      appears, the object stays unlinked, and the next stroke starts with
      the old guide lines still present; the corrected version registers
      and links it. */
  lemma ParentedStrokeThrows(reg: Registry, p: Id, o: SoundObject, newId: Id, a: Vec3, b: Vec3, c: Vec3)
    requires p in reg.heap && reg.heap[p] == ObjectEntity(o) && newId !in reg.heap
    ensures var d := AddPoints(BeginAt(NewDrawer(), a, Some(p)), [b, c]);
      var w := CreateObjectAsWritten(d, reg, [a, b, c], a, newId);
      && w.Threw?
      && w.state.reg == reg
      && |w.state.drawer.lines| == 2
      && |BeginAt(w.state.drawer, a, None).lines| == 2
    ensures var d := AddPoints(BeginAt(NewDrawer(), a, Some(p)), [b, c]);
      var r := CreateObject(d, reg, [a, b, c], a, newId);
      && r.created == Some(newId)
      && r.reg.heap[p].o.trajectory == Some(newId)
  {
    var d := AddPoints(BeginAt(NewDrawer(), a, Some(p)), [b, c]);
  }

  // ---------------------------------------------------------------------
  // The legacy global `trajectory` and `zone` drawing objects.
  // ---------------------------------------------------------------------

  /** The legacy drawing object's state; `hasScene` is whether setScene ran. */
  datatype GlobalDrawer = GlobalDrawer(hasScene: bool, points: seq<Vec3>, lines: seq<Segment>, lastPoint: Vec3)

  /** What a legacy createObject hands back. */
  datatype Created =
    | NewTrajectory(t: Trajectory)
    | NewZone(z: Zone)
    | NewObject(o: SoundObject)
    | NoObject

  /** beginAt: the stroke restarts at `point`. */
  function GlobalBeginAt(g: GlobalDrawer, point: Vec3): (r: GlobalDrawer)
    ensures r.points == [point] && r.lastPoint == point && r.lines == g.lines && r.hasScene == g.hasScene
  {
    g.(points := [point], lastPoint := point)
  }

  /** addPoint: without a scene nothing happens; otherwise the stroke and its
      guide lines grow in lockstep. */
  function GlobalAddPoint(g: GlobalDrawer, point: Vec3): (r: GlobalDrawer)
    ensures !g.hasScene ==> r == g
    ensures g.hasScene ==>
      && r.points == g.points + [point]
      && r.lines == g.lines + [Segment(g.lastPoint, point)]
      && r.lastPoint == point
  {
    if !g.hasScene then g
    else g.(points := g.points + [point], lines := g.lines + [Segment(g.lastPoint, point)], lastPoint := point)
  }

  /** clear. */
  function GlobalClear(g: GlobalDrawer): (r: GlobalDrawer)
    ensures r.points == [] && r.lines == [] && r.hasScene == g.hasScene
  {
    g.(points := [], lines := [])
  }

  /** The global `trajectory` object's createObject: a trajectory exactly
      when at least three simplified points remain; the drawer is cleared. */
  function GlobalTrajectoryCreate(g: GlobalDrawer, simplified: seq<Vec3>): (r: (GlobalDrawer, Created))
    ensures r.0 == GlobalClear(g)
    ensures r.1.NewTrajectory? <==> |simplified| >= 3
    ensures r.1.NewTrajectory? ==> r.1.t.points == simplified && Trajectories.Valid(r.1.t)
    ensures !r.1.NewTrajectory? ==> r.1.NoObject?
  {
    if |simplified| >= 3 then (GlobalClear(g), NewTrajectory(Trajectories.New(simplified).value))
    else (GlobalClear(g), NoObject)
  }

  /** The global `zone` object's createObject: a zone from three simplified
      points up, a sound object at the mouse below; the drawer is cleared. */
  function GlobalZoneCreate(g: GlobalDrawer, simplified: seq<Vec3>, mouse: Vec3): (r: (GlobalDrawer, Created))
    ensures r.0 == GlobalClear(g)
    ensures r.1.NewZone? <==> |simplified| >= 3
    ensures r.1.NewZone? ==> r.1.z.points == simplified && r.1.z.closed
    ensures !r.1.NewZone? ==> r.1 == NewObject(SoundObjects.New(mouse))
  {
    if |simplified| >= 3 then (GlobalClear(g), NewZone(Zones.New(simplified)))
    else (GlobalClear(g), NewObject(SoundObjects.New(mouse)))
  }

  /** The ES-module drawer and the legacy zone object agree on strokes
      without a parent: zone from three points up, sound object below. */
  lemma DrawersAgreeWithoutParent(d: PathDrawer, reg: Registry, g: GlobalDrawer, simplified: seq<Vec3>, mouse: Vec3, newId: Id)
    requires newId !in reg.heap && d.isDrawing && d.parentObject.None?
    ensures var r := CreateObject(d, reg, simplified, mouse, newId);
      var c := GlobalZoneCreate(g, simplified, mouse).1;
      && (c.NewZone? ==> r.reg.heap[newId] == ZoneEntity(c.z))
      && (c.NewObject? ==> r.reg.heap[newId] == ObjectEntity(c.o))
  {
  }
}

=== FILE: editor.dfy ===
/** The editor state main.js keeps beside the scene graph, and its
    decision rules: which objects advance each frame, mute fan-out,
    removal from the registries, the active object, the adding modes and
    the edit-object view. */
module Editor {
  import opened Base
  import opened Vectors
  import opened JsArrays
  import opened Playback
  import opened SoundObjects
  import opened Trajectories
  import opened Zones
  import opened Scene
  import opened Paths

  /** What `interactiveCone` holds: null, the first cone object itself (as
      setActiveObject stores it), or a cone index (as a cone click stores it). */
  datatype ConeRef = NoCone | FirstConeOf(owner: Id) | ConeIndex(index: int)

  /** The fields of Main that the decision rules read and write. */
  datatype World = World(
    reg: Registry,
    activeObject: Option<Id>,
    interactiveCone: ConeRef,
    isMuted: bool,
    isMouseDown: bool,
    isAddingTrajectory: bool,
    isAddingObject: bool,
    isEditingObject: bool,
    placingCone: bool,
    replacingCone: bool,
    controlsEnabled: bool,
    moveForward: real,
    moveBackwards: real,
    yawLeft: real,
    yawRight: real,
    movementSpeed: real,
    rotationSpeed: real)

  /** The constructor's state (main.js and the orbit controls it creates). */
  function Initial(): (w: World)
    ensures w.reg == Empty() && w.activeObject.None? && w.interactiveCone.NoCone?
    ensures !w.isMuted && !w.isMouseDown && !w.isAddingTrajectory && !w.isAddingObject && !w.isEditingObject
    ensures w.movementSpeed == 10.0 && w.rotationSpeed == 0.05 && w.controlsEnabled
    ensures w.moveForward == 0.0 && w.moveBackwards == 0.0 && w.yawLeft == 0.0 && w.yawRight == 0.0
  {
    World(Empty(), None, NoCone, false, false, false, false, false, false, false, true,
          0.0, 0.0, 0.0, 0.0, 10.0, 0.05)
  }

  // ---------------------------------------------------------------------
  // The per-frame trajectory loop of render().
  // ---------------------------------------------------------------------

  /** Whether the frame loop advances object `id`: every object, except the
      active one while the mouse is held down on it. */
  predicate Advances(w: World, id: Id)
  {
    !w.isMouseDown || w.activeObject != Some(id)
  }

  /** Two heaps that differ only in the contents of sound objects. */
  predicate SameNonObjects(h1: map<Id, Entity>, h2: map<Id, Entity>)
  {
    && h1.Keys == h2.Keys
    && forall j :: j in h1 ==>
         (h1[j].ObjectEntity? <==> h2[j].ObjectEntity?) && (!h1[j].ObjectEntity? ==> h1[j] == h2[j])
  }

  /** A sound object's spline flag only depends on the trajectories. */
  lemma SplineClosedIgnoresObjects(h1: map<Id, Entity>, h2: map<Id, Entity>, o: SoundObject)
    requires SameNonObjects(h1, h2)
    ensures SplineClosed(h1, o) == SplineClosed(h2, o)
  {
    if o.trajectory.Some? && o.trajectory.value in h1 && h1[o.trajectory.value].TrajectoryEntity? {
      assert h2[o.trajectory.value] == h1[o.trajectory.value];
    }
  }

  /** `getPointAt` of the spline of the object's trajectory; `pointAt(t, c)`
      is `getPointAt(c)` of trajectory `t`. */
  function Along(o: SoundObject, pointAt: (Id, real) -> Vec3): real -> Vec3
  {
    c => pointAt(if o.trajectory.Some? then o.trajectory.value else 0, c)
  }

  /** followTrajectory on the element `id` when it is a sound object. */
  function StepObject(heap: map<Id, Entity>, id: Id, pointAt: (Id, real) -> Vec3): (h: map<Id, Entity>)
    ensures SameNonObjects(heap, h)
    ensures forall j :: j in heap && j != id ==> h[j] == heap[j]
    ensures id in heap && heap[id].ObjectEntity? ==>
      h[id] == ObjectEntity(FollowTrajectory(heap[id].o, SplineClosed(heap, heap[id].o), Along(heap[id].o, pointAt)))
  {
    if id in heap && heap[id].ObjectEntity? then
      var o := heap[id].o;
      heap[id := ObjectEntity(FollowTrajectory(o, SplineClosed(heap, o), Along(o, pointAt)))]
    else heap
  }

  /** The loop over `soundObjects` in render(). */
  function FrameHeap(heap: map<Id, Entity>, ids: seq<Id>, isMouseDown: bool, active: Option<Id>,
                     pointAt: (Id, real) -> Vec3): (h: map<Id, Entity>)
    ensures SameNonObjects(heap, h)
    decreases |ids|
  {
    if |ids| == 0 then heap
    else
      var h1 := if !isMouseDown || active != Some(ids[0]) then StepObject(heap, ids[0], pointAt) else heap;
      FrameHeap(h1, ids[1..], isMouseDown, active, pointAt)
  }

  /** One frame's trajectory playback. */
  function Frame(w: World, pointAt: (Id, real) -> Vec3): (r: World)
    ensures r == w.(reg := r.reg)
    ensures r.reg.soundObjects == w.reg.soundObjects && r.reg.soundTrajectories == w.reg.soundTrajectories
    ensures r.reg.soundZones == w.reg.soundZones
    ensures SameNonObjects(w.reg.heap, r.reg.heap)
  {
    w.(reg := w.reg.(heap := FrameHeap(w.reg.heap, w.reg.soundObjects, w.isMouseDown, w.activeObject, pointAt)))
  }

  /** No identity is listed twice. */
  predicate Distinct(ids: seq<Id>)
  {
    forall i, j :: 0 <= i < j < |ids| ==> ids[i] != ids[j]
  }

  /** Over a list without repeats, each listed sound object that the gate
      lets through advances exactly once, from its state before the frame;
      gated-out and unlisted elements do not change. */
  lemma {:induction false} FrameHeapEffect(heap: map<Id, Entity>, ids: seq<Id>, isMouseDown: bool,
                                           active: Option<Id>, pointAt: (Id, real) -> Vec3, id: Id)
    requires Distinct(ids) && id in heap
    ensures var h := FrameHeap(heap, ids, isMouseDown, active, pointAt);
      && (id !in ids ==> h[id] == heap[id])
      && (id in ids && isMouseDown && active == Some(id) ==> h[id] == heap[id])
      && (id in ids && (!isMouseDown || active != Some(id)) ==> h[id] == StepObject(heap, id, pointAt)[id])
    decreases |ids|
  {
    if |ids| > 0 {
      var h1 := if !isMouseDown || active != Some(ids[0]) then StepObject(heap, ids[0], pointAt) else heap;
      assert Distinct(ids[1..]) by {
        forall i, j | 0 <= i < j < |ids[1..]|
          ensures ids[1..][i] != ids[1..][j]
        {
          assert ids[1..][i] == ids[i + 1] && ids[1..][j] == ids[j + 1];
        }
      }
      FrameHeapEffect(h1, ids[1..], isMouseDown, active, pointAt, id);
      if id == ids[0] {
        assert id !in ids[1..] by {
          forall k | 0 <= k < |ids[1..]|
            ensures ids[1..][k] != id
          {
            assert ids[1..][k] == ids[k + 1];
          }
        }
      } else {
        assert id in ids ==> id in ids[1..] by {
          if id in ids {
            var k :| 0 <= k < |ids| && ids[k] == id;
            assert ids[1..][k - 1] == id;
          }
        }
        assert h1[id] == heap[id];
        if heap[id].ObjectEntity? {
          SplineClosedIgnoresObjects(heap, h1, heap[id].o);
        }
      }
    }
  }

  /** Each frame, every sound object advances along its trajectory except the
      active object while the mouse is down, which stays where it is. */
  lemma FrameGating(w: World, pointAt: (Id, real) -> Vec3, id: Id)
    requires Distinct(w.reg.soundObjects) && id in w.reg.heap && id in w.reg.soundObjects
    ensures Advances(w, id) ==> Frame(w, pointAt).reg.heap[id] == StepObject(w.reg.heap, id, pointAt)[id]
    ensures !Advances(w, id) ==> Frame(w, pointAt).reg.heap[id] == w.reg.heap[id]
  {
    FrameHeapEffect(w.reg.heap, w.reg.soundObjects, w.isMouseDown, w.activeObject, pointAt, id);
  }

  // ---------------------------------------------------------------------
  // checkZones: the listener's walk through the sound zones each frame.
  // ---------------------------------------------------------------------

  /** A zone that is playing a sound whose source has been dropped: the
      ES-module notUnderUser fails on it. */
  predicate Silenced(e: Entity)
  {
    e.ZoneEntity? && e.z.isPlaying && e.z.sound.Some? && !e.z.sound.value.hasSource
  }

  /** underUser or notUnderUser on each listed zone, by whether the
      downward ray from the head hits its shape (`hit`), stopping at the
      first TypeError. */
  function ZonePass(heap: map<Id, Entity>, ids: seq<Id>, hit: Id -> bool): (r: Outcome<map<Id, Entity>>)
    ensures r.state.Keys == heap.Keys
    ensures forall j :: j in heap && j !in ids ==> r.state[j] == heap[j]
    ensures r.Threw? ==> exists k :: 0 <= k < |ids| && !hit(ids[k]) && ids[k] in heap && Silenced(heap[ids[k]])
    decreases |ids|
  {
    if |ids| == 0 then Done(heap)
    else
      var id := ids[0];
      if id in heap && heap[id].ZoneEntity? then
        var z := heap[id].z;
        if hit(id) then
          ZonePass(heap[id := ZoneEntity(UnderUser(z).zone)], ids[1..], hit)
        else
          match NotUnderUser(Modules, z)
          case Threw(_) => Threw(heap)
          case Done(s) => ZonePass(heap[id := ZoneEntity(s.zone)], ids[1..], hit)
      else ZonePass(heap, ids[1..], hit)
  }

  /** checkZones. */
  function CheckZones(w: World, hit: Id -> bool): (r: Outcome<World>)
    ensures r.state == w.(reg := r.state.reg)
    ensures r.state.reg.soundZones == w.reg.soundZones && r.state.reg.soundObjects == w.reg.soundObjects
    ensures r.Threw? ==> exists k :: 0 <= k < |w.reg.soundZones| && !hit(w.reg.soundZones[k])
  {
    match ZonePass(w.reg.heap, w.reg.soundZones, hit)
    case Done(h) => Done(w.(reg := w.reg.(heap := h)))
    case Threw(h) => Threw(w.(reg := w.reg.(heap := h)))
  }

  /** When no zone is playing a sound that has lost its source, a frame's
      zone pass completes, and each zone with a sound ends up playing exactly
      when the listener stands in it. */
  lemma {:induction false} ZonePassTracksListener(heap: map<Id, Entity>, ids: seq<Id>, hit: Id -> bool, k: nat)
    requires Distinct(ids) && k < |ids|
    requires forall j :: 0 <= j < |ids| ==> ids[j] in heap && heap[ids[j]].ZoneEntity?
    requires forall j :: 0 <= j < |ids| ==> !Silenced(heap[ids[j]])
    ensures ZonePass(heap, ids, hit).Done?
    ensures ZonePass(heap, ids, hit).state[ids[k]].ZoneEntity?
    ensures heap[ids[k]].z.sound.Some? ==> ZonePass(heap, ids, hit).state[ids[k]].z.isPlaying == hit(ids[k])
    ensures heap[ids[k]].z.sound.None? ==> ZonePass(heap, ids, hit).state[ids[k]] == heap[ids[k]]
    decreases |ids|
  {
    var id := ids[0];
    var z := heap[id].z;
    var z1 := if hit(id) then UnderUser(z).zone else NotUnderUser(Modules, z).state.zone;
    var h1 := heap[id := ZoneEntity(z1)];
    assert ZonePass(heap, ids, hit) == ZonePass(h1, ids[1..], hit);
    assert forall j :: 0 <= j < |ids[1..]| ==> ids[1..][j] == ids[j + 1];
    assert Distinct(ids[1..]);
    assert forall j :: 0 <= j < |ids[1..]| ==> ids[1..][j] != id;
    assert forall j :: 0 <= j < |ids[1..]| ==> h1[ids[1..][j]] == heap[ids[1..][j]];
    if |ids| > 1 {
      ZonePassTracksListener(h1, ids[1..], hit, if k == 0 then 0 else k - 1);
    }
    if k == 0 {
      assert id !in ids[1..];
    }
  }

  // ---------------------------------------------------------------------
  // Mute fan-out.
  // ---------------------------------------------------------------------

  /** toggleGlobalMute: flips `isMuted`, then checkMuteState runs once on
      every sound object and zone, in list order (the second result). */
  function ToggleGlobalMute(w: World): (r: (World, seq<Id>))
    ensures r.0.isMuted != w.isMuted && r.0 == w.(isMuted := r.0.isMuted)
    ensures r.1 == w.reg.soundObjects + w.reg.soundZones
  {
    (w.(isMuted := !w.isMuted), w.reg.soundObjects + w.reg.soundZones)
  }

  /** Toggling twice restores the mute flag. */
  lemma ToggleMuteTwice(w: World)
    ensures ToggleGlobalMute(ToggleGlobalMute(w).0).0 == w
  {
  }

  /** The `excludedSounds` argument: absent, one element, or a list;
      `[].concat` turns the first two into lists. */
  datatype Exclusion = NoExclusion | ExcludeOne(one: Id) | ExcludeList(list: seq<Id>)

  /** `s.filter(x => excluded.indexOf(x) < 0)`. */
  function Without(s: seq<Id>, excluded: seq<Id>): (r: seq<Id>)
    ensures forall x :: x in r <==> x in s && x !in excluded
    ensures |r| <= |s|
  {
    if |s| == 0 then []
    else if IndexOf(excluded, s[0]) < 0 then [s[0]] + Without(s[1..], excluded)
    else Without(s[1..], excluded)
  }

  /** What muteAll and unmuteAll act on: every sound object and zone, minus
      the excluded ones. */
  function MuteTargets(w: World, ex: Exclusion): (r: seq<Id>)
    ensures ex.NoExclusion? ==> r == w.reg.soundObjects + w.reg.soundZones
    ensures forall x :: x in r <==>
      (x in w.reg.soundObjects + w.reg.soundZones && !(ex.ExcludeOne? && x == ex.one) && !(ex.ExcludeList? && x in ex.list))
  {
    var sounds := w.reg.soundObjects + w.reg.soundZones;
    match ex
    case NoExclusion => sounds
    case ExcludeOne(x) => Without(sounds, [x])
    case ExcludeList(xs) => Without(sounds, xs)
  }

  /** A single excluded element is the same as a one-element list, and an
      empty list excludes nothing. */
  lemma SingleExclusionIsList(w: World, x: Id)
    ensures MuteTargets(w, ExcludeOne(x)) == MuteTargets(w, ExcludeList([x]))
    ensures forall y :: y in MuteTargets(w, ExcludeList([])) <==> y in MuteTargets(w, NoExclusion)
  {
  }

  // ---------------------------------------------------------------------
  // Removal from the registries.
  // ---------------------------------------------------------------------

  /** `s.splice(s.indexOf(x), 1)`. */
  function RemoveElement(s: seq<Id>, x: Id): (r: seq<Id>)
    ensures x in s ==> |r| == |s| - 1 && SpliceInsert(r, IndexOf(s, x), x) == s
    ensures x !in s && |s| > 0 ==> r == s[..|s| - 1]
    ensures |s| == 0 ==> r == []
    ensures forall y :: y in r ==> y in s
  {
    var i := IndexOf(s, x);
    if i >= 0 then
      InsertUndoesRemove(s, i);
      SpliceRemove(s, i)
    else SpliceRemove(s, i)
  }

  /** A present element is removed and nothing else: the rest keep their order. */
  lemma RemoveElementKeepsOthers(s: seq<Id>, x: Id, j: nat)
    requires x in s && j < |s| - 1
    ensures var i := IndexOf(s, x);
      RemoveElement(s, x)[j] == (if j < i then s[j] else s[j + 1])
  {
  }

  /** Removing an element that is not listed drops the last element. */
  lemma RemoveAbsentDropsLast()
    ensures RemoveElement([1, 2, 3], 7) == [1, 2]
  {
    assert 7 !in [1, 2, 3];
  }

  /** removeSoundObject. */
  function RemoveSoundObject(w: World, id: Id): (r: World)
    ensures r.reg.soundObjects == RemoveElement(w.reg.soundObjects, id)
    ensures r == w.(reg := w.reg.(soundObjects := r.reg.soundObjects))
  {
    w.(reg := w.reg.(soundObjects := RemoveElement(w.reg.soundObjects, id)))
  }

  /** removeSoundTrajectory. */
  function RemoveSoundTrajectory(w: World, id: Id): (r: World)
    ensures r.reg.soundTrajectories == RemoveElement(w.reg.soundTrajectories, id)
    ensures r == w.(reg := w.reg.(soundTrajectories := r.reg.soundTrajectories))
  {
    w.(reg := w.reg.(soundTrajectories := RemoveElement(w.reg.soundTrajectories, id)))
  }

  /** removeSoundZone: silences the zone found by `indexOf`, then splices it
      out. An absent zone makes `soundZones[-1]` undefined and the call on
      it a TypeError; so does a playing zone whose sound lost its source. */
  function RemoveSoundZone(reg: Registry, id: Id): (r: Outcome<Registry>)
    requires Typed(reg)
    ensures r.Threw? <==> id !in reg.soundZones || Silenced(reg.heap[id])
    ensures r.Threw? ==> r.state == reg
    ensures r.Done? ==> r.state.soundZones == RemoveElement(reg.soundZones, id)
    ensures r.Done? ==> r.state.heap == reg.heap[id := ZoneEntity(NotUnderUserGuarded(reg.heap[id].z).zone)]
    ensures r.Done? && reg.heap[id].z.sound.Some? ==> !r.state.heap[id].z.isPlaying
    ensures r.Done? ==> r.state.soundObjects == reg.soundObjects && r.state.soundTrajectories == reg.soundTrajectories
  {
    var i := IndexOf(reg.soundZones, id);
    if i < 0 then Threw(reg)
    else
      match NotUnderUser(Modules, reg.heap[id].z)
      case Threw(_) => Threw(reg)
      case Done(s) =>
        Done(reg.(heap := reg.heap[id := ZoneEntity(s.zone)], soundZones := RemoveElement(reg.soundZones, id)))
  }

  // ---------------------------------------------------------------------
  // The active object.
  // ---------------------------------------------------------------------

  /** The element whose active state setActive and setInactive of `id`
      change: a trajectory or zone itself, or a sound object's trajectory;
      none for a sound object without one. */
  function Controlled(heap: map<Id, Entity>, id: Id): (c: Option<Id>)
    ensures c.Some? ==> c.value in heap && !heap[c.value].ObjectEntity?
  {
    if id !in heap then None
    else match heap[id]
      case ObjectEntity(o) => if HasPath(heap, o) then Some(o.trajectory.value) else None
      case _ => Some(id)
  }

  /** Whether the trajectory an object names is present in the heap. */
  predicate HasPath(heap: map<Id, Entity>, o: SoundObject)
  {
    o.trajectory.Some? && o.trajectory.value in heap && heap[o.trajectory.value].TrajectoryEntity?
  }

  /** `after` is `before` made inactive with no point selected, its path kept. */
  predicate Deactivated(before: Entity, after: Entity)
  {
    match before
    case TrajectoryEntity(t) =>
      after.TrajectoryEntity? && !after.t.isActive && after.t.selected.None? && after.t.points == t.points
    case ZoneEntity(z) =>
      after.ZoneEntity? && !after.z.isActive && after.z.selected.None? && after.z.points == z.points
    case ObjectEntity(_) => false
  }

  /** `after` is `before` made active with its path kept. A zone records
      the mouse's x and z; a trajectory reached through its sound object
      records the mouse's x and z and the unscaled mouse height. */
  predicate Activated(before: Entity, after: Entity, viaObject: bool, nonScaledY: real, mouse: Vec3)
  {
    match before
    case TrajectoryEntity(t) =>
      && after.TrajectoryEntity? && after.t.isActive && after.t.points == t.points
      && (viaObject ==> after.t.offsetX == mouse.x && after.t.offsetZ == mouse.z && after.t.offsetY == nonScaledY)
    case ZoneEntity(z) =>
      && after.ZoneEntity? && after.z.isActive && after.z.points == z.points
      && after.z.offsetX == mouse.x && after.z.offsetZ == mouse.z
    case ObjectEntity(_) => false
  }

  /** The selected point of a trajectory or zone. */
  function Selection(e: Entity): Option<nat>
  {
    match e
    case TrajectoryEntity(t) => t.selected
    case ZoneEntity(z) => z.selected
    case ObjectEntity(_) => None
  }

  /** setInactive on an element: a sound object deactivates its trajectory. */
  function Deactivate(heap: map<Id, Entity>, id: Id): (h: map<Id, Entity>)
    ensures h.Keys == heap.Keys
    ensures forall j :: j in heap && Some(j) != Controlled(heap, id) ==> h[j] == heap[j]
    ensures Controlled(heap, id).Some? ==>
      Deactivated(heap[Controlled(heap, id).value], h[Controlled(heap, id).value])
  {
    if id !in heap then heap
    else match heap[id]
      case ObjectEntity(o) =>
        if HasPath(heap, o) then
          heap[o.trajectory.value := TrajectoryEntity(Trajectories.SetInactive(heap[o.trajectory.value].t))]
        else heap
      case TrajectoryEntity(t) => heap[id := TrajectoryEntity(Trajectories.SetInactive(t))]
      case ZoneEntity(z) => heap[id := ZoneEntity(Zones.SetInactive(z))]
  }

  /** setActive on an element: a sound object activates its trajectory and
      records the drag offset there. */
  function Activate(heap: map<Id, Entity>, id: Id, nonScaledY: real, mouse: Vec3): (h: map<Id, Entity>)
    ensures h.Keys == heap.Keys
    ensures forall j :: j in heap && Some(j) != Controlled(heap, id) ==> h[j] == heap[j]
    ensures Controlled(heap, id).Some? ==>
      var c := Controlled(heap, id).value;
      && Activated(heap[c], h[c], heap[id].ObjectEntity?, nonScaledY, mouse)
      && Selection(h[c]) == Selection(heap[c])
  {
    if id !in heap then heap
    else match heap[id]
      case ObjectEntity(o) =>
        if HasPath(heap, o) then
          var t := heap[o.trajectory.value].t;
          heap[o.trajectory.value := TrajectoryEntity(Trajectories.SetMouseOffset(Trajectories.SetActive(t), nonScaledY, mouse))]
        else heap
      case TrajectoryEntity(t) => heap[id := TrajectoryEntity(Trajectories.SetActive(t))]
      case ZoneEntity(z) => heap[id := ZoneEntity(Zones.SetActive(z, mouse))]
  }

  /** Deactivating never changes which element any id controls: sound
      objects are untouched and every element keeps its kind. */
  lemma DeactivateKeepsControl(heap: map<Id, Entity>, id: Id, x: Id)
    ensures Controlled(Deactivate(heap, id), x) == Controlled(heap, x)
  {
    var h := Deactivate(heap, id);
    if x in heap && heap[x].ObjectEntity? {
      assert h[x] == heap[x];
      var o := heap[x].o;
      if o.trajectory.Some? && o.trajectory.value in heap {
        var c := o.trajectory.value;
        assert h[c].TrajectoryEntity? == heap[c].TrajectoryEntity?;
      }
    }
  }

  /** setActiveObject: the previous active element is made inactive, the
      new one becomes active, and `interactiveCone` becomes the new sound
      object's first cone when it has one (otherwise it keeps its value). */
  function SetActiveObject(w: World, obj: Option<Id>, nonScaledY: real, mouse: Vec3): (r: World)
    ensures r.activeObject == obj
    ensures r.reg.soundObjects == w.reg.soundObjects && r.reg.soundTrajectories == w.reg.soundTrajectories
    ensures r.reg.soundZones == w.reg.soundZones && r.reg.heap.Keys == w.reg.heap.Keys
    ensures r.interactiveCone != w.interactiveCone ==> obj.Some? && r.interactiveCone == FirstConeOf(obj.value)
    ensures obj.Some? && obj.value in w.reg.heap && w.reg.heap[obj.value].ObjectEntity? && |w.reg.heap[obj.value].o.cones| > 0
      ==> r.interactiveCone == FirstConeOf(obj.value)
    ensures !(obj.Some? && obj.value in w.reg.heap && w.reg.heap[obj.value].ObjectEntity? && |w.reg.heap[obj.value].o.cones| > 0)
      ==> r.interactiveCone == w.interactiveCone
    ensures r == w.(reg := r.reg, activeObject := obj, interactiveCone := r.interactiveCone)
  {
    var h1 := if w.activeObject.Some? then Deactivate(w.reg.heap, w.activeObject.value) else w.reg.heap;
    var cone :=
      if obj.Some? && obj.value in w.reg.heap && w.reg.heap[obj.value].ObjectEntity? && |w.reg.heap[obj.value].o.cones| > 0
      then FirstConeOf(obj.value) else w.interactiveCone;
    var h2 := if obj.Some? then Activate(h1, obj.value, nonScaledY, mouse) else h1;
    w.(reg := w.reg.(heap := h2), activeObject := obj, interactiveCone := cone)
  }

  /** The element the previous active element controls. */
  function PrevControlled(w: World): Option<Id>
  {
    if w.activeObject.Some? then Controlled(w.reg.heap, w.activeObject.value) else None
  }

  /** The element the new active element controls. */
  function NextControlled(w: World, obj: Option<Id>): Option<Id>
  {
    if obj.Some? then Controlled(w.reg.heap, obj.value) else None
  }

  /** What setActiveObject does to the elements. The element the previous
      one controls (itself, or a sound object's trajectory) ends inactive
      with no point selected, unless the new one controls it too. The
      element the new one controls ends active with its mouse offsets, and
      keeps its selection unless it was just deactivated. Every other
      element is unchanged. */
  lemma SetActiveObjectEffect(w: World, obj: Option<Id>, nonScaledY: real, mouse: Vec3)
    ensures var heap := w.reg.heap;
      var h := SetActiveObject(w, obj, nonScaledY, mouse).reg.heap;
      var prev := PrevControlled(w);
      var next := NextControlled(w, obj);
      && (forall j :: j in heap && Some(j) != prev && Some(j) != next ==> h[j] == heap[j])
      && (prev.Some? && prev != next ==> Deactivated(heap[prev.value], h[prev.value]))
      && (next.Some? ==>
            && Activated(heap[next.value], h[next.value], heap[obj.value].ObjectEntity?, nonScaledY, mouse)
            && Selection(h[next.value]) == (if prev == next then None else Selection(heap[next.value])))
  {
    var heap := w.reg.heap;
    var h1 := if w.activeObject.Some? then Deactivate(heap, w.activeObject.value) else heap;
    var h := SetActiveObject(w, obj, nonScaledY, mouse).reg.heap;
    assert h == if obj.Some? then Activate(h1, obj.value, nonScaledY, mouse) else h1;
    if obj.Some? {
      if w.activeObject.Some? {
        DeactivateKeepsControl(heap, w.activeObject.value, obj.value);
      }
      var next := NextControlled(w, obj);
      if next.Some? {
        var c := next.value;
        assert h1[obj.value].ObjectEntity? == heap[obj.value].ObjectEntity?;
        if PrevControlled(w) != next {
          assert h1[c] == heap[c];
        }
      }
    }
  }

  /** Switching from a trajectory or zone, or from a sound object's
      trajectory, to an element that does not control it leaves it
      inactive with no point selected. */
  lemma SwitchingDeselects(w: World, obj: Option<Id>, nonScaledY: real, mouse: Vec3)
    requires PrevControlled(w).Some? && PrevControlled(w) != NextControlled(w, obj)
    ensures var a := PrevControlled(w).value;
      var e := SetActiveObject(w, obj, nonScaledY, mouse).reg.heap[a];
      && (w.reg.heap[a].TrajectoryEntity? ==> e.TrajectoryEntity? && !e.t.isActive && e.t.selected.None?)
      && (w.reg.heap[a].ZoneEntity? ==> e.ZoneEntity? && !e.z.isActive && e.z.selected.None?)
  {
    SetActiveObjectEffect(w, obj, nonScaledY, mouse);
  }

  // ---------------------------------------------------------------------
  // Dragging a sound object with its trajectory.
  // ---------------------------------------------------------------------

  /** move on the sound object `id`: the object moves first, then hands its
      new position to its trajectory's move as the pointer. In aerial view
      that position is the mouse's x and z at the object's height, so the
      trajectory sees the same x and z as the mouse; in perspective view
      the trajectory reads only the vertical mouse coordinate. A throw
      from the trajectory's move (the ES-module perspective single-point
      drag) leaves the object already moved. */
  function DragObject(rev: Revision, heap: map<Id, Entity>, id: Id, perspective: bool, mouse: Vec3, nonScaledY: real)
    : (r: Outcome<map<Id, Entity>>)
    requires id in heap && heap[id].ObjectEntity?
    requires perspective ==> heap[id].o.offsetY.Some?
    requires HasPath(heap, heap[id].o) ==> Trajectories.Valid(heap[heap[id].o.trajectory.value].t)
    ensures r.state.Keys == heap.Keys
    ensures r.state[id] == ObjectEntity(SoundObjects.Move(heap[id].o, perspective, mouse, nonScaledY))
    ensures forall j :: j in heap && j != id && !(HasPath(heap, heap[id].o) && j == heap[id].o.trajectory.value) ==>
      r.state[j] == heap[j]
    ensures r.Threw? <==>
      HasPath(heap, heap[id].o) && rev == Modules && perspective && heap[heap[id].o.trajectory.value].t.selected.Some?
    ensures HasPath(heap, heap[id].o) ==>
      var tid := heap[id].o.trajectory.value;
      var t := heap[tid].t;
      var pointer := r.state[id].o.position;
      && r.state[tid].TrajectoryEntity?
      && (t.selected.None? ==> r.state[tid].t == MoveWholePath(t, perspective, pointer, nonScaledY))
      && (r.Done? && t.selected.Some? ==> r.state[tid].t == MoveSelectedPoint(t, perspective, pointer, nonScaledY))
  {
    var o := SoundObjects.Move(heap[id].o, perspective, mouse, nonScaledY);
    var h := heap[id := ObjectEntity(o)];
    if HasPath(heap, heap[id].o) then
      var tid := o.trajectory.value;
      var m := Trajectories.Move(rev, heap[tid].t, perspective, o.position, nonScaledY);
      var h2 := h[tid := TrajectoryEntity(m.state)];
      if m.Threw? then Threw(h2) else Done(h2)
    else Done(h)
  }

  /** An aerial drag of an object whose trajectory has no selected point
      carries the whole path along: it is translated by the mouse's x, z
      change since the trajectory's recorded offset, which then becomes the
      mouse. When that offset was the object's own x and z, the path moves
      by exactly the object's displacement. */
  lemma AerialDragCarriesPath(rev: Revision, heap: map<Id, Entity>, id: Id, mouse: Vec3, nonScaledY: real)
    requires id in heap && heap[id].ObjectEntity? && HasPath(heap, heap[id].o)
    requires Trajectories.Valid(heap[heap[id].o.trajectory.value].t)
    requires heap[heap[id].o.trajectory.value].t.selected.None?
    ensures var r := DragObject(rev, heap, id, false, mouse, nonScaledY);
      var o := heap[id].o;
      var t := heap[o.trajectory.value].t;
      var t2 := r.state[o.trajectory.value].t;
      && r.Done?
      && t2.points == TranslateAll(t.points, mouse.x - t.offsetX, 0.0, mouse.z - t.offsetZ)
      && t2.offsetX == mouse.x && t2.offsetZ == mouse.z
      && (t.offsetX == o.position.x && t.offsetZ == o.position.z ==>
            var o2 := r.state[id].o;
            forall k :: 0 <= k < |t.points| ==>
              t2.points[k] == Shift(t.points[k], o2.position.x - o.position.x, 0.0, o2.position.z - o.position.z))
  {
    var o := heap[id].o;
    var r := DragObject(rev, heap, id, false, mouse, nonScaledY);
    assert r.state[id].o.position == Vec3(mouse.x, o.position.y, mouse.z);
  }

  // ---------------------------------------------------------------------
  // Modes.
  // ---------------------------------------------------------------------

  /** reset: leaving the edit-object view if it is open (the camera reset
      itself is not modelled). */
  function Reset(w: World): (r: World)
    ensures !r.isEditingObject && r == w.(isEditingObject := false)
  {
    w.(isEditingObject := false)
  }

  /** toggleAddTrajectory(state): an absent `state` negates the flag, a
      given one is assigned; then reset. */
  function ToggleAddTrajectory(w: World, state: Option<bool>): (r: World)
    ensures state.None? ==> r.isAddingTrajectory != w.isAddingTrajectory
    ensures state.Some? ==> r.isAddingTrajectory == state.value
    ensures !r.isEditingObject
    ensures r == w.(isAddingTrajectory := r.isAddingTrajectory, isEditingObject := false)
  {
    Reset(w.(isAddingTrajectory := if state.None? then !w.isAddingTrajectory else state.value))
  }

  /** Two toggles without a state restore the flag; assigning is idempotent. */
  lemma ToggleAddTrajectoryLaws(w: World, b: bool)
    ensures ToggleAddTrajectory(ToggleAddTrajectory(w, None), None).isAddingTrajectory == w.isAddingTrajectory
    ensures ToggleAddTrajectory(ToggleAddTrajectory(w, Some(b)), Some(b)) == ToggleAddTrajectory(w, Some(b))
  {
  }

  /** toggleAddObject: negates the flag, then reset. */
  function ToggleAddObject(w: World): (r: World)
    ensures r.isAddingObject != w.isAddingObject && !r.isEditingObject
    ensures r == w.(isAddingObject := r.isAddingObject, isEditingObject := false)
  {
    Reset(w.(isAddingObject := !w.isAddingObject))
  }

  /** The active element exists and is a sound object. */
  predicate ActiveIsObject(w: World)
  {
    w.activeObject.Some? && w.activeObject.value in w.reg.heap && w.reg.heap[w.activeObject.value].ObjectEntity?
  }

  /** enterEditObjectView. Opening the view (when it is not already open)
      switches the adding modes off; an active trajectory is deselected and
      hands over to its parent sound object. A null active object makes
      `activeObject.type` a TypeError, and the camera tween that follows
      needs a sound object's container, so a zone (or a trajectory without
      a parent object) fails there too. */
  function EnterEditObjectView(w: World): (r: Outcome<World>)
    ensures r.state.isEditingObject
    ensures !w.isEditingObject ==> !r.state.isAddingObject && !r.state.isAddingTrajectory
    ensures w.isEditingObject ==> r.state.isAddingObject == w.isAddingObject
    ensures w.isEditingObject ==> r.state.isAddingTrajectory == w.isAddingTrajectory
    ensures w.activeObject.None? ==> r.Threw?
    ensures r.Done? <==> ActiveIsObject(r.state)
    ensures ActiveIsObject(w) ==> r == Done(w.(isEditingObject := true, isAddingObject := r.state.isAddingObject,
                                                isAddingTrajectory := r.state.isAddingTrajectory))
    ensures w.activeObject.Some? && w.activeObject.value in w.reg.heap && w.reg.heap[w.activeObject.value].TrajectoryEntity? ==>
      (r.state.activeObject == w.reg.heap[w.activeObject.value].t.parent
       && w.activeObject.value in r.state.reg.heap
       && r.state.reg.heap[w.activeObject.value] == TrajectoryEntity(w.reg.heap[w.activeObject.value].t.(selected := None)))
    ensures r.state.reg.soundObjects == w.reg.soundObjects && r.state.reg.heap.Keys == w.reg.heap.Keys
  {
    var w1 := OpenView(w);
    var w2 := HandOver(w1);
    if w.activeObject.None? then Threw(w1)
    else if ActiveIsObject(w2) then Done(w2)
    else Threw(w2)
  }

  /** The first step of enterEditObjectView: the view opens, and the adding
      modes go off unless it was open already. */
  function OpenView(w: World): (r: World)
    ensures r.isEditingObject
    ensures !w.isEditingObject ==> !r.isAddingObject && !r.isAddingTrajectory
    ensures w.isEditingObject ==> r == w
    ensures r == w.(isEditingObject := true, isAddingObject := r.isAddingObject, isAddingTrajectory := r.isAddingTrajectory)
  {
    if !w.isEditingObject then w.(isEditingObject := true, isAddingObject := false, isAddingTrajectory := false) else w
  }

  /** The second step: an active trajectory is deselected and control passes
      to its parent sound object; any other element is left as it is. */
  function HandOver(w: World): (r: World)
    ensures r.reg.soundObjects == w.reg.soundObjects && r.reg.heap.Keys == w.reg.heap.Keys
    ensures r == w.(reg := r.reg, activeObject := r.activeObject)
    ensures w.activeObject.Some? && w.activeObject.value in w.reg.heap && w.reg.heap[w.activeObject.value].TrajectoryEntity? ==>
      (r.activeObject == w.reg.heap[w.activeObject.value].t.parent
       && r.reg.heap == w.reg.heap[w.activeObject.value := TrajectoryEntity(w.reg.heap[w.activeObject.value].t.(selected := None))])
    ensures !(w.activeObject.Some? && w.activeObject.value in w.reg.heap && w.reg.heap[w.activeObject.value].TrajectoryEntity?) ==> r == w
  {
    if w.activeObject.Some? && w.activeObject.value in w.reg.heap && w.reg.heap[w.activeObject.value].TrajectoryEntity? then
      var a := w.activeObject.value;
      var t := w.reg.heap[a].t;
      w.(reg := w.reg.(heap := w.reg.heap[a := TrajectoryEntity(t.(selected := None))]), activeObject := t.parent)
    else w
  }

  /** Opening the edit view from a trajectory whose parent is a sound object
      succeeds and lands on the parent. */
  lemma EditViewRedirectsToParent(w: World, p: Id)
    requires w.activeObject.Some? && w.activeObject.value in w.reg.heap
    requires w.reg.heap[w.activeObject.value].TrajectoryEntity?
    requires w.reg.heap[w.activeObject.value].t.parent == Some(p)
    requires p in w.reg.heap && w.reg.heap[p].ObjectEntity? && p != w.activeObject.value
    ensures EnterEditObjectView(w).Done? && EnterEditObjectView(w).state.activeObject == Some(p)
  {
  }
}

=== FILE: gui.dfy ===
/** The parameter panel: the zone centroid it shows and its cache of the
    displayed element (`id`, `obj`), which decides between building a new
    panel and refreshing the current one. */
module Gui {
  import opened Base
  import opened Vectors
  import opened Paths

  /** A point of the ground plane. */
  datatype XZ = XZ(x: real, z: real)

  /** `points.map(v => v.x).reduce((a, b) => a + b)` for a non-empty list,
      folding from the left; 0 for the empty list, which the caller rules out. */
  function SumX(points: seq<Vec3>): real
  {
    if |points| == 0 then 0.0 else SumX(points[..|points| - 1]) + points[|points| - 1].x
  }

  /** The same fold over the z coordinates. */
  function SumZ(points: seq<Vec3>): real
  {
    if |points| == 0 then 0.0 else SumZ(points[..|points| - 1]) + points[|points| - 1].z
  }

  /** getSoundzonePosition: the mean x and the mean z of the points. `reduce`
      with no initial value throws on an empty list. */
  function Centroid(points: seq<Vec3>): (r: Result<XZ>)
    ensures r.TypeError? <==> |points| == 0
    ensures r.Ok? ==> r.value.x * (|points| as real) == SumX(points)
    ensures r.Ok? ==> r.value.z * (|points| as real) == SumZ(points)
  {
    if |points| == 0 then TypeError
    else Ok(XZ(SumX(points) / (|points| as real), SumZ(points) / (|points| as real)))
  }

  /** Every x lies in [lo, hi], so the sum lies in [n lo, n hi]. */
  lemma {:induction false} SumXBounds(points: seq<Vec3>, lo: real, hi: real)
    requires forall k :: 0 <= k < |points| ==> lo <= points[k].x <= hi
    ensures (|points| as real) * lo <= SumX(points) <= (|points| as real) * hi
    decreases |points|
  {
    if |points| > 0 {
      SumXBounds(points[..|points| - 1], lo, hi);
    }
  }

  /** Every z lies in [lo, hi], so the sum lies in [n lo, n hi]. */
  lemma {:induction false} SumZBounds(points: seq<Vec3>, lo: real, hi: real)
    requires forall k :: 0 <= k < |points| ==> lo <= points[k].z <= hi
    ensures (|points| as real) * lo <= SumZ(points) <= (|points| as real) * hi
    decreases |points|
  {
    if |points| > 0 {
      SumZBounds(points[..|points| - 1], lo, hi);
    }
  }

  /** Each centroid coordinate lies between the least and the greatest value
      of that coordinate over the points. */
  lemma CentroidWithinBounds(points: seq<Vec3>, xlo: real, xhi: real, zlo: real, zhi: real)
    requires |points| > 0
    requires forall k :: 0 <= k < |points| ==> xlo <= points[k].x <= xhi && zlo <= points[k].z <= zhi
    ensures xlo <= Centroid(points).value.x <= xhi
    ensures zlo <= Centroid(points).value.z <= zhi
  {
    var n := |points| as real;
    assert Centroid(points) == Ok(XZ(SumX(points) / n, SumZ(points) / n));
    SumXBounds(points, xlo, xhi);
    MeanWithin(SumX(points), n, xlo, xhi);
    SumZBounds(points, zlo, zhi);
    MeanWithin(SumZ(points), n, zlo, zhi);
  }

  /** A sum of n values in [lo, hi], divided by n, lies in [lo, hi]. */
  lemma MeanWithin(sum: real, n: real, lo: real, hi: real)
    requires n > 0.0 && n * lo <= sum <= n * hi
    ensures lo <= sum / n <= hi
  {
    assert sum / n - lo == (sum - n * lo) / n;
    assert hi - sum / n == (n * hi - sum) / n;
  }

  /** Adding n times d to a sum of n values adds d to their mean. */
  lemma MeanShift(sum: real, n: real, d: real)
    requires n > 0.0
    ensures (sum + n * d) / n == sum / n + d
  {
    assert (sum / n + d) * n == sum + n * d;
  }

  /** Translating every point shifts the sums by n times the offset. */
  lemma {:induction false} SumsOfTranslated(points: seq<Vec3>, dx: real, dy: real, dz: real)
    ensures SumX(TranslateAll(points, dx, dy, dz)) == SumX(points) + (|points| as real) * dx
    ensures SumZ(TranslateAll(points, dx, dy, dz)) == SumZ(points) + (|points| as real) * dz
    decreases |points|
  {
    if |points| > 0 {
      var init := points[..|points| - 1];
      assert TranslateAll(points, dx, dy, dz)[..|points| - 1] == TranslateAll(init, dx, dy, dz);
      SumsOfTranslated(init, dx, dy, dz);
    }
  }

  /** Moving a zone by (dx, dy, dz) moves its displayed position by (dx, dz);
      the height plays no part. */
  lemma CentroidFollowsTranslation(points: seq<Vec3>, dx: real, dy: real, dz: real)
    requires |points| > 0
    ensures Centroid(TranslateAll(points, dx, dy, dz)) == Ok(XZ(Centroid(points).value.x + dx, Centroid(points).value.z + dz))
  {
    SumsOfTranslated(points, dx, dy, dz);
    var n := |points| as real;
    var q := TranslateAll(points, dx, dy, dz);
    MeanShift(SumX(points), n, dx);
    MeanShift(SumZ(points), n, dz);
    assert SumX(q) / n == SumX(points) / n + dx;
    assert SumZ(q) / n == SumZ(points) / n + dz;
  }

  /** Lists that agree on x and z, whatever their heights, give the same sums. */
  lemma {:induction false} SumsIgnoreHeight(p: seq<Vec3>, q: seq<Vec3>)
    requires |p| == |q|
    requires forall k :: 0 <= k < |p| ==> p[k].x == q[k].x && p[k].z == q[k].z
    ensures SumX(p) == SumX(q) && SumZ(p) == SumZ(q)
    decreases |p|
  {
    if |p| > 0 {
      SumsIgnoreHeight(p[..|p| - 1], q[..|q| - 1]);
    }
  }

  /** The displayed position does not depend on the points' heights. */
  lemma CentroidIgnoresHeight(p: seq<Vec3>, q: seq<Vec3>)
    requires |p| == |q|
    requires forall k :: 0 <= k < |p| ==> p[k].x == q[k].x && p[k].z == q[k].z
    ensures Centroid(p) == Centroid(q)
  {
    SumsIgnoreHeight(p, q);
  }

  // ---------------------------------------------------------------------
  // The displayed-element cache.
  // ---------------------------------------------------------------------

  /** A three.js uuid. */
  type Uuid = nat

  /** The identities of a sound object: its own, its container's uuid (the
      ES-module panel's key) and its raycast sphere's uuid (the global-script
      panel's key). */
  datatype ObjectInfo = ObjectInfo(owner: Id, containerUuid: Uuid, sphereUuid: Uuid)

  /** What `display` is given: a sound object, a trajectory with its parent
      object (or none), a zone with its shape's uuid, or anything else. */
  datatype Subject =
    | OfObject(info: ObjectInfo)
    | OfTrajectory(parent: Option<ObjectInfo>)
    | OfZone(zone: Id, shapeUuid: Uuid)
    | OfOther

  /** The panel's cache and visibility. */
  datatype Panel = Panel(id: Option<Uuid>, obj: Option<Id>, visible: bool)

  /** What the panel did: hid, built a new panel, refreshed the current
      one, or logged that the type has no panel. */
  datatype Action = Hidden | Initialised | Updated | Ignored

  /** The panel at construction. */
  function InitialPanel(): (p: Panel)
    ensures p.id.None? && p.obj.None? && !p.visible
  {
    Panel(None, None, false)
  }

  /** The key the panel caches for a sound object in either copy. */
  function ObjectKey(rev: Revision, info: ObjectInfo): Uuid
  {
    if rev == Modules then info.containerUuid else info.sphereUuid
  }

  /** Build or refresh for one element. */
  function ShowKeyed(p: Panel, key: Uuid, obj: Id): (r: (Panel, Action))
    ensures r.0.id == Some(key) && r.0.visible
    ensures p.id != Some(key) ==> r.1 == Initialised && r.0.obj == Some(obj)
    ensures p.id == Some(key) ==> r.1 == Updated && r.0.obj == p.obj
  {
    if p.id != Some(key) then (Panel(Some(key), Some(obj), true), Initialised)
    else (p.(visible := true), Updated)
  }

  /** display(obj) followed by show. No element hides the panel and empties
      the cache. A trajectory stands for its parent sound object, and one
      without a parent fails on the parent's container. A sound object or a
      zone is keyed by its uuid: a new key rebuilds the panel, the cached
      key only refreshes it. Any other type is logged and only shows the
      panel. */
  function Display(rev: Revision, p: Panel, s: Option<Subject>): (r: Result<(Panel, Action)>)
    ensures s.None? ==> r == Ok((Panel(None, None, false), Hidden))
    ensures r.TypeError? <==> s == Some(OfTrajectory(None))
    ensures s == Some(OfOther) ==> r == Ok((p.(visible := true), Ignored))
    ensures r.Ok? && r.value.1 != Hidden ==> r.value.0.visible
    ensures s.Some? && s.value.OfObject? ==>
      var key := ObjectKey(rev, s.value.info);
      && r.Ok? && r.value.0.id == Some(key)
      && (r.value.1 == Initialised <==> p.id != Some(key))
      && (r.value.1 == Updated <==> p.id == Some(key))
    ensures s.Some? && s.value.OfZone? ==>
      && r.Ok? && r.value.0.id == Some(s.value.shapeUuid)
      && (r.value.1 == Initialised <==> p.id != Some(s.value.shapeUuid))
      && (r.value.1 == Initialised ==> r.value.0.obj == Some(s.value.zone))
  {
    match s
    case None => Ok((Panel(None, None, false), Hidden))
    case Some(OfTrajectory(None)) => TypeError
    case Some(OfTrajectory(Some(info))) => Ok(ShowKeyed(p, ObjectKey(rev, info), info.owner))
    case Some(OfObject(info)) => Ok(ShowKeyed(p, ObjectKey(rev, info), info.owner))
    case Some(OfZone(zone, uuid)) => Ok(ShowKeyed(p, uuid, zone))
    case Some(OfOther) => Ok((p.(visible := true), Ignored))
  }

  /** Showing a trajectory shows its parent sound object's panel. */
  lemma TrajectoryShowsParent(rev: Revision, p: Panel, info: ObjectInfo)
    ensures Display(rev, p, Some(OfTrajectory(Some(info)))) == Display(rev, p, Some(OfObject(info)))
  {
  }

  /** Displaying the same element again only refreshes the panel, which
      then stays as it is. */
  lemma RedisplayOnlyUpdates(rev: Revision, p: Panel, s: Subject)
    requires s != OfTrajectory(None) && s != OfOther
    ensures var first := Display(rev, p, Some(s)).value.0;
      Display(rev, first, Some(s)) == Ok((first, Updated))
  {
  }

  /** The two copies agree except for the key a sound object is cached under:
      when the container and the sphere share a uuid they behave alike. */
  lemma CopiesAgreeOnKeys(p: Panel, s: Option<Subject>)
    requires s.Some? && s.value.OfObject? ==> s.value.info.containerUuid == s.value.info.sphereUuid
    requires s.Some? && s.value.OfTrajectory? && s.value.parent.Some? ==>
      s.value.parent.value.containerUuid == s.value.parent.value.sphereUuid
    ensures Display(Modules, p, s) == Display(Globals, p, s)
  {
  }
}

=== FILE: input.dfy ===
/** The keyboard and mouse handlers of the interaction manager: movement
    keys, the delete-key table, the cone-selection toggle of the edit-object
    view, and mouse-up. */
module Input {
  import opened Base
  import opened Vectors
  import opened JsArrays
  import opened SoundObjects
  import opened Trajectories
  import opened Zones
  import opened Scene
  import opened Editor

  /** The keys the handlers distinguish. */
  datatype Key = W | A | S | D | C | R | Backspace | Delete | Other

  /** The keys that steer the listener. */
  predicate Steering(k: Key)
  {
    k == W || k == A || k == S || k == D
  }

  /** The one steering quantity a key drives. */
  function Steer(w: World, k: Key): real
    requires Steering(k)
  {
    match k
    case W => w.moveForward
    case S => w.moveBackwards
    case A => w.yawRight
    case D => w.yawLeft
  }

  // ---------------------------------------------------------------------
  // The delete key.
  // ---------------------------------------------------------------------

  /** Number of control points of a path element (0 for a sound object). */
  function PointCount(e: Entity): nat
  {
    match e
    case ObjectEntity(_) => 0
    case TrajectoryEntity(t) => |t.points|
    case ZoneEntity(z) => |z.points|
  }

  /** Two entities of the same kind. */
  predicate SameKind(e1: Entity, e2: Entity)
  {
    (e1.ObjectEntity? <==> e2.ObjectEntity?) && (e1.TrajectoryEntity? <==> e2.TrajectoryEntity?)
  }

  /** A registry whose lists only lost elements still refers to the right kinds. */
  lemma TypedAfterShrinking(r: Registry, q: Registry)
    requires Typed(r)
    requires forall id :: id in r.heap ==> id in q.heap && SameKind(r.heap[id], q.heap[id])
    requires forall y :: y in q.soundObjects ==> y in r.soundObjects
    requires forall y :: y in q.soundTrajectories ==> y in r.soundTrajectories
    requires forall y :: y in q.soundZones ==> y in r.soundZones
    ensures Typed(q)
  {
    forall k | 0 <= k < |q.soundObjects|
      ensures q.soundObjects[k] in q.heap && q.heap[q.soundObjects[k]].ObjectEntity?
    {
      assert q.soundObjects[k] in q.soundObjects;
      assert q.soundObjects[k] in r.soundObjects;
    }
    forall k | 0 <= k < |q.soundTrajectories|
      ensures q.soundTrajectories[k] in q.heap && q.heap[q.soundTrajectories[k]].TrajectoryEntity?
    {
      assert q.soundTrajectories[k] in q.soundTrajectories;
      assert q.soundTrajectories[k] in r.soundTrajectories;
    }
    forall k | 0 <= k < |q.soundZones|
      ensures q.soundZones[k] in q.heap && q.heap[q.soundZones[k]].ZoneEntity?
    {
      assert q.soundZones[k] in q.soundZones;
      assert q.soundZones[k] in r.soundZones;
    }
  }

  /** The common frame of the delete table's outcomes: the registry stays
      well typed, nothing leaves the heap and no element changes kind. */
  predicate Keeps(w: World, r: World)
  {
    && Typed(r.reg)
    && r.reg.heap.Keys == w.reg.heap.Keys
    && forall id :: id in w.reg.heap ==> SameKind(w.reg.heap[id], r.reg.heap[id])
  }

  /** Delete with an active trajectory: its selected point goes when it has
      more than three points; otherwise nothing happens. */
  function DeleteOnTrajectory(w: World, a: Id): (r: World)
    requires Typed(w.reg) && a in w.reg.heap && w.reg.heap[a].TrajectoryEntity?
    ensures Keeps(w, r)
    ensures var t := w.reg.heap[a].t;
      if t.selected.Some? && |t.points| > 3 then
        && r == w.(reg := w.reg.(heap := r.reg.heap))
        && r.reg.heap == w.reg.heap[a := r.reg.heap[a]]
        && |r.reg.heap[a].t.points| >= |t.points| - 1
        && r.reg.heap[a].t.selected.None?
        && (Trajectories.Valid(t) ==> |r.reg.heap[a].t.points| == |t.points| - 1)
        && (Trajectories.Valid(t) ==> SpliceInsert(r.reg.heap[a].t.points, t.selected.value, t.points[t.selected.value]) == t.points)
      else r == w
  {
    var t := w.reg.heap[a].t;
    if t.selected.Some? && |t.points| > 3 then
      var q := w.reg.(heap := w.reg.heap[a := TrajectoryEntity(Trajectories.RemovePoint(t).state)]);
      TypedAfterShrinking(w.reg, q);
      w.(reg := q)
    else w
  }

  /** Delete with an active zone that has a selected point and more than
      three points: that point goes, and nothing else changes. */
  function DeleteZonePoint(w: World, a: Id): (r: World)
    requires Typed(w.reg) && a in w.reg.heap && w.reg.heap[a].ZoneEntity?
    ensures Keeps(w, r)
    ensures r == w.(reg := w.reg.(heap := w.reg.heap[a := r.reg.heap[a]]))
    ensures var z := w.reg.heap[a].z;
      && |r.reg.heap[a].z.points| >= |z.points| - 1
      && r.reg.heap[a].z.selected.None?
      && (Zones.Valid(z) && z.selected.Some? ==> |r.reg.heap[a].z.points| == |z.points| - 1)
  {
    var q := w.reg.(heap := w.reg.heap[a := ZoneEntity(Zones.RemovePoint(w.reg.heap[a].z))]);
    TypedAfterShrinking(w.reg, q);
    w.(reg := q)
  }

  /** Delete with an active zone that cannot lose a point: the whole zone
      is removed, which fails as removeSoundZone does, and nothing is active. */
  function DeleteWholeZone(w: World, a: Id): (r: Outcome<World>)
    requires Typed(w.reg) && a in w.reg.heap && w.reg.heap[a].ZoneEntity?
    ensures Keeps(w, r.state)
    ensures r.Threw? <==> a !in w.reg.soundZones || Silenced(w.reg.heap[a])
    ensures r.Threw? ==> r.state == w
    ensures r.Done? ==> r.state.activeObject.None? && r.state.reg.soundZones == RemoveElement(w.reg.soundZones, a)
    ensures r.Done? ==> r.state == w.(reg := RemoveSoundZone(w.reg, a).state, activeObject := None)
  {
    var q := RemoveSoundZone(w.reg, a);
    if q.Threw? then Threw(w)
    else
      RemovedZoneKeeps(w.reg, a);
      Done(w.(reg := q.state, activeObject := None))
  }

  /** Removing a zone from the registry keeps it well typed, keeps every
      identity and changes no element's kind. */
  lemma RemovedZoneKeeps(reg: Registry, a: Id)
    requires Typed(reg) && a in reg.heap && reg.heap[a].ZoneEntity?
    requires RemoveSoundZone(reg, a).Done?
    ensures var q := RemoveSoundZone(reg, a).state;
      && Typed(q) && q.heap.Keys == reg.heap.Keys
      && forall id :: id in reg.heap ==> SameKind(reg.heap[id], q.heap[id])
  {
    var q := RemoveSoundZone(reg, a).state;
    var e := ZoneEntity(NotUnderUserGuarded(reg.heap[a].z).zone);
    assert q.heap == reg.heap[a := e];
    forall id | id in reg.heap
      ensures id in q.heap && SameKind(reg.heap[id], q.heap[id])
    {
      if id != a {
        assert q.heap[id] == reg.heap[id];
      }
    }
    assert q.soundObjects == reg.soundObjects && q.soundTrajectories == reg.soundTrajectories;
    assert q.soundZones == RemoveElement(reg.soundZones, a);
    TypedAfterShrinking(reg, q);
  }

  /** Delete with an active sound object: the object leaves the object list,
      its trajectory (if any) leaves the trajectory list, and nothing is
      active. */
  function DeleteOnObject(w: World, a: Id): (r: World)
    requires Typed(w.reg) && a in w.reg.heap && w.reg.heap[a].ObjectEntity?
    ensures Keeps(w, r)
    ensures r.activeObject.None?
    ensures r.reg.soundObjects == RemoveElement(w.reg.soundObjects, a)
    ensures var o := w.reg.heap[a].o;
      r.reg.soundTrajectories
        == if o.trajectory.Some? then RemoveElement(w.reg.soundTrajectories, o.trajectory.value)
           else w.reg.soundTrajectories
    ensures r.reg.heap == w.reg.heap && r.reg.soundZones == w.reg.soundZones
  {
    var o := w.reg.heap[a].o;
    var objects := RemoveElement(w.reg.soundObjects, a);
    var trajectories := if o.trajectory.Some? then RemoveElement(w.reg.soundTrajectories, o.trajectory.value)
                        else w.reg.soundTrajectories;
    var q := w.reg.(soundObjects := objects, soundTrajectories := trajectories);
    TypedAfterShrinking(w.reg, q);
    w.(reg := q, activeObject := None)
  }

  /** Backspace or Delete: the table above, by the kind of the active
      element; nothing happens without one. */
  function DeleteKey(w: World): (r: Outcome<World>)
    requires Typed(w.reg)
    ensures Keeps(w, r.state)
    ensures r.Threw? ==> r.state == w
    ensures r.Threw? ==> w.activeObject.Some? && w.activeObject.value in w.reg.heap && w.reg.heap[w.activeObject.value].ZoneEntity?
    ensures w.activeObject.None? || w.activeObject.value !in w.reg.heap ==> r == Done(w)
  {
    if w.activeObject.None? || w.activeObject.value !in w.reg.heap then Done(w)
    else
      var a := w.activeObject.value;
      match w.reg.heap[a]
      case TrajectoryEntity(_) => Done(DeleteOnTrajectory(w, a))
      case ZoneEntity(z) =>
        if z.selected.Some? && |z.points| > 3 then Done(DeleteZonePoint(w, a)) else DeleteWholeZone(w, a)
      case ObjectEntity(_) => Done(DeleteOnObject(w, a))
  }

  /** The delete key never takes a trajectory or a zone that has at least
      three points below three: a point is only removed from a path that has
      more than three, and a zone that cannot lose a point is removed from
      the zone list as a whole. */
  lemma DeleteKeepsThreePoints(w: World, id: Id)
    requires Typed(w.reg) && id in w.reg.heap && PointCount(w.reg.heap[id]) >= 3
    ensures PointCount(DeleteKey(w).state.reg.heap[id]) >= 3
  {
    if w.activeObject.Some? && w.activeObject.value in w.reg.heap {
      var a := w.activeObject.value;
      var e := w.reg.heap[a];
      if e.TrajectoryEntity? {
        TrajectoryRowKeepsThree(w, a, id);
      } else if e.ZoneEntity? {
        if e.z.selected.Some? && |e.z.points| > 3 {
          ZonePointRowKeepsThree(w, a, id);
        } else {
          WholeZoneRowKeepsPoints(w, a, id);
        }
      }
    }
  }

  /** The trajectory row of the delete table keeps three points. */
  lemma TrajectoryRowKeepsThree(w: World, a: Id, id: Id)
    requires Typed(w.reg) && a in w.reg.heap && w.reg.heap[a].TrajectoryEntity?
    requires id in w.reg.heap && PointCount(w.reg.heap[id]) >= 3
    ensures PointCount(DeleteOnTrajectory(w, a).reg.heap[id]) >= 3
  {
    var t := w.reg.heap[a].t;
    var r := DeleteOnTrajectory(w, a);
    if t.selected.Some? && |t.points| > 3 {
      if id == a {
        assert |r.reg.heap[a].t.points| >= |t.points| - 1;
      } else {
        assert r.reg.heap[id] == w.reg.heap[id];
      }
    } else {
      assert r == w;
    }
  }

  /** Removing a zone's selected point keeps three points. */
  lemma ZonePointRowKeepsThree(w: World, a: Id, id: Id)
    requires Typed(w.reg) && a in w.reg.heap && w.reg.heap[a].ZoneEntity?
    requires id in w.reg.heap && PointCount(w.reg.heap[id]) >= 3 && |w.reg.heap[a].z.points| > 3
    ensures PointCount(DeleteZonePoint(w, a).reg.heap[id]) >= 3
  {
    var r := DeleteZonePoint(w, a);
    if id == a {
      assert |r.reg.heap[a].z.points| >= |w.reg.heap[a].z.points| - 1;
    } else {
      assert r.reg.heap[id] == w.reg.heap[id];
    }
  }

  /** Removing a whole zone leaves every path's points alone. */
  lemma WholeZoneRowKeepsPoints(w: World, a: Id, id: Id)
    requires Typed(w.reg) && a in w.reg.heap && w.reg.heap[a].ZoneEntity?
    requires id in w.reg.heap
    ensures PointCount(DeleteWholeZone(w, a).state.reg.heap[id]) == PointCount(w.reg.heap[id])
  {
    var r := DeleteWholeZone(w, a);
    if r.Done? {
      var z := w.reg.heap[a].z;
      assert r.state.reg.heap == w.reg.heap[a := ZoneEntity(NotUnderUserGuarded(z).zone)];
      assert NotUnderUserGuarded(z).zone.points == z.points;
    }
  }

  // ---------------------------------------------------------------------
  // Key handlers.
  // ---------------------------------------------------------------------

  /** keydown. Repeats are ignored. W and S start moving at the movement
      speed, A and D start turning at the rotation speed, C enables the
      orbit controls, Backspace and Delete run the delete table. */
  function KeyDown(w: World, key: Key, repeat: bool): (r: Outcome<World>)
    requires Typed(w.reg)
    ensures repeat || key == R || key == Other ==> r == Done(w)
    ensures !repeat && key == W ==> r == Done(w.(moveForward := w.movementSpeed))
    ensures !repeat && key == S ==> r == Done(w.(moveBackwards := w.movementSpeed))
    ensures !repeat && key == A ==> r == Done(w.(yawRight := w.rotationSpeed))
    ensures !repeat && key == D ==> r == Done(w.(yawLeft := w.rotationSpeed))
    ensures !repeat && key == C ==> r == Done(w.(controlsEnabled := true))
    ensures !repeat && (key == Backspace || key == Delete) ==> r == DeleteKey(w)
  {
    if repeat then Done(w)
    else if Steering(key) then Done(SetSteer(w, key, 1.0 * SteerSpeed(w, key)))
    else match key
      case C => Done(w.(controlsEnabled := true))
      case Backspace => DeleteKey(w)
      case Delete => DeleteKey(w)
      case R => Done(w)
      case Other => Done(w)
  }

  /** keyup. Repeats are ignored. W, S, A and D stop their motion, C
      disables the orbit controls, R leaves the edit-object view. */
  function KeyUp(w: World, key: Key, repeat: bool): (r: World)
    ensures repeat || key == Backspace || key == Delete || key == Other ==> r == w
    ensures !repeat && Steering(key) ==> Steer(r, key) == 0.0 && r == SetSteer(w, key, 0.0)
    ensures !repeat && key == C ==> r == w.(controlsEnabled := false)
    ensures !repeat && key == R ==> r == w.(isEditingObject := false)
  {
    if repeat then w
    else if Steering(key) then SetSteer(w, key, 0.0)
    else match key
      case C => w.(controlsEnabled := false)
      case R => if w.isEditingObject then w.(isEditingObject := false) else w
      case _ => w
  }

  /** The world with one steering quantity replaced. */
  function SetSteer(w: World, k: Key, v: real): (r: World)
    requires Steering(k)
    ensures Steer(r, k) == v
  {
    match k
    case W => w.(moveForward := v)
    case S => w.(moveBackwards := v)
    case A => w.(yawRight := v)
    case D => w.(yawLeft := v)
  }

  /** The configured speed of a steering key: movement for W and S,
      rotation for A and D. */
  function SteerSpeed(w: World, k: Key): real
    requires Steering(k)
  {
    if k == W || k == S then w.movementSpeed else w.rotationSpeed
  }

  /** Replacing a steering quantity twice keeps only the second value, and
      writing back the current value changes nothing; the speeds are never
      touched. */
  lemma SetSteerLaws(w: World, k: Key, u: real, v: real)
    requires Steering(k)
    ensures SetSteer(SetSteer(w, k, u), k, v) == SetSteer(w, k, v)
    ensures SetSteer(w, k, Steer(w, k)) == w
    ensures SteerSpeed(SetSteer(w, k, u), k) == SteerSpeed(w, k)
  {
    match k
    case W =>
    case S =>
    case A =>
    case D =>
  }

  /** Pressing a steering key drives its quantity at the configured speed
      and releasing it stops it again, leaving everything else as it was. */
  lemma PressThenRelease(w: World, k: Key)
    requires Typed(w.reg) && Steering(k)
    ensures KeyDown(w, k, false).Done?
    ensures Steer(KeyDown(w, k, false).state, k) == (if k == W || k == S then w.movementSpeed else w.rotationSpeed)
    ensures KeyUp(KeyDown(w, k, false).state, k, false) == SetSteer(w, k, 0.0)
    ensures Steer(w, k) == 0.0 ==> KeyUp(KeyDown(w, k, false).state, k, false) == w
  {
    var down := SetSteer(w, k, 1.0 * SteerSpeed(w, k));
    PressDrives(w, k);
    ReleaseStops(down, k);
    SetSteerLaws(w, k, 1.0 * SteerSpeed(w, k), 0.0);
  }

  /** A fresh press of a steering key only sets its quantity. */
  lemma PressDrives(w: World, k: Key)
    requires Typed(w.reg) && Steering(k)
    ensures KeyDown(w, k, false) == Done(SetSteer(w, k, 1.0 * SteerSpeed(w, k)))
  {
  }

  /** A release of a steering key only zeroes its quantity. */
  lemma ReleaseStops(w: World, k: Key)
    requires Steering(k)
    ensures KeyUp(w, k, false) == SetSteer(w, k, 0.0)
  {
  }

  // ---------------------------------------------------------------------
  // The cone toggle of the edit-object view.
  // ---------------------------------------------------------------------

  /** What a mouse-down in the edit-object view hits among the container's
      children: a cone (with the id offset the handler computes from the
      first cone), a child named 'visibleSphere', another child, or
      nothing. No sound object names a child 'visibleSphere': the visible
      omni sphere inside the container has no name, and the raycast sphere
      named 'sphere' is added to the scene, not to the container. So a
      click on the sphere is `HitOther`, and `HitSphere` is a case of the
      switch that no object of this editor reaches. */
  datatype ConeHit = HitCone(index: int) | HitSphere | HitOther | NoHit

  /** The cone-selection switch of mouse-down in the edit-object view.
      Clicking the selected cone deselects it and ends placing; clicking
      another cone selects its index for re-aiming; a child named
      'visibleSphere' would end re-aiming; a click on nothing resets all
      three. The first-cone object that setActiveObject stores never equals
      an index. The colour lines that follow the switch, and the
      TypeErrors they can raise, are `EditViewClick`. */
  function ConeClick(w: World, hit: ConeHit): (r: World)
    ensures r == w.(interactiveCone := r.interactiveCone, placingCone := r.placingCone, replacingCone := r.replacingCone)
    ensures hit.HitCone? && w.interactiveCone == ConeIndex(hit.index) ==>
      r.interactiveCone == NoCone && !r.placingCone && r.replacingCone == w.replacingCone
    ensures hit.HitCone? && w.interactiveCone != ConeIndex(hit.index) ==>
      r.interactiveCone == ConeIndex(hit.index) && r.replacingCone && r.placingCone == w.placingCone
    ensures hit == HitSphere ==> r == w.(replacingCone := false)
    ensures hit == HitOther ==> r == w
    ensures hit == NoHit ==> r.interactiveCone == NoCone && !r.placingCone && !r.replacingCone
  {
    match hit
    case HitCone(i) => ClickOnCone(w, i)
    case HitSphere => w.(replacingCone := false)
    case HitOther => w
    case NoHit => w.(placingCone := false, replacingCone := false, interactiveCone := NoCone)
  }

  /** A click on cone `i`: the selected cone is deselected and placing ends;
      any other cone is selected for re-aiming. */
  function ClickOnCone(w: World, i: int): (r: World)
    ensures r == w.(interactiveCone := r.interactiveCone, placingCone := r.placingCone, replacingCone := r.replacingCone)
    ensures w.interactiveCone == ConeIndex(i) ==>
      r.interactiveCone == NoCone && !r.placingCone && r.replacingCone == w.replacingCone
    ensures w.interactiveCone != ConeIndex(i) ==>
      r.interactiveCone == ConeIndex(i) && r.replacingCone && r.placingCone == w.placingCone
  {
    if w.interactiveCone == ConeIndex(i) then w.(placingCone := false, interactiveCone := NoCone)
    else w.(interactiveCone := ConeIndex(i), replacingCone := true)
  }

  /** The switch alone: clicking the same cone twice selects and then
      deselects it, from any state that did not already select it,
      including right after setActiveObject stored the first cone. In that
      last case the colour lines that follow the first click throw
      (`FirstConeClickThrows`), after these flags are set. */
  lemma ConeClickToggles(w: World, i: int)
    requires w.interactiveCone != ConeIndex(i)
    ensures ConeClick(w, HitCone(i)).interactiveCone == ConeIndex(i)
    ensures ConeClick(ConeClick(w, HitCone(i)), HitCone(i)).interactiveCone == NoCone
    ensures !ConeClick(ConeClick(w, HitCone(i)), HitCone(i)).placingCone
    ensures ConeClick(ConeClick(w, HitCone(i)), HitCone(i)).replacingCone
  {
  }

  /** `main.previousInteractiveCone`. main.js never initialises it, so it
      is undefined until a cone click or a click on nothing sets it. */
  datatype PrevCone = Undefined | Prev(cone: ConeRef)

  /** Whether the colour lines survive a cone reference, given the active
      object's number of cones: null is skipped, an index of an existing
      cone finds it, and anything else (the first-cone object used as a
      key, an index out of range) gives undefined, whose `.material`
      raises a TypeError. */
  predicate Paints(c: ConeRef, cones: nat)
  {
    c.NoCone? || (c.ConeIndex? && 0 <= c.index < cones)
  }

  /** The edit-object part of mouse-down (interaction.js:294-348) from a
      given state: the cone switch, then the colour lines, which recolour
      the previous cone and the selected one. The handler runs
      setActiveObject before this part; `EditViewMouseDown` is the whole
      handler. A cone click or a click on nothing records the old selection
      as the previous cone first. The switch has already set its flags
      when a colour line throws, so the world is the same either way;
      `cones` is the active sound object's number of cones. */
  function EditViewClick(w: World, prev: PrevCone, hit: ConeHit, cones: nat): (r: Outcome<(World, PrevCone)>)
    ensures r.state.0 == ConeClick(w, hit)
    ensures hit.HitCone? || hit == NoHit ==> r.state.1 == Prev(w.interactiveCone)
    ensures hit == HitSphere || hit == HitOther ==> r.state.1 == prev
    ensures r.Threw? <==> r.state.1 == Undefined || !Paints(r.state.1.cone, cones) || !Paints(r.state.0.interactiveCone, cones)
  {
    var w1 := ConeClick(w, hit);
    var p1 := if hit.HitCone? || hit == NoHit then Prev(w.interactiveCone) else prev;
    if p1.Prev? && Paints(p1.cone, cones) && Paints(w1.interactiveCone, cones) then Done((w1, p1))
    else Threw((w1, p1))
  }

  /** The first cone click after setActiveObject stored a sound object's
      first cone throws: the stored cone object becomes the previous cone,
      and `cones[object]` is undefined. */
  lemma FirstConeClickThrows(w: World, a: Id, nonScaledY: real, mouse: Vec3, prev: PrevCone, i: int, cones: nat)
    requires a in w.reg.heap && w.reg.heap[a].ObjectEntity? && |w.reg.heap[a].o.cones| > 0
    ensures var w1 := SetActiveObject(w, Some(a), nonScaledY, mouse);
      && w1.interactiveCone == FirstConeOf(a)
      && EditViewClick(w1, prev, HitCone(i), cones).Threw?
      && EditViewClick(w1, prev, HitCone(i), cones).state.0.interactiveCone == ConeIndex(i)
  {
  }

  /** A click on another child, before any cone click or click on nothing
      has set the previous cone, throws at the undefined previous cone. */
  lemma UndefinedPreviousThrows(w: World, cones: nat)
    ensures EditViewClick(w, Undefined, HitOther, cones) == Threw((w, Undefined))
  {
  }

  /** The edit-object part alone, from a given state whose selection is
      null or an existing cone: clicking an existing cone twice completes
      both times and ends with nothing selected. A real mouse-down never
      starts this part from such a state after a cone click, because its
      setActiveObject first stores the first cone object
      (`EditViewConeClickThrows`). */
  lemma ToggleCompletes(w: World, prev: PrevCone, i: int, cones: nat)
    requires 0 <= i < cones && Paints(w.interactiveCone, cones) && w.interactiveCone != ConeIndex(i)
    ensures var first := EditViewClick(w, prev, HitCone(i), cones);
      && first.Done? && first.state.0.interactiveCone == ConeIndex(i)
      && EditViewClick(first.state.0, first.state.1, HitCone(i), cones).Done?
      && EditViewClick(first.state.0, first.state.1, HitCone(i), cones).state.0.interactiveCone == NoCone
  {
  }

  /** onMouseDown with the edit-object view open and no key held. The
      handler marks the mouse down and first makes `under` active: the
      first of the objects, zones and trajectories under the mouse, or
      none. Only then does the cone code run, so it always starts from the
      state setActiveObject leaves. The adding modes throw at the undefined
      `main.trajectory` and `main.zone`. A sound object under the mouse is
      selected, recording the unscaled mouse height. Reading
      `activeObject.containerObject.children` throws when nothing is
      active or when a trajectory or zone is, since those have no
      container. Otherwise the cone switch and the colour lines run on what
      the ray hits among the new active object's children. */
  function EditViewMouseDown(w: World, prev: PrevCone, under: Option<Id>, hit: ConeHit, nonScaledY: real, mouse: Vec3)
    : (r: Outcome<(World, PrevCone)>)
    requires w.isEditingObject
    ensures r.state.0.isMouseDown && r.state.0.activeObject == under
    ensures under.None? ==> r.Threw?
    ensures w.isAddingTrajectory || w.isAddingObject ==> r.Threw?
    ensures under.Some? && under.value in w.reg.heap && !w.reg.heap[under.value].ObjectEntity? ==> r.Threw?
    ensures r.Done? ==> ActiveIsObject(r.state.0) && r.state.0.reg.heap[under.value].o.offsetY == Some(nonScaledY)
  {
    var w1 := SetActiveObject(w.(isMouseDown := true), under, nonScaledY, mouse);
    if w1.isAddingTrajectory || w1.isAddingObject || !ActiveIsObject(w1) then Threw((w1, prev))
    else
      var a := under.value;
      var o := w1.reg.heap[a].o;
      var w2 := w1.(reg := w1.reg.(heap := w1.reg.heap[a := ObjectEntity(SoundObjects.Select(o, nonScaledY))]));
      EditViewClick(w2, prev, hit, |o.cones|)
  }

  /** In the edit-object view every click on a cone throws, and the toggle
      never deselects. The click hits the sound object itself, so
      setActiveObject stores its first cone object as the selection. The
      switch then records that object as the previous cone and selects the
      clicked index, because the object never equals an index. Then
      `cones[object]` is undefined at the colour line. */
  lemma EditViewConeClickThrows(w: World, prev: PrevCone, a: Id, i: int, nonScaledY: real, mouse: Vec3)
    requires w.isEditingObject
    requires a in w.reg.heap && w.reg.heap[a].ObjectEntity? && |w.reg.heap[a].o.cones| > 0
    ensures var r := EditViewMouseDown(w, prev, Some(a), HitCone(i), nonScaledY, mouse);
      && r.Threw?
      && (!w.isAddingTrajectory && !w.isAddingObject ==>
            r.state.0.interactiveCone == ConeIndex(i) && r.state.1 == Prev(FirstConeOf(a)))
  {
    var w1 := SetActiveObject(w.(isMouseDown := true), Some(a), nonScaledY, mouse);
    assert w1.interactiveCone == FirstConeOf(a);
    assert w1.isAddingTrajectory == w.isAddingTrajectory && w1.isAddingObject == w.isAddingObject;
  }

  // ---------------------------------------------------------------------
  // Mouse-up.
  // ---------------------------------------------------------------------

  /** calculateMovementSpeed on every listed element that is a sound object;
      `lengthOf(id)` is the arc length of object `id`'s trajectory. */
  function RecomputeSpeeds(heap: map<Id, Entity>, ids: seq<Id>, lengthOf: Id -> real): (h: map<Id, Entity>)
    requires forall id :: id in heap && heap[id].ObjectEntity? && heap[id].o.trajectory.Some? ==> lengthOf(id) > 0.0
    ensures SameNonObjects(heap, h)
    ensures forall id :: id in h && h[id].ObjectEntity? && h[id].o.trajectory.Some? ==> lengthOf(id) > 0.0
    decreases |ids|
  {
    if |ids| == 0 then heap
    else if ids[0] in heap && heap[ids[0]].ObjectEntity? then
      var o := heap[ids[0]].o;
      RecomputeSpeeds(heap[ids[0] := ObjectEntity(CalculateMovementSpeed(o, lengthOf(ids[0])))], ids[1..], lengthOf)
    else RecomputeSpeeds(heap, ids[1..], lengthOf)
  }

  /** Recomputing is idempotent, so a listed object's final increment is the
      one its own speed and arc length give, however often it is listed;
      unlisted objects keep theirs. */
  lemma {:induction false} RecomputeSpeedsEffect(heap: map<Id, Entity>, ids: seq<Id>, lengthOf: Id -> real, id: Id)
    requires forall j :: j in heap && heap[j].ObjectEntity? && heap[j].o.trajectory.Some? ==> lengthOf(j) > 0.0
    requires id in heap && heap[id].ObjectEntity?
    ensures id in ids ==> RecomputeSpeeds(heap, ids, lengthOf)[id] == ObjectEntity(CalculateMovementSpeed(heap[id].o, lengthOf(id)))
    ensures id !in ids ==> RecomputeSpeeds(heap, ids, lengthOf)[id] == heap[id]
    decreases |ids|
  {
    if |ids| > 0 {
      var h1 := if ids[0] in heap && heap[ids[0]].ObjectEntity? then
        heap[ids[0] := ObjectEntity(CalculateMovementSpeed(heap[ids[0]].o, lengthOf(ids[0])))] else heap;
      assert RecomputeSpeeds(heap, ids, lengthOf) == RecomputeSpeeds(h1, ids[1..], lengthOf);
      RecomputeSpeedsEffect(h1, ids[1..], lengthOf, id);
      assert id in ids <==> id == ids[0] || id in ids[1..] by {
        assert ids == [ids[0]] + ids[1..];
      }
      var o := heap[id].o;
      if id == ids[0] && id in ids[1..] {
        assert CalculateMovementSpeed(CalculateMovementSpeed(o, lengthOf(id)), lengthOf(id)) == CalculateMovementSpeed(o, lengthOf(id));
      }
    }
  }

  /** mouseup. The adding modes reach for the global drawing objects, which
      are not defined in this version, so the handler fails at once;
      otherwise the mouse is released and every sound object's increment is
      recomputed from its trajectory's length. */
  function MouseUp(w: World, lengthOf: Id -> real): (r: Outcome<World>)
    requires forall id :: id in w.reg.heap && w.reg.heap[id].ObjectEntity? && w.reg.heap[id].o.trajectory.Some? ==> lengthOf(id) > 0.0
    ensures r.Threw? <==> w.isAddingTrajectory || w.isAddingObject
    ensures r.Threw? ==> r.state == w
    ensures r.Done? ==> !r.state.isMouseDown && r.state == w.(isMouseDown := false, reg := r.state.reg)
    ensures r.Done? ==> r.state.reg == w.reg.(heap := r.state.reg.heap) && SameNonObjects(w.reg.heap, r.state.reg.heap)
  {
    if w.isAddingTrajectory || w.isAddingObject then Threw(w)
    else Done(w.(isMouseDown := false, reg := w.reg.(heap := RecomputeSpeeds(w.reg.heap, w.reg.soundObjects, lengthOf))))
  }

  /** After mouse-up every listed sound object with a trajectory moves at
      its speed per unit of arc length, and the rest are unchanged. */
  lemma MouseUpRecomputes(w: World, lengthOf: Id -> real, id: Id)
    requires forall j :: j in w.reg.heap && w.reg.heap[j].ObjectEntity? && w.reg.heap[j].o.trajectory.Some? ==> lengthOf(j) > 0.0
    requires !w.isAddingTrajectory && !w.isAddingObject
    requires id in w.reg.heap && w.reg.heap[id].ObjectEntity?
    ensures var e := MouseUp(w, lengthOf).state.reg.heap[id];
      && e.ObjectEntity?
      && (id in w.reg.soundObjects && w.reg.heap[id].o.trajectory.Some? ==>
            e.o.motion.increment == Some(w.reg.heap[id].o.motion.speed / lengthOf(id)))
      && (id !in w.reg.soundObjects || w.reg.heap[id].o.trajectory.None? ==> e == w.reg.heap[id])
  {
    RecomputeSpeedsEffect(w.reg.heap, w.reg.soundObjects, lengthOf, id);
  }
}

=== FILE: jsarrays.dfy ===
/** The JavaScript array operations the editor uses to edit point lists and
    object registries: `indexOf` and one-element `splice`. */
module JsArrays {

  /** `s.indexOf(x)` searching from position `k`: the first position at or
      after `k` holding `x`, or -1. */
  function IndexFrom<T(==)>(s: seq<T>, x: T, k: nat): (i: int)
    requires k <= |s|
    ensures i == -1 || k <= i < |s|
    ensures i == -1 <==> x !in s[k..]
    ensures i >= 0 ==> s[i] == x && forall j :: k <= j < i ==> s[j] != x
    decreases |s| - k
  {
    if k == |s| then -1
    else if s[k] == x then k
    else
      assert s[k..] == [s[k]] + s[k + 1..];
      IndexFrom(s, x, k + 1)
  }

  /** `s.indexOf(x)`: the first position of `x`, or -1 when `x` is absent. */
  function IndexOf<T(==)>(s: seq<T>, x: T): (i: int)
    ensures -1 <= i < |s|
    ensures i == -1 <==> x !in s
    ensures i >= 0 ==> s[i] == x && forall j :: 0 <= j < i ==> s[j] != x
  {
    assert s[0..] == s;
    IndexFrom(s, x, 0)
  }

  /** The position `splice` starts at: a negative start counts back from the
      end (clamped at 0), a start past the end is clamped to the length. */
  function SpliceStart(len: nat, start: int): (a: nat)
    ensures a <= len
    ensures 0 <= start <= len ==> a == start
    ensures start < 0 && len + start >= 0 ==> a == len + start
  {
    if start < 0 then (if len + start < 0 then 0 else len + start)
    else if start > len then len
    else start
  }

  /** The array left behind by `s.splice(start, 1)`. */
  function SpliceRemove<T>(s: seq<T>, start: int): (r: seq<T>)
    ensures 0 <= start < |s| ==> |r| == |s| - 1
    ensures 0 <= start < |s| ==> forall j :: 0 <= j < start ==> r[j] == s[j]
    ensures 0 <= start < |s| ==> forall j :: start <= j < |r| ==> r[j] == s[j + 1]
    ensures start == -1 && |s| > 0 ==> r == s[..|s| - 1]
    ensures start >= |s| ==> r == s
    ensures |s| == 0 ==> r == []
    ensures |r| == |s| - 1 || r == s
    ensures forall y :: y in r ==> y in s
  {
    var a := SpliceStart(|s|, start);
    if a < |s| then s[..a] + s[a + 1..] else s
  }

  /** The array left behind by `s.splice(start, 0, x)`. */
  function SpliceInsert<T>(s: seq<T>, start: int, x: T): (r: seq<T>)
    ensures |r| == |s| + 1
    ensures 0 <= start <= |s| ==> r[start] == x
    ensures 0 <= start <= |s| ==> forall j :: 0 <= j < start ==> r[j] == s[j]
    ensures 0 <= start <= |s| ==> forall j :: start <= j < |s| ==> r[j + 1] == s[j]
  {
    var a := SpliceStart(|s|, start);
    s[..a] + [x] + s[a..]
  }

  /** Removing what was just inserted at the same position restores the array. */
  lemma RemoveUndoesInsert<T>(s: seq<T>, i: nat, x: T)
    requires i <= |s|
    ensures SpliceRemove(SpliceInsert(s, i, x), i) == s
  {
    var r := SpliceRemove(SpliceInsert(s, i, x), i);
    assert |r| == |s|;
    forall j | 0 <= j < |s|
      ensures r[j] == s[j]
    {
      if j >= i {
        assert r[j] == SpliceInsert(s, i, x)[j + 1];
      }
    }
  }

  /** Putting a removed element back at its position restores the array. */
  lemma InsertUndoesRemove<T>(s: seq<T>, i: nat)
    requires i < |s|
    ensures SpliceInsert(SpliceRemove(s, i), i, s[i]) == s
  {
    var r := SpliceInsert(SpliceRemove(s, i), i, s[i]);
    assert |r| == |s|;
    forall j | 0 <= j < |s|
      ensures r[j] == s[j]
    {
      if j > i {
        assert r[j] == SpliceRemove(s, i)[j - 1];
      }
    }
  }
}

=== FILE: matrices.dfy ===
/** Pushing a transform to the audio layer: the position comes from the
    translation column, the orientation from the same matrix with its
    translation zeroed, and the matrix is restored afterwards. */
module Matrices {
  import opened Base
  import opened Vectors

  /** A three.js `Matrix4`: sixteen elements, column-major, with the
      translation in elements 12, 13 and 14. */
  type Mat4 = m: seq<real> | |m| == 16 witness seq(16, i => 0.0)

  /** `setFromMatrixPosition`: the translation column. */
  function Translation(m: Mat4): Vec3
  {
    Vec3(m[12], m[13], m[14])
  }

  /** The matrix with its translation elements overwritten. */
  function WithTranslation(m: Mat4, t: Vec3): (r: Mat4)
    ensures Translation(r) == t
    ensures forall i :: 0 <= i < 12 || i == 15 ==> r[i] == m[i]
  {
    m[12 := t.x][13 := t.y][14 := t.z]
  }

  /** The matrix with elements 12-14 set to 0. */
  function Linear(m: Mat4): Mat4
  {
    WithTranslation(m, Vec3(0.0, 0.0, 0.0))
  }

  /** Writing the saved translation back undoes the zeroing. */
  lemma RestoreAfterZeroing(m: Mat4)
    ensures WithTranslation(Linear(m), Translation(m)) == m
  {
    var r := WithTranslation(Linear(m), Translation(m));
    forall i | 0 <= i < 16
      ensures r[i] == m[i]
    {
    }
  }

  /** Matrices that differ only in their translation have the same linear part. */
  lemma LinearIgnoresTranslation(a: Mat4, b: Mat4)
    requires forall i :: 0 <= i < 12 || i == 15 ==> a[i] == b[i]
    ensures Linear(a) == Linear(b)
  {
    forall i | 0 <= i < 16
      ensures Linear(a)[i] == Linear(b)[i]
    {
    }
  }

  /** What the audio listener receives, and the camera-head matrix afterwards. */
  datatype ListenerPose = ListenerPose(position: Vec3, forward: Vec3, up: Vec3, matrix: Mat4)

  /** setListenerPosition. `direction(m, v)` stands for
      `v.applyMatrix4(m).normalize()`, which three.js computes. */
  function SetListenerPosition(local: Mat4, world: Mat4, direction: (Mat4, Vec3) -> Vec3): (r: ListenerPose)
    ensures r.matrix == local
    ensures r.position == Translation(world)
    ensures r.forward == direction(Linear(local), Vec3(0.0, 0.0, -1.0))
    ensures r.up == direction(Linear(local), Vec3(0.0, -1.0, 0.0))
  {
    var saved := Translation(local);
    var zeroed := Linear(local);
    var forward := direction(zeroed, Vec3(0.0, 0.0, -1.0));
    var up := direction(zeroed, Vec3(0.0, -1.0, 0.0));
    RestoreAfterZeroing(local);
    ListenerPose(Translation(world), forward, up, WithTranslation(zeroed, saved))
  }

  /** Moving the head does not change the orientation the listener gets:
      the translation never reaches the direction vectors. */
  lemma ListenerOrientationIgnoresTranslation(a: Mat4, b: Mat4, world: Mat4, direction: (Mat4, Vec3) -> Vec3)
    requires forall i :: 0 <= i < 12 || i == 15 ==> a[i] == b[i]
    ensures SetListenerPosition(a, world, direction).forward == SetListenerPosition(b, world, direction).forward
    ensures SetListenerPosition(a, world, direction).up == SetListenerPosition(b, world, direction).up
  {
    LinearIgnoresTranslation(a, b);
  }

  /** What a cone's panner receives, and the cone's world matrix afterwards. */
  datatype ConePose = ConePose(position: Vec3, orientation: Vec3, matrixWorld: Mat4)

  /** setAudioPosition of a cone. `before` is `cone.matrixWorld` on entry and
      `updated` the same matrix after `cone.updateMatrixWorld()`. The
      ES-module copy saves the translation before the update and so writes
      the old translation back; the legacy copy saves it after the update. */
  function SetAudioPosition(rev: Revision, before: Mat4, updated: Mat4, direction: (Mat4, Vec3) -> Vec3): (r: ConePose)
    ensures r.position == Translation(updated)
    ensures r.orientation == direction(Linear(updated), Vec3(0.0, 0.0, 1.0))
    ensures rev == Globals ==> r.matrixWorld == updated
    ensures rev == Modules ==> (r.matrixWorld == updated <==> Translation(before) == Translation(updated))
  {
    var saved := if rev == Modules then Translation(before) else Translation(updated);
    var zeroed := Linear(updated);
    RestoreAfterZeroing(updated);
    ConePose(Translation(updated), direction(zeroed, Vec3(0.0, 0.0, 1.0)), WithTranslation(zeroed, saved))
  }
}

=== FILE: paths.dfy ===
/** Control-point paths shared by trajectories and zones: the closure rule,
    the nearest-segment insertion scan, and whole-path translation. */
module Paths {
  import opened Base
  import opened Vectors
  import opened JsArrays

  /** End points closer than this make a trajectory's spline a closed loop. */
  const ClosureDistance: real := 40.0

  /** The closure rule on the squared end-to-end distance. The source tests
      `distanceTo(...) < 40`, a non-negative square root against 40; lemma
      SquaredClosureTest shows the two tests agree. */
  predicate EndsMeet(points: seq<Vec3>): (b: bool)
    requires |points| > 0
    ensures |points| == 1 ==> b
    ensures b == (DistSq(points[|points| - 1], points[0]) < ClosureDistance * ClosureDistance)
  {
    DistSq(points[0], points[|points| - 1]) < ClosureDistance * ClosureDistance
  }

  /** For any non-negative distance `d` whose square is the squared end-to-end
      distance, `d < 40` holds exactly when EndsMeet does. */
  lemma SquaredClosureTest(points: seq<Vec3>, d: real)
    requires |points| > 0
    requires d >= 0.0 && d * d == DistSq(points[0], points[|points| - 1])
    ensures d < ClosureDistance <==> EndsMeet(points)
  {
    if d < ClosureDistance {
      assert d * d <= d * ClosureDistance;
      assert d * ClosureDistance < ClosureDistance * ClosureDistance;
    } else {
      assert d * d >= d * ClosureDistance;
      assert d * ClosureDistance >= ClosureDistance * ClosureDistance;
    }
  }

  /** Every control point moved by (dx, dy, dz). */
  function TranslateAll(points: seq<Vec3>, dx: real, dy: real, dz: real): (r: seq<Vec3>)
    ensures |r| == |points|
    ensures forall k :: 0 <= k < |points| ==> r[k] == Shift(points[k], dx, dy, dz)
  {
    seq(|points|, k requires 0 <= k < |points| => Shift(points[k], dx, dy, dz))
  }

  /** Translating a path never opens or closes it. */
  lemma TranslationKeepsClosure(points: seq<Vec3>, dx: real, dy: real, dz: real)
    requires |points| > 0
    ensures EndsMeet(TranslateAll(points, dx, dy, dz)) == EndsMeet(points)
  {
    ShiftKeepsDistSq(points[0], points[|points| - 1], dx, dy, dz);
  }

  /** Translating back by the opposite amount restores the path. */
  lemma TranslationUndone(points: seq<Vec3>, dx: real, dy: real, dz: real)
    ensures TranslateAll(TranslateAll(points, dx, dy, dz), -dx, -dy, -dz) == points
  {
  }

  // ---------------------------------------------------------------------
  // The insertion scan of addPoint / addNewPoint.
  //
  // The curve is sampled at t = 0, 1/200, 2/200, ... (the samples come from
  // three.js and are an input here). A pointer walks forward through the
  // control points, wrapping to 0, and moves on whenever a sample is farther
  // from the pointed-at control point than the previous sample was. The new
  // point is inserted at the pointer value of the sample nearest the click.
  // ---------------------------------------------------------------------

  /** The control point after `p`, wrapping to 0 past the last one. */
  function NextIndex(n: nat, p: nat): (q: nat)
    requires p < n
    ensures q < n
    ensures q == 0 <==> p == n - 1
  {
    if p + 1 >= n then 0 else p + 1
  }

  /** One sample of the scan. */
  function Advance(points: seq<Vec3>, p: nat, prev: real, sample: Vec3): (q: nat)
    requires p < |points|
    ensures q == p || q == NextIndex(|points|, p)
  {
    if DistSq(points[p], sample) > prev then NextIndex(|points|, p) else p
  }

  /** The pointer after each sample, from pointer `p` and previous distance `prev`. */
  function Track(points: seq<Vec3>, samples: seq<Vec3>, p: nat, prev: real): (ps: seq<nat>)
    requires p < |points|
    ensures |ps| == |samples|
    ensures forall k :: 0 <= k < |ps| ==> ps[k] < |points|
    decreases |samples|
  {
    if |samples| == 0 then []
    else
      var q := Advance(points, p, prev, samples[0]);
      [q] + Track(points, samples[1..], q, DistSq(points[q], samples[0]))
  }

  /** The pointer trace as the source starts it: pointer 0, previous distance -1. */
  function Pointers(points: seq<Vec3>, samples: seq<Vec3>): (ps: seq<nat>)
    requires |points| > 0
  {
    Track(points, samples, 0, -1.0)
  }

  /** Squared distance from each sample to the clicked position. */
  function ClickDistances(samples: seq<Vec3>, position: Vec3): (ds: seq<real>)
    ensures |ds| == |samples|
    ensures forall k :: 0 <= k < |samples| ==> ds[k] == DistSq(samples[k], position)
  {
    seq(|samples|, k requires 0 <= k < |samples| => DistSq(samples[k], position))
  }

  /** The first position holding the smallest value. */
  function FirstArgmin(ds: seq<real>): (m: nat)
    requires |ds| > 0
    ensures m < |ds|
    ensures forall j :: 0 <= j < |ds| ==> ds[m] <= ds[j]
    ensures forall j :: 0 <= j < m ==> ds[m] < ds[j]
  {
    if |ds| == 1 then 0
    else
      var m := FirstArgmin(ds[..|ds| - 1]);
      if ds[|ds| - 1] < ds[m] then |ds| - 1 else m
  }

  /** Where the scan inserts a clicked point: the pointer value at the first
      sample nearest the click, or the initial 1 when there are no samples. */
  function InsertionIndex(points: seq<Vec3>, samples: seq<Vec3>, position: Vec3): (i: nat)
    requires |points| > 0
    ensures i <= |points|
    ensures |samples| > 0 ==> i < |points|
  {
    if |samples| == 0 then 1
    else Pointers(points, samples)[FirstArgmin(ClickDistances(samples, position))]
  }

  /** The loop of addPoint / addNewPoint. `minDistance` starts at
      Number.MAX_VALUE, above every finite squared distance; here `None`
      stands for it, so the first sample always becomes the minimum. */
  method ScanInsertionIndex(points: seq<Vec3>, samples: seq<Vec3>, position: Vec3) returns (minPoint: nat)
    requires |points| > 0
    ensures minPoint == InsertionIndex(points, samples, position)
    ensures |samples| == 0 ==> minPoint == 1
    ensures |samples| > 0 ==> minPoint < |points|
  {
    var closest: nat := 0;
    var prevDist: real := -1.0;
    var minDistance: Option<real> := None;
    minPoint := 1;
    ghost var ds := ClickDistances(samples, position);
    ghost var ps := Pointers(points, samples);
    ghost var best: nat := 0;
    var i := 0;
    while i < |samples|
      invariant 0 <= i <= |samples|
      invariant closest < |points|
      invariant ps[i..] == Track(points, samples[i..], closest, prevDist)
      invariant minDistance.None? <==> i == 0
      invariant i == 0 ==> minPoint == 1
      invariant i > 0 ==> best < i && best == FirstArgmin(ds[..i])
      invariant i > 0 ==> minDistance == Some(ds[best]) && minPoint == ps[best]
    {
      var pt := samples[i];
      TrackStep(points, samples, ps, i, closest, prevDist);
      ArgminStep(ds, i, best);
      ghost var next := Advance(points, closest, prevDist, pt);
      var distToSplinePoint := DistSq(points[closest], pt);
      if distToSplinePoint > prevDist {
        closest := closest + 1;
        if closest >= |points| {
          closest := 0;
        }
      }
      assert closest == next;
      prevDist := DistSq(points[closest], pt);
      var distToPoint := DistSq(pt, position);
      if minDistance.None? || distToPoint < minDistance.value {
        minDistance := Some(distToPoint);
        minPoint := closest;
        best := i;
      }
      i := i + 1;
    }
    assert ds[..|samples|] == ds;
  }

  /** One sample of the scan: the trace from sample `i` starts with the
      advanced pointer and continues from it. */
  lemma TrackStep(points: seq<Vec3>, samples: seq<Vec3>, ps: seq<nat>, i: nat, p: nat, prev: real)
    requires p < |points| && i < |samples| && i <= |ps|
    requires ps[i..] == Track(points, samples[i..], p, prev)
    ensures var q := Advance(points, p, prev, samples[i]);
      && i < |ps| && ps[i] == q
      && ps[i + 1..] == Track(points, samples[i + 1..], q, DistSq(points[q], samples[i]))
  {
    assert samples[i..][1..] == samples[i + 1..];
    assert ps[i + 1..] == ps[i..][1..];
  }

  /** Extending the scanned prefix by one value moves the first minimum there
      exactly when the new value is strictly smaller. */
  lemma ArgminStep(ds: seq<real>, i: nat, best: nat)
    requires i < |ds|
    requires i > 0 ==> best == FirstArgmin(ds[..i])
    ensures i == 0 ==> FirstArgmin(ds[..1]) == 0
    ensures i > 0 ==> FirstArgmin(ds[..i + 1]) == (if ds[i] < ds[best] then i else best)
  {
    if i > 0 {
      assert ds[..i + 1][..i] == ds[..i];
    }
  }

  /** Each sample leaves the pointer where it was or moves it one control
      point forward, wrapping from the last to 0. */
  lemma {:induction false} TrackSteps(points: seq<Vec3>, samples: seq<Vec3>, p: nat, prev: real, k: nat)
    requires p < |points| && 0 < k < |samples|
    ensures Track(points, samples, p, prev)[k] == Track(points, samples, p, prev)[k - 1]
         || Track(points, samples, p, prev)[k] == NextIndex(|points|, Track(points, samples, p, prev)[k - 1])
  {
    var q := Advance(points, p, prev, samples[0]);
    var rest := Track(points, samples[1..], q, DistSq(points[q], samples[0]));
    assert Track(points, samples, p, prev) == [q] + rest;
    if k > 1 {
      TrackSteps(points, samples[1..], q, DistSq(points[q], samples[0]), k - 1);
    }
  }

  /** Until it has had the chance to pass the last control point, the pointer
      stays between its start and the number of samples seen. */
  lemma {:induction false} TrackNoWrap(points: seq<Vec3>, samples: seq<Vec3>, p: nat, prev: real, k: nat)
    requires p < |points| && k < |samples| && p + k + 1 < |points|
    ensures p <= Track(points, samples, p, prev)[k] <= p + k + 1
  {
    var q := Advance(points, p, prev, samples[0]);
    var rest := Track(points, samples[1..], q, DistSq(points[q], samples[0]));
    assert Track(points, samples, p, prev) == [q] + rest;
    if k > 0 {
      TrackNoWrap(points, samples[1..], q, DistSq(points[q], samples[0]), k - 1);
    }
  }

  /** The first sample always moves the pointer off 0, because every squared
      distance exceeds the initial -1; before wrapping it cannot come back to 0. */
  lemma {:induction false} PointerLeavesZero(points: seq<Vec3>, samples: seq<Vec3>, k: nat)
    requires |points| >= 2 && k < |samples| && k + 1 < |points|
    ensures 1 <= Pointers(points, samples)[k] <= k + 1
  {
    var q := Advance(points, 0, -1.0, samples[0]);
    assert q == 1;
    var rest := Track(points, samples[1..], q, DistSq(points[q], samples[0]));
    assert Pointers(points, samples) == [q] + rest;
    if k > 0 {
      TrackNoWrap(points, samples[1..], q, DistSq(points[q], samples[0]), k - 1);
    }
  }

  /** Insertion at index 0 (before the first control point) needs a nearest
      sample late enough for the pointer to have wrapped around. */
  lemma InsertAtZeroOnlyAfterWrap(points: seq<Vec3>, samples: seq<Vec3>, position: Vec3)
    requires |points| >= 2 && |samples| > 0
    requires InsertionIndex(points, samples, position) == 0
    ensures FirstArgmin(ClickDistances(samples, position)) >= |points| - 1
  {
    var k := FirstArgmin(ClickDistances(samples, position));
    if k + 1 < |points| {
      PointerLeavesZero(points, samples, k);
    }
  }

  /** The insertion index is the pointer at the sample that is nearest the
      click and strictly nearer than every earlier sample; ties keep the
      earlier sample. */
  lemma InsertionIndexIsFirstNearest(points: seq<Vec3>, samples: seq<Vec3>, position: Vec3, k: nat)
    requires |points| > 0 && k < |samples|
    requires forall j :: 0 <= j < |samples| ==> DistSq(samples[k], position) <= DistSq(samples[j], position)
    requires forall j :: 0 <= j < k ==> DistSq(samples[k], position) < DistSq(samples[j], position)
    ensures InsertionIndex(points, samples, position) == Pointers(points, samples)[k]
  {
    var ds := ClickDistances(samples, position);
    var m := FirstArgmin(ds);
    assert ds[m] <= ds[k] && ds[k] <= ds[m];
  }
}

=== FILE: playback.dfy ===
/** Playback of a sound object along its trajectory: a parametric clock in
    [0, 1] that bounces at the ends of an open spline and wraps around a
    closed one. */
module Playback {
  import opened Base

  /** Playback state of one sound object: `trajectoryClock`,
      `movementSpeed`, `movementDirection` and `movementIncrement`. */
  datatype Motion = Motion(clock: real, speed: real, direction: real, increment: Option<real>)

  /** The constructor's defaults (config.js `soundObject` block, and the
      literals of the legacy constructor): clock 1, speed 5, direction 1,
      increment null. */
  const InitialMotion: Motion := Motion(1.0, 5.0, 1.0, None)

  /** The increment as the arithmetic sees it: `direction * null` is 0. */
  function StepSize(m: Motion): real
  {
    match m.increment
    case None => 0.0
    case Some(v) => v
  }

  /** The clock after `trajectoryClock -= movementDirection * movementIncrement`,
      before the boundary checks. */
  function Advanced(m: Motion): real
  {
    m.clock - m.direction * StepSize(m)
  }

  /** The state every tick maintains: clock in [0, 1], direction 1 or -1. */
  predicate InRange(m: Motion)
  {
    0.0 <= m.clock <= 1.0 && (m.direction == 1.0 || m.direction == -1.0)
  }

  /** One tick of followTrajectory on a spline that is `closed` or open.
      The source runs two boundary checks in sequence; at most one of them
      fires, so the outcome splits on where the advanced clock lies. */
  function Follow(m: Motion, closed: bool): (r: Motion)
    ensures 0.0 <= r.clock <= 1.0
    ensures r.speed == m.speed && r.increment == m.increment
    ensures 0.0 <= Advanced(m) < 1.0 ==> r.clock == Advanced(m) && r.direction == m.direction
    ensures Advanced(m) >= 1.0 && closed ==> r.clock == 0.0 && r.direction == m.direction
    ensures Advanced(m) >= 1.0 && !closed ==> r.clock == 1.0 && r.direction == -m.direction
    ensures Advanced(m) < 0.0 && closed ==> r.clock == 1.0 && r.direction == m.direction
    ensures Advanced(m) < 0.0 && !closed ==> r.clock == 0.0 && r.direction == -m.direction
  {
    var c := Advanced(m);
    var top :=
      if c >= 1.0 then
        (if closed then m.(clock := 0.0) else m.(clock := 1.0, direction := -m.direction))
      else m.(clock := c);
    if top.clock < 0.0 then
      (if closed then top.(clock := 1.0) else top.(clock := 0.0, direction := -top.direction))
    else top
  }

  /** A closed spline never turns the object around; an open one keeps the
      direction in {1, -1}; either way the clock ends in [0, 1]. */
  lemma FollowKeepsRange(m: Motion, closed: bool)
    requires m.direction == 1.0 || m.direction == -1.0
    ensures InRange(Follow(m, closed))
    ensures closed ==> Follow(m, closed).direction == m.direction
  {
  }

  /** `n` consecutive ticks. */
  function FollowN(m: Motion, closed: bool, n: nat): Motion
    decreases n
  {
    if n == 0 then m else FollowN(Follow(m, closed), closed, n - 1)
  }

  /** Over any number of ticks the clock stays in [0, 1], the direction stays
      1 or -1, and on a closed spline the direction never changes. */
  lemma {:induction false} FollowNKeepsRange(m: Motion, closed: bool, n: nat)
    requires InRange(m)
    ensures InRange(FollowN(m, closed, n))
    ensures closed ==> FollowN(m, closed, n).direction == m.direction
    ensures FollowN(m, closed, n).speed == m.speed && FollowN(m, closed, n).increment == m.increment
    decreases n
  {
    if n > 0 {
      FollowKeepsRange(m, closed);
      FollowNKeepsRange(Follow(m, closed), closed, n - 1);
    }
  }

  /** From the default clock 1 and direction 1 the object moves toward
      parameter 0: the clock drops by the increment. */
  lemma DefaultHeadsTowardZero(v: real, closed: bool)
    requires 0.0 < v <= 1.0
    ensures Follow(InitialMotion.(increment := Some(v)), closed).clock == 1.0 - v
    ensures Follow(InitialMotion.(increment := Some(v)), closed).direction == 1.0
  {
  }

  /** Near clock 1 an object heading toward 1 (direction -1) bounces on an
      open spline and wraps to 0 on a closed one. */
  lemma BounceAndWrapNearOne(speed: real)
    ensures Follow(Motion(0.98, speed, -1.0, Some(0.05)), false) == Motion(1.0, speed, 1.0, Some(0.05))
    ensures Follow(Motion(0.98, speed, -1.0, Some(0.05)), true) == Motion(0.0, speed, -1.0, Some(0.05))
  {
  }

  /** calculateMovementSpeed: the increment is chosen so that one tick covers
      `speed` units of a spline of length `arcLength` (three.js getLength(10)). */
  function CalculateIncrement(m: Motion, arcLength: real): (r: Motion)
    requires arcLength > 0.0
    ensures r.increment.Some? && r.increment.value * arcLength == m.speed
    ensures r.clock == m.clock && r.speed == m.speed && r.direction == m.direction
  {
    m.(increment := Some(m.speed / arcLength))
  }
}

=== FILE: scene.dfy ===
/** The editor's object registry: every sound object, trajectory and zone by
    identity, and the three lists `soundObjects`, `soundTrajectories` and
    `soundZones` that main.js keeps. */
module Scene {
  import opened Base
  import opened Vectors
  import opened SoundObjects
  import opened Trajectories
  import opened Zones

  /** One editable element. */
  datatype Entity =
    | ObjectEntity(o: SoundObject)
    | TrajectoryEntity(t: Trajectory)
    | ZoneEntity(z: Zone)

  /** The elements by identity and the three lists that refer to them. */
  datatype Registry = Registry(
    heap: map<Id, Entity>,
    soundObjects: seq<Id>,
    soundTrajectories: seq<Id>,
    soundZones: seq<Id>)

  /** Each list refers only to elements of its own kind. */
  predicate Typed(r: Registry)
  {
    && (forall k :: 0 <= k < |r.soundObjects| ==>
          r.soundObjects[k] in r.heap && r.heap[r.soundObjects[k]].ObjectEntity?)
    && (forall k :: 0 <= k < |r.soundTrajectories| ==>
          r.soundTrajectories[k] in r.heap && r.heap[r.soundTrajectories[k]].TrajectoryEntity?)
    && (forall k :: 0 <= k < |r.soundZones| ==>
          r.soundZones[k] in r.heap && r.heap[r.soundZones[k]].ZoneEntity?)
  }

  /** The registry with no elements. */
  function Empty(): (r: Registry)
    ensures Typed(r) && r.soundObjects == [] && r.soundTrajectories == [] && r.soundZones == []
  {
    Registry(map[], [], [], [])
  }

  /** `spline.closed` of an object's trajectory; false when the object has
      none (followTrajectory does not read it then). */
  function SplineClosed(heap: map<Id, Entity>, o: SoundObject): bool
  {
    o.trajectory.Some? && o.trajectory.value in heap
      && heap[o.trajectory.value].TrajectoryEntity? && heap[o.trajectory.value].t.closed
  }

  /** Adds a new element under an unused identity to the end of its list. */
  function Register(r: Registry, id: Id, e: Entity): (q: Registry)
    requires id !in r.heap
    ensures q.heap == r.heap[id := e]
    ensures Typed(r) ==> Typed(q)
    ensures e.ObjectEntity? ==>
      q.soundObjects == r.soundObjects + [id] && q.soundTrajectories == r.soundTrajectories && q.soundZones == r.soundZones
    ensures e.TrajectoryEntity? ==>
      q.soundTrajectories == r.soundTrajectories + [id] && q.soundObjects == r.soundObjects && q.soundZones == r.soundZones
    ensures e.ZoneEntity? ==>
      q.soundZones == r.soundZones + [id] && q.soundObjects == r.soundObjects && q.soundTrajectories == r.soundTrajectories
  {
    var h := r.heap[id := e];
    match e
    case ObjectEntity(_) => r.(heap := h, soundObjects := r.soundObjects + [id])
    case TrajectoryEntity(_) => r.(heap := h, soundTrajectories := r.soundTrajectories + [id])
    case ZoneEntity(_) => r.(heap := h, soundZones := r.soundZones + [id])
  }
}

=== FILE: soundobjects.dfy ===
/** A sound object: a position, the cones that carry its sounds, an optional
    trajectory it follows, and its playback state. */
module SoundObjects {
  import opened Base
  import opened Vectors
  import opened Playback

  /** The numeric part of a sound cone: its geometry and its panner and gain
      settings. */
  datatype Cone = Cone(
    width: real,
    height: real,
    innerAngle: real,
    outerAngle: real,
    outerGain: real,
    refDistance: real,
    gain: real)

  /** The numeric fields of a SoundObject. `offsetY` is
      `nonScaledMouseOffsetY`, which only `select` sets (None before that);
      `trajectory` names the attached SoundTrajectory. */
  datatype SoundObject = SoundObject(
    position: Vec3,
    offsetY: Option<real>,
    cones: seq<Cone>,
    trajectory: Option<Id>,
    motion: Motion)

  /** A new object placed at the mouse, with no cones and no trajectory. */
  function New(mouse: Vec3): (o: SoundObject)
    ensures o.position == mouse && o.cones == [] && o.trajectory.None?
    ensures o.motion == InitialMotion && InRange(o.motion)
  {
    SoundObject(mouse, None, [], None, InitialMotion)
  }

  /** createCone with `Math.random()` drawn as `r1` (width) and `r2` (height);
      `coneAngle(w, h)` stands for `Math.atan(w / h) * (180 / Math.PI)`. The
      colour's random draw has no numeric effect and is left out. */
  function CreateCone(o: SoundObject, r1: real, r2: real, coneAngle: (real, real) -> real): (r: SoundObject)
    requires 0.0 <= r1 < 1.0 && 0.0 <= r2 < 1.0
    ensures |r.cones| == |o.cones| + 1 && r.cones[..|o.cones|] == o.cones
    ensures r == o.(cones := r.cones)
    ensures var c := r.cones[|o.cones|];
      && 50.0 <= c.width < 100.0
      && 100.0 <= c.height < 150.0
      && c.outerAngle == 1.5 * c.innerAngle
      && c.innerAngle == coneAngle(c.width, c.height)
      && c.outerGain == 0.05
      && c.refDistance == 50.0
      && 0.2 <= c.gain < 1.0
      && c.gain == 0.2 + 0.8 * r2
  {
    var width := r1 * 50.0 + 50.0;
    var height := r2 * 50.0 + 100.0;
    var inner := coneAngle(width, height);
    var cone := Cone(width, height, inner, inner * 1.5, 0.05, 50.0, MapRange(height, 100.0, 150.0, 0.2, 1.0));
    o.(cones := o.cones + [cone])
  }

  /** Taller cones are louder: the gain grows with the height draw. */
  lemma TallerConesLouder(o: SoundObject, r1: real, r2: real, s2: real, coneAngle: (real, real) -> real)
    requires 0.0 <= r1 < 1.0 && 0.0 <= r2 <= s2 < 1.0
    ensures CreateCone(o, r1, r2, coneAngle).cones[|o.cones|].gain
         <= CreateCone(o, r1, s2, coneAngle).cones[|o.cones|].gain
  {
    MapRangeMonotone(r2 * 50.0 + 100.0, s2 * 50.0 + 100.0, 100.0, 150.0, 0.2, 1.0);
  }

  /** The height shift a vertical drag of `delta` (in normalised screen units)
      produces in perspective view: `mapRange(delta, -0.5, 0.5, -200, 200)`. */
  function DragHeight(delta: real): (h: real)
    ensures h == 400.0 * delta
  {
    MapRange(delta, -0.5, 0.5, -200.0, 200.0)
  }

  /** `y > -200 || y < 200` holds for every y. */
  lemma AltitudeGuardAlwaysHolds(y: real)
    ensures y > -200.0 || y < 200.0
  {
  }

  /** move. In perspective view only the height changes, by the drag since the
      last recorded offset, and the offset is updated; the source's guard
      on the old height is always true, so the height is never clamped. In
      aerial view the object goes to the mouse's x and z and keeps its
      height. Only the object itself changes here: Editor.DragObject hands
      the new position on to the object's trajectory, as the source's move
      does at its end. */
  function Move(o: SoundObject, perspective: bool, mouse: Vec3, nonScaledY: real): (r: SoundObject)
    requires perspective ==> o.offsetY.Some?
    ensures r.cones == o.cones && r.trajectory == o.trajectory && r.motion == o.motion
    ensures perspective ==>
      && r.position.x == o.position.x && r.position.z == o.position.z
      && r.position.y - o.position.y == 400.0 * (nonScaledY - o.offsetY.value)
      && r.offsetY == Some(nonScaledY)
    ensures !perspective ==>
      && r.position == Vec3(mouse.x, o.position.y, mouse.z)
      && r.offsetY == o.offsetY
  {
    if perspective then
      var posY := DragHeight(nonScaledY - o.offsetY.value);
      var p := o.position;
      var y := if p.y > -200.0 || p.y < 200.0 then p.y + posY else p.y;
      o.(position := Vec3(p.x, y, p.z), offsetY := Some(nonScaledY))
    else
      o.(position := Vec3(mouse.x, o.position.y, mouse.z))
  }

  /** select: records the unscaled mouse height as the drag offset. */
  function Select(o: SoundObject, nonScaledY: real): (r: SoundObject)
    ensures r.offsetY == Some(nonScaledY)
    ensures r.position == o.position && r.cones == o.cones && r.trajectory == o.trajectory && r.motion == o.motion
  {
    o.(offsetY := Some(nonScaledY))
  }

  /** A perspective drag right after select lifts the object by the drag
      measured from the click. */
  lemma SelectThenDrag(o: SoundObject, mouse: Vec3, y1: real, y2: real)
    ensures Move(Select(o, y1), true, mouse, y2).position.y == o.position.y + 400.0 * (y2 - y1)
  {
  }

  /** Two consecutive perspective drags move the object by the total drag
      since the first recorded offset: the intermediate offset cancels. */
  lemma {:induction false} PerspectiveDragsCompose(o: SoundObject, mouse: Vec3, y1: real, y2: real)
    requires o.offsetY.Some?
    ensures Move(Move(o, true, mouse, y1), true, mouse, y2).position.y
         == o.position.y + 400.0 * (y2 - o.offsetY.value)
  {
    var o1 := Move(o, true, mouse, y1);
    assert o1.position.y == o.position.y + 400.0 * (y1 - o.offsetY.value);
    assert o1.offsetY == Some(y1);
  }

  /** Dragging from an altitude of 150 by a quarter of the screen lifts the
      object to 250, past the +200 the guard appears to protect. */
  lemma AltitudeIsNotClamped()
    ensures Move(SoundObject(Vec3(0.0, 150.0, 0.0), Some(0.0), [], None, InitialMotion), true, Vec3(0.0, 0.0, 0.0), 0.25).position.y == 250.0
  {
  }

  /** A sequence of aerial moves. */
  function MoveAllAerial(o: SoundObject, mice: seq<Vec3>): SoundObject
    decreases |mice|
  {
    if |mice| == 0 then o else MoveAllAerial(Move(o, false, mice[0], 0.0), mice[1..])
  }

  /** An aerial move never changes the height. */
  lemma {:induction false} AerialMovesKeepHeight(o: SoundObject, mice: seq<Vec3>)
    ensures MoveAllAerial(o, mice).position.y == o.position.y
    decreases |mice|
  {
    if |mice| > 0 {
      AerialMovesKeepHeight(Move(o, false, mice[0], 0.0), mice[1..]);
    }
  }

  /** followTrajectory. With no trajectory nothing changes; otherwise one
      playback tick, after which the object sits on the spline at the new
      clock; `pointAt` stands for the spline's `getPointAt`. */
  function FollowTrajectory(o: SoundObject, closed: bool, pointAt: real -> Vec3): (r: SoundObject)
    ensures o.trajectory.None? ==> r == o
    ensures o.trajectory.Some? ==>
      && r.motion == Follow(o.motion, closed)
      && 0.0 <= r.motion.clock <= 1.0
      && r.position == pointAt(r.motion.clock)
      && r.cones == o.cones && r.trajectory == o.trajectory && r.offsetY == o.offsetY
  {
    if o.trajectory.None? then o
    else
      var m := Follow(o.motion, closed);
      o.(motion := m, position := pointAt(m.clock))
  }

  /** Following a trajectory keeps the playback state in range. */
  lemma FollowTrajectoryKeepsRange(o: SoundObject, closed: bool, pointAt: real -> Vec3)
    requires InRange(o.motion)
    ensures InRange(FollowTrajectory(o, closed, pointAt).motion)
    ensures closed ==> FollowTrajectory(o, closed, pointAt).motion.direction == o.motion.direction
  {
    FollowKeepsRange(o.motion, closed);
  }

  /** calculateMovementSpeed: with a trajectory the increment becomes speed
      over arc length (`arcLength` is the spline's getLength(10)); without one
      nothing changes. */
  function CalculateMovementSpeed(o: SoundObject, arcLength: real): (r: SoundObject)
    requires o.trajectory.Some? ==> arcLength > 0.0
    ensures o.trajectory.None? ==> r == o
    ensures o.trajectory.Some? ==>
      && r.motion.increment.Some?
      && r.motion.increment.value * arcLength == o.motion.speed
      && r == o.(motion := r.motion)
      && r.motion.clock == o.motion.clock && r.motion.direction == o.motion.direction
  {
    if o.trajectory.None? then o
    else o.(motion := CalculateIncrement(o.motion, arcLength))
  }
}

=== FILE: trajectories.dfy ===
/** A sound trajectory: an editable Catmull-Rom path of control points that
    a sound object follows, closed into a loop when its ends meet. */
module Trajectories {
  import opened Base
  import opened Vectors
  import opened JsArrays
  import opened Paths

  /** The numeric fields of a SoundTrajectory. `selected` is the index of the
      selected control point (the source keeps the point's scene object and
      looks its index up with `indexOf`); `offsetX`, `offsetZ` and `offsetY`
      are `mouseOffsetX`, `mouseOffsetY` and `nonScaledMouseOffsetY`;
      `parent` is `parentSoundObject`. */
  datatype Trajectory = Trajectory(
    points: seq<Vec3>,
    closed: bool,
    selected: Option<nat>,
    parent: Option<Id>,
    offsetX: real,
    offsetZ: real,
    offsetY: real,
    isActive: bool)

  /** What every rebuilt trajectory satisfies: at least one point, the
      closed flag agrees with the end points, the selection is a point. */
  predicate Valid(t: Trajectory)
  {
    && |t.points| > 0
    && t.closed == EndsMeet(t.points)
    && (t.selected.Some? ==> t.selected.value < |t.points|)
  }

  /** renderPath: rebuilds the spline and sets `closed` from the end points.
      With no points, `splinePoints[0].distanceTo` throws. */
  function RenderPath(t: Trajectory): (r: Result<Trajectory>)
    ensures r.TypeError? <==> |t.points| == 0
    ensures r.Ok? ==> r.value.points == t.points && r.value.selected == t.selected
    ensures r.Ok? ==> r.value.closed == EndsMeet(t.points)
    ensures r.Ok? ==> r.value == t.(closed := r.value.closed)
  {
    if |t.points| == 0 then TypeError
    else Ok(t.(closed := EndsMeet(t.points)))
  }

  /** The closed flag is recomputed on every rebuild: what it was before
      makes no difference, and rebuilding twice is rebuilding once. */
  lemma RenderPathRecomputes(t: Trajectory, stale: bool)
    requires |t.points| > 0
    ensures RenderPath(t.(closed := stale)) == RenderPath(t)
    ensures RenderPath(RenderPath(t).value) == RenderPath(t)
    ensures RenderPath(t).value.selected.None? ==> Valid(RenderPath(t).value)
  {
  }

  /** The constructor: active, nothing selected, zero offsets, then renderPath. */
  function New(points: seq<Vec3>): (r: Result<Trajectory>)
    ensures r.TypeError? <==> |points| == 0
    ensures r.Ok? ==> Valid(r.value) && r.value.points == points
    ensures r.Ok? ==> r.value.isActive && r.value.selected.None? && r.value.parent.None?
  {
    RenderPath(Trajectory(points, false, None, None, 0.0, 0.0, 0.0, true))
  }

  /** setMouseOffset: remembers where a whole-path drag starts. */
  function SetMouseOffset(t: Trajectory, nonScaledY: real, point: Vec3): (r: Trajectory)
    ensures r.points == t.points && r.closed == t.closed && r.selected == t.selected
    ensures r.offsetX == point.x && r.offsetZ == point.z && r.offsetY == nonScaledY
  {
    t.(offsetX := point.x, offsetZ := point.z, offsetY := nonScaledY)
  }

  /** setActive. */
  function SetActive(t: Trajectory): (r: Trajectory)
    ensures r.isActive && r.points == t.points && r.closed == t.closed && r.selected == t.selected
  {
    t.(isActive := true)
  }

  /** setInactive: deselects the point and deactivates. */
  function SetInactive(t: Trajectory): (r: Trajectory)
    ensures !r.isActive && r.selected.None? && r.points == t.points && r.closed == t.closed
  {
    t.(isActive := false, selected := None)
  }

  /** Deactivating and reactivating loses only the selection. */
  lemma ReactivateLosesOnlySelection(t: Trajectory)
    requires t.isActive
    ensures SetActive(SetInactive(t)) == t.(selected := None)
    ensures Valid(t) ==> Valid(SetActive(SetInactive(t)))
  {
  }

  /** addPoint / addNewPoint: insert the clicked position where the scan
      says, rebuild, and select the new point. `samples` are the spline's
      `getPoint(t)` values for t = 0, 1/200, ... */
  function AddPoint(t: Trajectory, samples: seq<Vec3>, position: Vec3): (r: Trajectory)
    requires Valid(t)
    ensures Valid(r)
    ensures var i := InsertionIndex(t.points, samples, position);
      && |r.points| == |t.points| + 1
      && r.points[i] == position
      && SpliceRemove(r.points, i) == t.points
      && r.selected == Some(i)
    ensures r.isActive == t.isActive && r.parent == t.parent
  {
    var i := InsertionIndex(t.points, samples, position);
    var points := SpliceInsert(t.points, i, position);
    RemoveUndoesInsert(t.points, i, position);
    t.(points := points, closed := EndsMeet(points), selected := Some(i))
  }

  /** Before the new point the old points are unchanged, after it they are
      shifted by one: the old order is kept. */
  lemma AddPointKeepsOrder(t: Trajectory, samples: seq<Vec3>, position: Vec3, j: nat)
    requires Valid(t) && j < |t.points|
    ensures var i := InsertionIndex(t.points, samples, position);
      var r := AddPoint(t, samples, position);
      (j < i ==> r.points[j] == t.points[j]) && (j >= i ==> r.points[j + 1] == t.points[j])
  {
  }

  /** The index removePoint splices at: the selected point, or -1 (the last
      point) when `indexOf` does not find a selection. */
  function RemovalIndex(t: Trajectory): int
  {
    if t.selected.Some? then t.selected.value else -1
  }

  /** removePoint: splice the selected point out, deselect, rebuild. The
      rebuild throws when no point is left. */
  function RemovePoint(t: Trajectory): (r: Outcome<Trajectory>)
    ensures r.state.selected.None?
    ensures r.Threw? <==> |r.state.points| == 0
    ensures r.Done? ==> Valid(r.state)
    ensures Valid(t) && t.selected.Some? ==>
      var i := t.selected.value;
      && |r.state.points| == |t.points| - 1
      && SpliceInsert(r.state.points, i, t.points[i]) == t.points
    ensures t.selected.None? && |t.points| > 0 ==> r.state.points == t.points[..|t.points| - 1]
    ensures r.state.isActive == t.isActive && r.state.parent == t.parent
    ensures |r.state.points| >= |t.points| - 1
  {
    var points := SpliceRemove(t.points, RemovalIndex(t));
    var r := if |points| == 0 then Threw(t.(points := points, selected := None))
             else Done(t.(points := points, closed := EndsMeet(points), selected := None));
    if Valid(t) && t.selected.Some? then
      InsertUndoesRemove(t.points, t.selected.value);
      r
    else r
  }

  /** With at least two points and a selection, removing it succeeds, and
      every other point keeps its place in the order. */
  lemma RemovePointKeepsOthers(t: Trajectory, j: nat)
    requires Valid(t) && t.selected.Some? && |t.points| >= 2 && j < |t.points| - 1
    ensures RemovePoint(t).Done?
    ensures var i := t.selected.value;
      RemovePoint(t).state.points[j] == (if j < i then t.points[j] else t.points[j + 1])
  {
  }

  /** A single selected point moved the way the legacy source does it: in
      perspective view its height becomes the mapped mouse height and x, z
      stay; in aerial view it takes the mouse's x and z and keeps its height.
      The path is rebuilt and the point stays selected. */
  function MoveSelectedPoint(t: Trajectory, perspective: bool, mouse: Vec3, nonScaledY: real): (r: Trajectory)
    requires Valid(t) && t.selected.Some?
    ensures Valid(r) && r.selected == t.selected && |r.points| == |t.points|
    ensures var i := t.selected.value;
      && (forall j :: 0 <= j < |t.points| && j != i ==> r.points[j] == t.points[j])
      && (perspective ==> r.points[i] == Vec3(t.points[i].x, MapRange(nonScaledY, -0.5, 0.5, -200.0, 200.0), t.points[i].z))
      && (!perspective ==> r.points[i] == Vec3(mouse.x, t.points[i].y, mouse.z))
  {
    var i := t.selected.value;
    var p := t.points[i];
    var q := if perspective then Vec3(p.x, MapRange(nonScaledY, -0.5, 0.5, -200.0, 200.0), p.z)
             else Vec3(mouse.x, p.y, mouse.z);
    var points := t.points[i := q];
    t.(points := points, closed := EndsMeet(points))
  }

  /** The whole path dragged: in perspective view every point rises by the
      drag since the recorded offset, which is then updated; in aerial view
      every point moves by the mouse's x, z change since the recorded
      offset, and the offset becomes the mouse. */
  function MoveWholePath(t: Trajectory, perspective: bool, mouse: Vec3, nonScaledY: real): (r: Trajectory)
    requires Valid(t)
    ensures Valid(r) && r.selected == t.selected
    ensures |r.points| == |t.points| && r.closed == t.closed
    ensures perspective ==>
      && r.points == TranslateAll(t.points, 0.0, MapRange(nonScaledY - t.offsetY, -0.5, 0.5, -200.0, 200.0), 0.0)
      && r.offsetY == nonScaledY && r.offsetX == t.offsetX && r.offsetZ == t.offsetZ
    ensures !perspective ==>
      && r.points == TranslateAll(t.points, mouse.x - t.offsetX, 0.0, mouse.z - t.offsetZ)
      && r.offsetX == mouse.x && r.offsetZ == mouse.z && r.offsetY == t.offsetY
  {
    if perspective then
      var posY := MapRange(nonScaledY - t.offsetY, -0.5, 0.5, -200.0, 200.0);
      var points := TranslateAll(t.points, 0.0, posY, 0.0);
      TranslationKeepsClosure(t.points, 0.0, posY, 0.0);
      t.(points := points, closed := EndsMeet(points), offsetY := nonScaledY)
    else
      var dx := mouse.x - t.offsetX;
      var dz := mouse.z - t.offsetZ;
      var points := TranslateAll(t.points, dx, 0.0, dz);
      TranslationKeepsClosure(t.points, dx, 0.0, dz);
      t.(points := points, closed := EndsMeet(points), offsetX := mouse.x, offsetZ := mouse.z)
  }

  /** Dragging the whole path in aerial view to the mouse and back to the
      recorded offset restores the path. */
  lemma AerialDragReturns(t: Trajectory, mouse: Vec3, back: Vec3)
    requires Valid(t) && back.x == t.offsetX && back.z == t.offsetZ
    ensures MoveWholePath(MoveWholePath(t, false, mouse, 0.0), false, back, 0.0).points == t.points
  {
    TranslationUndone(t.points, mouse.x - t.offsetX, 0.0, mouse.z - t.offsetZ);
  }

  /** move, in both revisions. In the ES-module copy the perspective branch
      of a single-point move declares an inner `pointer`, sets the point's
      height through it, and then writes to the outer `pointer`, which is
      undefined: the point's height has changed, the path is not rebuilt, and
      a TypeError is raised. */
  function Move(rev: Revision, t: Trajectory, perspective: bool, mouse: Vec3, nonScaledY: real): (r: Outcome<Trajectory>)
    requires Valid(t)
    ensures r.Threw? <==> rev == Modules && perspective && t.selected.Some?
    ensures r.Done? && t.selected.Some? ==> r.state == MoveSelectedPoint(t, perspective, mouse, nonScaledY)
    ensures t.selected.None? ==> r.state == MoveWholePath(t, perspective, mouse, nonScaledY)
    ensures r.Done? ==> Valid(r.state)
    ensures r.Threw? ==> r.state.closed == t.closed
    ensures r.Threw? ==> r.state.points == MoveSelectedPoint(t, perspective, mouse, nonScaledY).points
  {
    if t.selected.Some? then
      if rev == Modules && perspective then
        var i := t.selected.value;
        var p := t.points[i];
        Threw(t.(points := t.points[i := Vec3(p.x, MapRange(nonScaledY, -0.5, 0.5, -200.0, 200.0), p.z)]))
      else Done(MoveSelectedPoint(t, perspective, mouse, nonScaledY))
    else Done(MoveWholePath(t, perspective, mouse, nonScaledY))
  }

  /** A perspective drag of the last point of an open three-point path
      down onto the first point: the ES-module copy throws and leaves the
      path marked open though its ends now meet, while the legacy copy
      closes it. */
  lemma PerspectivePointDragThrows()
    ensures var t := Trajectory([Vec3(0.0, 0.0, 0.0), Vec3(100.0, 0.0, 0.0), Vec3(0.0, 50.0, 0.0)],
                                false, Some(2), None, 0.0, 0.0, 0.0, true);
      && Valid(t)
      && Move(Modules, t, true, Vec3(0.0, 0.0, 0.0), 0.0).Threw?
      && !Valid(Move(Modules, t, true, Vec3(0.0, 0.0, 0.0), 0.0).state)
      && Move(Globals, t, true, Vec3(0.0, 0.0, 0.0), 0.0).Done?
      && Move(Globals, t, true, Vec3(0.0, 0.0, 0.0), 0.0).state.closed
  {
    var t := Trajectory([Vec3(0.0, 0.0, 0.0), Vec3(100.0, 0.0, 0.0), Vec3(0.0, 50.0, 0.0)],
                        false, Some(2), None, 0.0, 0.0, 0.0, true);
    assert DistSq(t.points[0], t.points[2]) == 2500.0;
    var r := Move(Modules, t, true, Vec3(0.0, 0.0, 0.0), 0.0).state;
    assert r.points[2] == Vec3(0.0, 0.0, 0.0);
    assert DistSq(r.points[0], r.points[2]) == 0.0;
  }
}

=== FILE: vectors.dfy ===
/** Points of the scene and the scalar helpers the editor applies to them. */
module Vectors {

  /** A three.js `Vector3`. The floor is the x-z plane; y is altitude. */
  datatype Vec3 = Vec3(x: real, y: real, z: real)

  /** `a.distanceToSquared(b)`. */
  function DistSq(a: Vec3, b: Vec3): (d: real)
    ensures d >= 0.0
  {
    (a.x - b.x) * (a.x - b.x) + (a.y - b.y) * (a.y - b.y) + (a.z - b.z) * (a.z - b.z)
  }

  /** The point moved by (dx, dy, dz). */
  function Shift(p: Vec3, dx: real, dy: real, dz: real): Vec3
  {
    Vec3(p.x + dx, p.y + dy, p.z + dz)
  }

  /** Moving both points by the same amount keeps their distance. */
  lemma ShiftKeepsDistSq(a: Vec3, b: Vec3, dx: real, dy: real, dz: real)
    ensures DistSq(Shift(a, dx, dy, dz), Shift(b, dx, dy, dz)) == DistSq(a, b)
  {
    assert Shift(a, dx, dy, dz).x - Shift(b, dx, dy, dz).x == a.x - b.x;
    assert Shift(a, dx, dy, dz).y - Shift(b, dx, dy, dz).y == a.y - b.y;
    assert Shift(a, dx, dy, dz).z - Shift(b, dx, dy, dz).z == a.z - b.z;
  }

  /** `mapRange(value, low1, high1, low2, high2)`: the linear map that sends
      `low1` to `low2` and `high1` to `high2`. Every call site passes
      distinct constants for `low1` and `high1`. */
  function MapRange(value: real, low1: real, high1: real, low2: real, high2: real): (r: real)
    requires low1 != high1
    ensures (r - low2) * (high1 - low1) == (high2 - low2) * (value - low1)
  {
    low2 + (high2 - low2) * (value - low1) / (high1 - low1)
  }

  /** The map sends the ends of the source range to the ends of the target range. */
  lemma MapRangeEnds(low1: real, high1: real, low2: real, high2: real)
    requires low1 != high1
    ensures MapRange(low1, low1, high1, low2, high2) == low2
    ensures MapRange(high1, low1, high1, low2, high2) == high2
  {
    assert (high2 - low2) * (high1 - low1) / (high1 - low1) == high2 - low2;
  }

  /** The map is affine in its value: it commutes with weighted averages. */
  lemma MapRangeAffine(v: real, w: real, t: real, low1: real, high1: real, low2: real, high2: real)
    requires low1 != high1
    ensures MapRange(t * v + (1.0 - t) * w, low1, high1, low2, high2)
         == t * MapRange(v, low1, high1, low2, high2) + (1.0 - t) * MapRange(w, low1, high1, low2, high2)
  {
    var k := (high2 - low2) / (high1 - low1);
    assert forall u: real {:trigger MapRange(u, low1, high1, low2, high2)} ::
      MapRange(u, low1, high1, low2, high2) == low2 + k * (u - low1);
    assert t * v + (1.0 - t) * w - low1 == t * (v - low1) + (1.0 - t) * (w - low1);
  }

  /** On increasing ranges the map is monotone. */
  lemma MapRangeMonotone(v: real, w: real, low1: real, high1: real, low2: real, high2: real)
    requires low1 < high1 && low2 <= high2 && v <= w
    ensures MapRange(v, low1, high1, low2, high2) <= MapRange(w, low1, high1, low2, high2)
  {
    var k := (high2 - low2) / (high1 - low1);
    assert k >= 0.0;
    assert MapRange(v, low1, high1, low2, high2) == low2 + k * (v - low1);
    assert MapRange(w, low1, high1, low2, high2) == low2 + k * (w - low1);
    assert k * (v - low1) <= k * (w - low1);
  }
}

=== FILE: zones.dfy ===
/** A sound zone: a closed region of control points whose sound starts when
    the listener enters it and stops when the listener leaves. */
module Zones {
  import opened Base
  import opened Vectors
  import opened JsArrays
  import opened Paths

  /** The audio calls a zone makes, kept as abstract events. */
  datatype AudioEvent = StartSource | StopSource | RampGain(target: real)

  /** The zone's `sound` record: the file name (kept only by the legacy
      copy), the gain node's value, and whether a buffer source exists. */
  datatype ZoneSound = ZoneSound(name: Option<string>, gain: real, hasSource: bool)

  /** The numeric and flag fields of a SoundZone; `offsetX` and `offsetZ` are
      `mouseOffsetX` and `mouseOffsetY`. */
  datatype Zone = Zone(
    points: seq<Vec3>,
    closed: bool,
    selected: Option<nat>,
    isPlaying: bool,
    sound: Option<ZoneSound>,
    offsetX: real,
    offsetZ: real,
    isActive: bool)

  /** A zone after a call, with the audio events the call issued. */
  datatype ZoneStep = ZoneStep(zone: Zone, events: seq<AudioEvent>)

  /** What every zone keeps: points to scan, always closed, the selection is
      a point. */
  predicate Valid(z: Zone)
  {
    && |z.points| > 0
    && z.closed
    && (z.selected.Some? ==> z.selected.value < |z.points|)
  }

  /** The constructor: active, silent, nothing selected; renderPath closes
      the spline. */
  function New(points: seq<Vec3>): (z: Zone)
    ensures z.points == points && z.closed && z.isActive
    ensures !z.isPlaying && z.sound.None? && z.selected.None?
    ensures |points| > 0 ==> Valid(z)
  {
    Zone(points, true, None, false, None, 0.0, 0.0, true)
  }

  /** renderPath: a zone's spline is closed whatever its end points are. */
  function RenderPath(z: Zone): (r: Zone)
    ensures r.closed && r.points == z.points && r.selected == z.selected
    ensures |z.points| > 0 && (z.selected.Some? ==> z.selected.value < |z.points|) ==> Valid(r)
  {
    z.(closed := true)
  }

  /** Unlike a trajectory, a zone is closed even when its ends are far apart. */
  lemma ZoneClosedWithOpenEnds()
    ensures var points := [Vec3(0.0, 0.0, 0.0), Vec3(100.0, 0.0, 0.0), Vec3(200.0, 0.0, 0.0)];
      !EndsMeet(points) && RenderPath(New(points)).closed
  {
    assert DistSq(Vec3(0.0, 0.0, 0.0), Vec3(200.0, 0.0, 0.0)) == 40000.0;
  }

  /** underUser: with a sound and not yet playing, create and start a source,
      ramp the gain to 0.3, and mark the zone playing; otherwise nothing. */
  function UnderUser(z: Zone): (r: ZoneStep)
    ensures z.sound.Some? && !z.isPlaying ==>
      && r.zone == z.(isPlaying := true, sound := Some(z.sound.value.(hasSource := true)))
      && r.events == [StartSource, RampGain(0.3)]
    ensures !(z.sound.Some? && !z.isPlaying) ==> r == ZoneStep(z, [])
  {
    if z.sound.Some? && !z.isPlaying then
      ZoneStep(z.(isPlaying := true, sound := Some(z.sound.value.(hasSource := true))), [StartSource, RampGain(0.3)])
    else ZoneStep(z, [])
  }

  /** Calling underUser twice is calling it once; the second call is silent. */
  lemma UnderUserIdempotent(z: Zone)
    ensures UnderUser(UnderUser(z).zone).zone == UnderUser(z).zone
    ensures UnderUser(UnderUser(z).zone).events == []
  {
  }

  /** notUnderUser as the legacy copy writes it: with a sound and playing,
      ramp the gain to 0, stop the source if there is one, and mark the zone
      silent; otherwise nothing. */
  function NotUnderUserGuarded(z: Zone): (r: ZoneStep)
    ensures z.sound.Some? && z.isPlaying ==>
      && r.zone == z.(isPlaying := false)
      && r.events == (if z.sound.value.hasSource then [RampGain(0.0), StopSource] else [RampGain(0.0)])
    ensures !(z.sound.Some? && z.isPlaying) ==> r == ZoneStep(z, [])
  {
    if z.sound.Some? && z.isPlaying then
      ZoneStep(z.(isPlaying := false), [RampGain(0.0)] + (if z.sound.value.hasSource then [StopSource] else []))
    else ZoneStep(z, [])
  }

  /** notUnderUser in either copy. The ES-module copy calls
      `sound.source.stop` unconditionally, so a playing zone whose sound has
      no source raises a TypeError after the gain ramp is scheduled. */
  function NotUnderUser(rev: Revision, z: Zone): (r: Outcome<ZoneStep>)
    ensures r.Threw? <==> rev == Modules && z.sound.Some? && z.isPlaying && !z.sound.value.hasSource
    ensures r.Done? ==> r.state == NotUnderUserGuarded(z)
    ensures r.Threw? ==> r.state == ZoneStep(z, [RampGain(0.0)])
  {
    if rev == Modules && z.sound.Some? && z.isPlaying && !z.sound.value.hasSource then
      Threw(ZoneStep(z, [RampGain(0.0)]))
    else Done(NotUnderUserGuarded(z))
  }

  /** Entering and leaving a zone that has a sound returns it to silence, in
      both copies, and the leave stops the source the enter started. */
  lemma EnterThenLeave(rev: Revision, z: Zone)
    requires z.sound.Some? && !z.isPlaying
    ensures NotUnderUser(rev, UnderUser(z).zone).Done?
    ensures NotUnderUser(rev, UnderUser(z).zone).state.zone.isPlaying == false
    ensures NotUnderUser(rev, UnderUser(z).zone).state.events == [RampGain(0.0), StopSource]
  {
  }

  /** The playing flag changes only when the zone has a sound. */
  lemma SilentWithoutSound(rev: Revision, z: Zone)
    requires z.sound.None?
    ensures UnderUser(z).zone == z
    ensures NotUnderUser(rev, z) == Done(ZoneStep(z, []))
  {
  }

  /** loadSound: a new sound record with gain 0 and no source replaces the
      old one; `isPlaying` is untouched. The legacy copy records the name and
      stops the old source first. Decoding the buffer happens later and is
      left out. */
  function LoadSound(rev: Revision, z: Zone, name: string): (r: ZoneStep)
    ensures r.zone.sound.Some? && r.zone.sound.value.gain == 0.0 && !r.zone.sound.value.hasSource
    ensures r.zone == z.(sound := r.zone.sound)
    ensures rev == Globals ==> r.zone.sound.value.name == Some(name)
    ensures rev == Modules ==> r.zone.sound.value.name.None? && r.events == []
    ensures rev == Globals ==>
      r.events == (if z.sound.Some? && z.sound.value.hasSource then [StopSource] else [])
  {
    if rev == Modules then ZoneStep(z.(sound := Some(ZoneSound(None, 0.0, false))), [])
    else
      var stop := if z.sound.Some? && z.sound.value.hasSource then [StopSource] else [];
      ZoneStep(z.(sound := Some(ZoneSound(Some(name), 0.0, false))), stop)
  }

  /** A zone that starts playing, is given a new sound while it plays, and
      is then left: the ES-module copy throws, the legacy copy goes silent. */
  lemma LeaveAfterReloadThrows(z: Zone, name: string)
    requires z.sound.Some? && !z.isPlaying
    ensures var reloaded := LoadSound(Modules, UnderUser(z).zone, name).zone;
      && reloaded.isPlaying
      && NotUnderUser(Modules, reloaded).Threw?
    ensures var reloaded := LoadSound(Globals, UnderUser(z).zone, name).zone;
      && NotUnderUser(Globals, reloaded).Done?
      && !NotUnderUser(Globals, reloaded).state.zone.isPlaying
  {
  }

  /** setMouseOffset. */
  function SetMouseOffset(z: Zone, point: Vec3): (r: Zone)
    ensures r.offsetX == point.x && r.offsetZ == point.z
    ensures r.points == z.points && r.selected == z.selected && r.isPlaying == z.isPlaying
  {
    z.(offsetX := point.x, offsetZ := point.z)
  }

  /** setActive: records the mouse as the drag offset and activates. */
  function SetActive(z: Zone, mouse: Vec3): (r: Zone)
    ensures r.isActive && r.offsetX == mouse.x && r.offsetZ == mouse.z
    ensures r.points == z.points && r.selected == z.selected && r.isPlaying == z.isPlaying
  {
    SetMouseOffset(z, mouse).(isActive := true)
  }

  /** setInactive: deselects the point and deactivates. */
  function SetInactive(z: Zone): (r: Zone)
    ensures !r.isActive && r.selected.None?
    ensures r.points == z.points && r.isPlaying == z.isPlaying && r.sound == z.sound
  {
    z.(isActive := false, selected := None)
  }

  /** addPoint: the same scan and insert as a trajectory's, then rebuild and
      select the new point. */
  function AddPoint(z: Zone, samples: seq<Vec3>, position: Vec3): (r: Zone)
    requires Valid(z)
    ensures Valid(r)
    ensures var i := InsertionIndex(z.points, samples, position);
      && |r.points| == |z.points| + 1
      && r.points[i] == position
      && SpliceRemove(r.points, i) == z.points
      && r.selected == Some(i)
    ensures r.isPlaying == z.isPlaying && r.sound == z.sound
  {
    var i := InsertionIndex(z.points, samples, position);
    var points := SpliceInsert(z.points, i, position);
    RemoveUndoesInsert(z.points, i, position);
    z.(points := points, closed := true, selected := Some(i))
  }

  /** removePoint: splice out the selected point (the last one when nothing
      is selected), deselect, rebuild. */
  function RemovePoint(z: Zone): (r: Zone)
    ensures r.selected.None? && r.closed
    ensures Valid(z) && z.selected.Some? ==>
      var i := z.selected.value;
      && |r.points| == |z.points| - 1
      && SpliceInsert(r.points, i, z.points[i]) == z.points
      && (forall j :: 0 <= j < |r.points| ==> r.points[j] == (if j < i then z.points[j] else z.points[j + 1]))
    ensures z.selected.None? && |z.points| > 0 ==> r.points == z.points[..|z.points| - 1]
    ensures r.isPlaying == z.isPlaying && r.sound == z.sound
    ensures |r.points| >= |z.points| - 1
  {
    var i := if z.selected.Some? then z.selected.value else -1;
    var points := SpliceRemove(z.points, i);
    assert |points| >= |z.points| - 1;
    var r := z.(points := points, closed := true, selected := None);
    if Valid(z) && z.selected.Some? then
      InsertUndoesRemove(z.points, z.selected.value);
      r
    else r
  }

  /** move. Nothing happens in perspective view. In aerial view a selected
      point is replaced by the whole mouse vector, height included, and the
      zone is rebuilt; with no selection every point moves by the mouse's
      x, z change since the recorded offset, which becomes the mouse. */
  function Move(z: Zone, perspective: bool, mouse: Vec3): (r: Zone)
    requires Valid(z)
    ensures Valid(r) && |r.points| == |z.points| && r.selected == z.selected
    ensures perspective ==> r == z
    ensures !perspective && z.selected.Some? ==>
      r.points == z.points[z.selected.value := mouse] && r.offsetX == z.offsetX && r.offsetZ == z.offsetZ
    ensures !perspective && z.selected.None? ==>
      && r.points == TranslateAll(z.points, mouse.x - z.offsetX, 0.0, mouse.z - z.offsetZ)
      && r.offsetX == mouse.x && r.offsetZ == mouse.z
    ensures r.isPlaying == z.isPlaying && r.sound == z.sound
  {
    if perspective then z
    else if z.selected.Some? then
      z.(points := z.points[z.selected.value := mouse], closed := true)
    else
      z.(points := TranslateAll(z.points, mouse.x - z.offsetX, 0.0, mouse.z - z.offsetZ),
         offsetX := mouse.x, offsetZ := mouse.z)
  }

  /** Two whole-zone drags compose into one drag to the final mouse. */
  lemma {:induction false} DragsCompose(z: Zone, m1: Vec3, m2: Vec3)
    requires Valid(z) && z.selected.None?
    ensures Move(Move(z, false, m1), false, m2).points == Move(z, false, m2).points
  {
    var a := Move(z, false, m1);
    var b := Move(a, false, m2);
    var c := Move(z, false, m2);
    assert |b.points| == |c.points|;
    forall k | 0 <= k < |z.points|
      ensures b.points[k] == c.points[k]
    {
      assert a.points[k] == Shift(z.points[k], m1.x - z.offsetX, 0.0, m1.z - z.offsetZ);
      assert b.points[k] == Shift(a.points[k], m2.x - m1.x, 0.0, m2.z - m1.z);
    }
  }
}
